=== FILE: README.md ===
# Aivika Modeler: the model builder and its code generator

Aivika Modeler is a Python library that writes the Haskell source of an
Aivika discrete-event simulation. The user builds a model from ports. Ports
are named Haskell variables that carry streams, queues, resources and
servers. The library records every variable definition and every action
as a line of a Haskell `mdo` block. `generate_code` then prints that block.

This project models, in Dafny:

- the model environment of `model.py`;
- the ports of `port.py`;
- the transact types and data-type encoding of `data_type.py` and `util.py`;
- the expressions of `expr.py`;
- the stream, queue, resource, preemptible-resource and server operations
  that build on them.

## How the model is organised

- **`Models`** (model.dfy)
  - The state of a `MainModel` is the value `Env`. It holds:
    - the defined names;
    - the promised ("lazy") names;
    - the ordered actions;
    - the ordered result sources;
    - the two import sets.
  - `Define` (`add_var`) and `Promise` (`add_lazy_var`) are functions
    from an `Env` to a `Result<Env>`.
  - `MainModel` is a class whose fields the methods update in place. Each
    method is proved to move its state exactly as the function says.
  - `SubModel` keeps only its parent, its root and its name prefix, and
    forwards every call to the root.
  - `Scope` is either kind of model.
  - The two class-level id counters of the source (`Port._next_id`,
    `SubModel._next_id`) become a `Counter` object passed by the caller.
  - `GenerateCode` is proved to print `Program(indent, actions, sources)`.
    The lemmas about `Program` say where each action line sits.
- **`Ports`** (port.dfy)
  - There is one `Port` class whose `PortKind` tag tells apart:
    - the plain port;
    - the once-port (`PortOnce`);
    - the source port;
    - the port subclasses the stream, queue, resource and server files use.
  - The tag carries what those subclasses carry:
    - the item data type of a stream;
    - the strategy of a resource and whether it is a priority one;
    - the strategies of a queue;
    - the input and output types of a server.
  - A binding on a port that is not a once-port is a `NotAPortOnce`
    failure. In the source this is an `AttributeError`.
  - `EncodeStr` (`_encode_str`) is proved to produce a string with no line
    breaks whose unescaping is the input with its line breaks replaced by
    spaces.
- **`DataTypes`** and **`Util`** (data_type.dfy, util.dfy)
  - A data type is a sequence of items. An item is:
    - a type name (`Atom`);
    - a nested list;
    - a transact type (`Record`);
    - any other Python value, which the encoder refuses (`Illegal`).
  - `TransactType` is a class with the ordered attribute names and the
    attribute map.
- **`Exprs`** (expr.dfy): the expression builders.
- **`Plumbing`** (plumbing.dfy) holds the patterns the operation files
  share, each proved once:
  - a fresh unnamed port;
  - deriving one stream from another;
  - fanning a stream out into an array of views (split, clone);
  - merging a list of streams.
- **`Streams`, `StreamPorts`, `QueuePorts`, `Resources`,
  `PreemptibleResources` and `Servers`**: the operation files. Each
  operation is a method whose `ensures` gives:
  - the error it raises for every failed check, in the source's order;
  - the new model state;
  - the port it returns.

The data types of the port subclasses are reconstructed from how the
operation files use them. Those subclasses (`StreamPort`, `ResourcePort`,
`PreemptibleResourcePort`, `UnboundedQueuePort`, `ServerPort`) are not
part of this model:

- a stream of `t` is `['Stream', base?, t]`;
- an unbounded queue is `['IQ.Queue', base?, storing, output, t]`;
- a resource is `['R.Resource', base?, strategy]`;
- a preemptible resource is `['PR.Resource', base?]`;
- the computation type of a value of type `dt` is `['Simulation', base?, dt]`;
- `base` is the model's base computation, if it has one.

The accepted queue strategies are `FCFS`, `LCFS`, `SIRO` and
`StaticPriorities`. Only `StaticPriorities` is a priority strategy.

## Model

| member | source | states |
|---|---|---|
| Models.Define | simulation/aivika/modeler/model.py:50-63 | Refused exactly when the name is already defined. Otherwise the name becomes defined and is no longer promised. A model where no name is both defined and promised stays so. |
| Models.Promise | simulation/aivika/modeler/model.py:65-74 | Succeeds exactly when the name is neither defined nor promised. It emits no action, promises the name and keeps the model consistent. |
| Models.PromiseThenDefine | simulation/aivika/modeler/model.py:55-63 | Promising an unused name and defining it later leaves the same model as defining it at once. |
| Models.ForwardReference | simulation/aivika/modeler/model.py:50-74 | A promised name survives any number of definitions of other names. Defining it afterwards succeeds, removes the promise and places its statement after theirs. This is the forward reference a port used before its source is connected relies on, as when a port is split and merged before another port is connected to it. |
| Models.ActionLinesAppend | simulation/aivika/modeler/model.py:93-94 | The action lines of two runs of actions are the lines of the first followed by those of the second. |
| Models.ActionLineAt | simulation/aivika/modeler/model.py:93-94 | Action k is printed, indented and ended by `;`, right after the lines of actions 0..k-1. |
| Models.ActionLinesAround | simulation/aivika/modeler/model.py:93-94 | The printed actions split around any action k into those before it, its own line and those after it. |
| Models.NoSourcesRenderEmptyList | simulation/aivika/modeler/model.py:101-112 | With no result sources the list printed is `[]`. |
| Models.SourceListOrder | simulation/aivika/modeler/model.py:101-112 | A non-empty list of sources is printed in the order they were added. Each source after the first goes on a new line behind `,`. |
| Models.ProgramKeepsActionOrder | simulation/aivika/modeler/model.py:84-99 | The program prints any earlier actions before any later ones, then the return of the results. |
| Models.Counter.Take | simulation/aivika/modeler/port.py:21-23 | Hands out the current id and moves the counter on by one, so that no id is handed out twice. |
| Models.MainModel.constructor | simulation/aivika/modeler/model.py:20-28 | A new main model has the base computation given and an empty environment. |
| Models.MainModel.AddPackageImport | simulation/aivika/modeler/model.py:42-44 | Only the package set changes, gaining the package. |
| Models.MainModel.AddModuleImport | simulation/aivika/modeler/model.py:46-48 | Only the module set changes, gaining the module. |
| Models.MainModel.AddVar | simulation/aivika/modeler/model.py:50-63 | The state moves as `Define` says. A refusal leaves the whole state unchanged and reports the error. |
| Models.MainModel.AddLazyVar | simulation/aivika/modeler/model.py:65-74 | The state moves as `Promise` says. A refusal leaves the state unchanged and reports the error. |
| Models.MainModel.AddAction | simulation/aivika/modeler/model.py:76-78 | The action is appended after all earlier ones and nothing else changes. |
| Models.MainModel.AddResultSource | simulation/aivika/modeler/model.py:80-82 | The source is appended after all earlier ones and nothing else changes. |
| Models.MainModel.GenerateCode | simulation/aivika/modeler/model.py:84-99 | Fails exactly when some name is still promised, naming one of the promised names. Otherwise it prints the `mdo` block of all actions in order, then the list of result sources. |
| Models.MainModel.AppendActions | simulation/aivika/modeler/model.py:93-94 | The loop over the actions appends exactly their printed lines, in order. |
| Models.MainModel.GetSources | simulation/aivika/modeler/model.py:101-112 | The loop prints exactly the source list of `SourceListOrder`. |
| Models.SubModel.constructor | simulation/aivika/modeler/model.py:117-124 | A sub-model shares its parent's root. Its prefix is `__comp_<id>_`, built from a fresh id and not from the parent's prefix. |
| Models.SiblingNamesDiffer | simulation/aivika/modeler/model.py:117-124 | The same local name in two sub-models with different ids gives two different variables. |
| Models.SubModel.AddPackageImport | simulation/aivika/modeler/model.py:142-144 | Forwards to the main model: its package set gains the package. |
| Models.SubModel.AddModuleImport | simulation/aivika/modeler/model.py:146-148 | Forwards to the main model: its module set gains the module. |
| Models.SubModel.AddVar | simulation/aivika/modeler/model.py:150-152 | Forwards to the main model: its state moves as `Define` says. |
| Models.SubModel.AddLazyVar | simulation/aivika/modeler/model.py:154-156 | Forwards to the main model: its state moves as `Promise` says. |
| Models.SubModel.AddAction | simulation/aivika/modeler/model.py:158-160 | Forwards to the main model: the action goes to the end of its actions. |
| Models.SubModel.AddResultSource | simulation/aivika/modeler/model.py:162-164 | Forwards to the main model: the source goes to the end of its sources. |
| Exprs.Expr.Read | simulation/aivika/modeler/expr.py:24-26 | The reading is `(`, the computation, one space, the transact and `)`, each at its fixed position. |
| Exprs.ReturnExpr | simulation/aivika/modeler/expr.py:35-38 | The expression belongs to the given model. Its code is a `const (` computation, so it ignores the transact, and the value's text sits at a fixed position inside it. |
| Exprs.ReturnExprInjective | simulation/aivika/modeler/expr.py:35-38 | Two constants give the same expression exactly when their texts are equal. |
| Exprs.AttrExpr | simulation/aivika/modeler/expr.py:40-43 | The expression belongs to the given model. Its code is a lambda over the transact `a` that ends by applying the attribute's name to `a`. |
| Exprs.AttrExprInjective | simulation/aivika/modeler/expr.py:40-43 | Two attribute names give the same expression exactly when they are equal. |
| Exprs.TimeExpr | simulation/aivika/modeler/expr.py:45-48 | The expression belongs to the given model. Its code is a `const (` computation of `time`, so it ignores the transact, and it differs from the constant whose text is `time`. |
| Exprs.TranslateBinaryOperator | simulation/aivika/modeler/expr.py:58-69 | Accepts exactly the thirteen whitelisted operators. `!=` becomes `/=`, `%` becomes `mod`, `and` becomes `&&` and `or` becomes the two-bar Haskell or. These are outside the whitelist; all other operators are kept as they are. |
| Exprs.BinaryTranslationInjective | simulation/aivika/modeler/expr.py:58-69 | Two different operators never produce the same Haskell operator. |
| Exprs.BinaryExpr | simulation/aivika/modeler/expr.py:50-71 | Operands from different models are refused before anything changes. Otherwise `Control.Monad` is imported and only then is the operator checked. An unknown operator is refused; a known one gives the `liftM2` expression of both operands read at the same transact. |
| Exprs.TranslateUnaryOperator | simulation/aivika/modeler/expr.py:76-83 | Accepts exactly `+`, `-`, `abs` and `not`. `-` becomes `negate`, `+` becomes `id`, and `abs` and `not` are kept. |
| Exprs.UnaryExprAsWritten | simulation/aivika/modeler/expr.py:73-86 | As written, every call fails. |
| Exprs.UnaryExprAsWrittenRefusesNegation | simulation/aivika/modeler/expr.py:75 | As written, even the whitelisted `-` fails, on the unbound local `model`. |
| Exprs.UnaryExpr | simulation/aivika/modeler/expr.py:73-86 | Corrected: the model of the expression gains the `Data.Functor` import. A whitelisted operator gives the `fmap` expression over the operand, and any other operator is refused. |
| Exprs.IfExpr | simulation/aivika/modeler/expr.py:88-99 | Succeeds exactly when all three expressions come from one model, and the result belongs to it. Otherwise it fails with the different-models error. The code is a `do` block over the transact `a`: the condition read at `a` is bound to `f`, then `if f then` the true branch read at `a` `else` the false one. Each part sits at a stated position. |
| Exprs.IfCodeLayout | simulation/aivika/modeler/expr.py:95-98 | In the code of `if_expr`, the condition and both branches each sit at a stated position between the fixed keywords. |
| DataTypes.EncodeDataType | simulation/aivika/modeler/data_type.py:152-154 | Can fail only with an illegal-item error. |
| DataTypes.EncodeItems | simulation/aivika/modeler/data_type.py:152-154 | On success gives one text per item, and can fail only with an illegal-item error. |
| DataTypes.EncodeItem | simulation/aivika/modeler/data_type.py:156-165 | Can fail only with an illegal-item error. |
| DataTypes.EncodeItemSucceedsIffLegal | simulation/aivika/modeler/data_type.py:156-165 | An item encodes exactly when it, and every item nested in it, is a name, a list or a transact type. |
| DataTypes.EncodeDataTypeSucceedsIffLegal | simulation/aivika/modeler/data_type.py:152-154 | A data type encodes exactly when all its items are legal. |
| DataTypes.EncodeItemsSucceedIffLegal | simulation/aivika/modeler/data_type.py:152-154 | The items of a data type encode exactly when all of them are legal. |
| DataTypes.EncodeItemsAppend | simulation/aivika/modeler/data_type.py:152-154 | Encoding is compositional: the texts of a concatenation are the texts of its parts. |
| DataTypes.EncodeDataTypeAppend | simulation/aivika/modeler/data_type.py:152-154 | Two non-empty data types together encode as their encodings separated by a space. |
| DataTypes.EncodeShortTypes | simulation/aivika/modeler/data_type.py:152-165 | The empty data type encodes as empty text, and a one-item data type encodes as that item. |
| DataTypes.Attr.GetExpr | simulation/aivika/modeler/data_type.py:89-92 | The attribute expression is exactly the one `attr_expr` builds for the attribute's record field `_<type>_<name>`, in the transact type's model. |
| DataTypes.Attr.GetOptionalExpr | simulation/aivika/modeler/data_type.py:122-125 | The optional attribute's expression belongs to the model. Its code applies `maybe <default> id` to the record field read at the transact, with the default and the field at stated positions. |
| DataTypes.GetExprsDiffer | simulation/aivika/modeler/data_type.py:84-92 | Two plain attributes of one transact type give the same expression exactly when they have the same name. |
| DataTypes.OptionalDefaultsDiffer | simulation/aivika/modeler/data_type.py:122-125 | An optional attribute read with two defaults gives the same expression exactly when the defaults are equal. |
| DataTypes.FieldCodesDiffer | simulation/aivika/modeler/data_type.py:84-87 | Two attributes of one transact type have the same record field exactly when they have the same name. |
| DataTypes.OptionalFieldIsMaybe | simulation/aivika/modeler/data_type.py:132-134 | An optional attribute's field has the type `(Maybe T)` of its declared type `T`. |
| DataTypes.FieldTexts | simulation/aivika/modeler/data_type.py:51-59 | Gives one field line per attribute, and fails only on an illegal item. |
| DataTypes.FieldTextsAt | simulation/aivika/modeler/data_type.py:51-59 | Field line k is the line of attribute k. |
| DataTypes.DeclarationShape | simulation/aivika/modeler/data_type.py:44-63 | A record with attributes is the header followed by the field lines joined in attribute order and the closing brace. |
| DataTypes.FieldInDeclaration | simulation/aivika/modeler/data_type.py:44-63 | Every attribute's field, and its encoded type, appears in the declaration. |
| DataTypes.Lookup | simulation/aivika/modeler/data_type.py:51-52 | Gives one attribute per recorded name. |
| DataTypes.ReplacedFieldKeepsPosition | simulation/aivika/modeler/data_type.py:39-42 | Re-adding an attribute under an existing name replaces it in place: the field keeps its position and the others stay put. |
| DataTypes.TransactType.constructor | simulation/aivika/modeler/data_type.py:23-29 | A new transact type has no attributes, and its model gains the `Data.Maybe` import. |
| DataTypes.TransactType.AddAttr | simulation/aivika/modeler/data_type.py:39-42 | The attribute map is updated under the attribute's name. The name goes to the end of the order only when it is new. |
| DataTypes.TransactType.GetCode | simulation/aivika/modeler/data_type.py:44-63 | Prints exactly the declaration of the attributes in the order they were first added. |
| DataTypes.NewAttr | simulation/aivika/modeler/data_type.py:68-74 | A new attribute registers itself with its transact type as `add_attr` says. |
| Util.EncodePlainType | simulation/aivika/modeler/util.py:12-14 | Can fail only with an illegal-item error. |
| Util.EncodePlainItem | simulation/aivika/modeler/util.py:16-23 | Can fail only with an illegal-item error. |
| Util.PlainItemAgrees | simulation/aivika/modeler/util.py:16-23 | On items without transact types the older encoder agrees with the newer one. It succeeds exactly on legal items without transact types. |
| Util.PlainTypeAgrees | simulation/aivika/modeler/util.py:12-14 | The same two facts for whole data types. |
| Util.RecordRefused | simulation/aivika/modeler/util.py:16-23 | The older encoder refuses a transact type at any top-level position, although the newer one prints its name. |
| Util.NestedRecordRefused | simulation/aivika/modeler/util.py:12-23 | The older encoder refuses a data type with a transact type at any depth, inside nested lists too. |
| Ports.PortNamesDiffer | simulation/aivika/modeler/port.py:21-26 | Two unnamed ports with different ids get different variables in one model. |
| Strings.NatToStringInjective | simulation/aivika/modeler/port.py:21-23 | Different ids print as different digit strings. |
| Strings.DigitsValueOfNatToString | simulation/aivika/modeler/port.py:21-23 | The printed id reads back as the id. |
| Strings.IntToStringInjective | simulation/aivika/modeler/resource.py:36-39 | Different integers, negative ones included, print differently. |
| Ports.Register | simulation/aivika/modeler/port.py:31-35 | A port without a computation succeeds exactly when its name is unused, and one with a computation exactly when its name is not defined. On success the name is known to the model. |
| Ports.Port.Init | simulation/aivika/modeler/port.py:17-35 | A new port has the given model, type, kind, name, description and computation, and is bound to neither side. |
| Ports.NewPort | simulation/aivika/modeler/port.py:17-35 | An unnamed port takes `__port_<id>` and moves the counter on; a named one does not. The variable is the model prefix plus the name, and the description defaults to empty. The model moves as `Register` says, and a refusal creates no port. |
| Ports.Port.Write | simulation/aivika/modeler/port.py:57-63 | A port that already has a computation refuses and nothing changes. Otherwise the computation is recorded and the model moves as `Define` says. |
| Ports.Port.BindToInput | simulation/aivika/modeler/port.py:97-102 | A once-port can be bound to its input only once; a second binding is refused. Any other port refuses. |
| Ports.Port.BindToOutput | simulation/aivika/modeler/port.py:104-109 | A once-port can be bound to its output only once; a second binding is refused. Any other port refuses. |
| Ports.Port.ConnectTo | simulation/aivika/modeler/port.py:65-70 | The checks run in this order: bind the output, bind the target's input, compare the data types, then write the target as `return <source>`. Each failure is named. Later steps change nothing once an earlier one fails. |
| Ports.Port.AddResultSource | simulation/aivika/modeler/port.py:72-77 | Only a source port may add a result source. It appends the source line with its variable and escaped description; other ports change nothing. |
| Ports.ResultSourceOfPlainText | simulation/aivika/modeler/port.py:72-77 | For names and descriptions without quotes, backslashes or line breaks, the result source line holds them verbatim. |
| Ports.FlattenByReplacing | simulation/aivika/modeler/port.py:81-83 | The three replacements of line breaks equal one pass that turns each CRLF, LF or CR into a space. |
| Ports.EscapeByReplacing | simulation/aivika/modeler/port.py:84-85 | The two replacements equal one pass that escapes each backslash and quote. |
| Ports.EncodeStrRoundTrip | simulation/aivika/modeler/port.py:79-86 | The encoded text has no line breaks and is well escaped. Unescaping it gives back the input with line breaks flattened. |
| Ports.UnescapeEscape | simulation/aivika/modeler/port.py:84-85 | Unescaping undoes escaping. |
| Ports.EncodeStrKeepsPlain | simulation/aivika/modeler/port.py:79-86 | Text without quotes, backslashes or line breaks is encoded unchanged. |
| Plumbing.NewUnnamedPort | simulation/aivika/modeler/stream.py:16 | A new unnamed port is promised under the next id and left unbound without a computation. When its name is taken it is refused with the model's error. |
| Plumbing.StreamType | simulation/aivika/modeler/stream.py:16-21 | A stream type starts with `Stream` and ends with its item type. |
| Plumbing.DerivePort | simulation/aivika/modeler/stream.py:35-49 | The shared tail of the derived streams, in the order of the source: a new port is written, bound to its input, then the argument is bound to its output. When the argument is already consumed the new definition has been emitted anyway and the call fails. |
| Plumbing.PromiseFreshSucceeds | simulation/aivika/modeler/stream.py:66 | Promising `count` consecutive fresh ports succeeds exactly when all of their names are unused, and then promises exactly those names. |
| Plumbing.NewUnnamedPorts | simulation/aivika/modeler/stream.py:66 | The loop that makes `count` ports promises them in id order, stops at the first refusal, and returns `count` ports with consecutive names. |
| Plumbing.WriteViews | simulation/aivika/modeler/stream.py:67-71 | The loop defines port i as element i of the array, in order, and binds each to its input. |
| Plumbing.MakeViews | simulation/aivika/modeler/stream.py:66-71 | All views are promised before the first is defined. On success the model holds exactly the `n` view definitions. |
| Plumbing.FreshViewsReady | simulation/aivika/modeler/stream.py:66-71 | Fresh views have pairwise different variables that are not yet defined. |
| Plumbing.NamesOfFreshViews | simulation/aivika/modeler/stream.py:66-71 | Promising then defining the fresh views equals adding their definitions directly. |
| Plumbing.FanOut | simulation/aivika/modeler/stream.py:51-73 | The array imports come first, then the intermediate array port; the argument is bound to its output and the views are made. Every refusal is stated with what has already been emitted by then. A negative count gives no views. |
| Plumbing.ViewsThenRelease | simulation/aivika/modeler/stream.py:66-72 | After the views are made, the intermediate array is bound to its output exactly when all succeeded. |
| Plumbing.BindOutputs | simulation/aivika/modeler/stream.py:87-88 | Binds the ports in order and stops at the first refusal, naming the port. That port was not a once-port, was already consumed or appeared twice in the list. Ports after it stay unbound. |
| Plumbing.MergeCodeNamesEveryPort | simulation/aivika/modeler/stream.py:90-92 | The merged definition reads every argument port. |
| Plumbing.MergeCodeOfTwo | simulation/aivika/modeler/stream.py:90-92 | The merged definition of two ports lists them in order. |
| Plumbing.MergePorts | simulation/aivika/modeler/stream.py:86-93 | The shared tail of both merges. A new port is promised, then every argument is bound to its output. The merge succeeds exactly when each argument is an unconsumed once-port listed once. The first that is not names the error, and the ports before it stay bound. A used name is refused before anything changes. These effects are stated once, as `Plumbing.Merged`. |
| Streams.EmptyStream | simulation/aivika/modeler/stream.py:13-24 | Succeeds exactly when the new port's name is unused and the item type is legal. The stream is defined as `emptyStream` at the encoded computation type and is bound to its input. A bad item type fails after the port was promised. |
| Streams.StreamComputationLegal | simulation/aivika/modeler/stream.py:17-21 | The computation type of a stream encodes exactly when its item type does. |
| Streams.EmptyStreamTypeOfAtom | simulation/aivika/modeler/stream.py:17-23 | For a named item type and no base computation, the annotation is `Simulation (Stream T)`. |
| Streams.TerminateStream | simulation/aivika/modeler/stream.py:26-33 | Only a stream is accepted, and only once. The sink action is appended only when the stream was not already consumed. |
| Streams.DelayStream | simulation/aivika/modeler/stream.py:35-49 | A non-stream is refused before anything changes. Otherwise the result is a stream of the same item type, derived by `mapStreamM` with the hold of the given delay. |
| Streams.SplitStream | simulation/aivika/modeler/stream.py:51-73 | A non-stream is refused before anything changes. Otherwise the stream is fanned out by `splitStream` into `count` streams of its item type. |
| Streams.CloneStream | simulation/aivika/modeler/stream.py:96-118 | The same as split, with `cloneStream`. |
| Streams.MergeStreams | simulation/aivika/modeler/stream.py:75-94 | An empty list is refused first, then a non-stream head, then ports from different models, then different data types, before anything changes. Otherwise the merge happens with `concatStreams`, with the effect `Plumbing.Merged` states on success and on every failure. A list naming one port twice always fails. |
| Streams.DispatchedShape | simulation/aivika/modeler/stream.py:133-142 | A test defines the two queues, then the two dequeued streams, in that order, followed by the dispatching action, and promises nothing. |
| Streams.TwoQueues | simulation/aivika/modeler/stream.py:133-134 | Two unnamed FCFS queues of the item type are created in order, with the next two port names. Their type is encoded by the encoder of `data_type.py`, so transact types are accepted. Success comes exactly when both names are unused and the type encodes. Each failure leaves the first queue promised or defined, as far as it got. |
| Streams.TwoDequeues | simulation/aivika/modeler/stream.py:135-136 | One stream is dequeued from each queue, in order. A used name fails with the earlier stream defined. |
| Streams.TestStream | simulation/aivika/modeler/stream.py:120-143 | A non-stream is refused before anything changes. Otherwise the queue import is added. Success comes exactly when the four new names are unused, the queue type encodes (with the encoder of `data_type.py`) and the argument is not consumed. The model then holds the two queues, the two streams and the dispatch action. Each failure is stated in step order with its error and the model it leaves, down to a consumed argument refused after both queues and both streams are defined. |
| Streams.Dispatch | simulation/aivika/modeler/stream.py:133-142 | The body of `test_stream` after the import. It makes the two queues, the two streams and the binding, and appends the dispatch action. Its effect, on success and on each failure, is the one `Streams.TestStream` states. |
| Streams.DequeueAndDispatch | simulation/aivika/modeler/stream.py:135-142 | Dequeues both queues, binds the argument and appends the dispatch action, with the true stream first. A used name fails with the streams defined so far. A consumed argument fails after both streams are defined, with no action appended. |
| Streams.TransformStream | simulation/aivika/modeler/stream.py:145-163 | Refuses a non-stream, then a transform from another model, before anything changes. Otherwise the result is a stream of the same item type, derived by `mapStreamM` of the transform read at the item. |
| StreamPorts.ExpectStreamPort | simulation/aivika/modeler/stream_port.py:8-12 | A port passes exactly when its data type starts with `Stream`. |
| StreamPorts.EmptyStream | simulation/aivika/modeler/stream_port.py:14-24 | Defines a new once-port of the stream type as the empty stream, and leaves it unbound on both sides. |
| StreamPorts.TerminateStream | simulation/aivika/modeler/stream_port.py:26-32 | Refuses a non-stream. It appends the sink action only when the port is a once-port not yet consumed. |
| StreamPorts.DelayStream | simulation/aivika/modeler/stream_port.py:34-47 | Refuses a non-stream; otherwise derives a once-port of the argument's own data type. |
| StreamPorts.SplitStream | simulation/aivika/modeler/stream_port.py:49-70 | Refuses a non-stream; otherwise fans out into once-ports of the argument's data type. |
| StreamPorts.CheckFromPasses | simulation/aivika/modeler/stream_port.py:79-85 | The checks of the loop pass exactly when every later port is a stream of the first port's model and data type. |
| StreamPorts.CheckMergeable | simulation/aivika/modeler/stream_port.py:79-85 | The loop reports the first failed check in the order the source makes them. |
| StreamPorts.MergeStreams | simulation/aivika/modeler/stream_port.py:72-95 | Every check is made before anything changes. A merge of agreeing ports succeeds exactly when the new name is unused and every port is an unconsumed once-port listed once. Its effect, with `mergeStreams`, is the one `Plumbing.Merged` states: a used name changes nothing, and otherwise the first port that cannot be bound names the error, with the ports before it consumed. |
| QueuePorts.QueueType | simulation/aivika/modeler/queue_port.py:18-24 | A queue type starts with `IQ.Queue` and ends with its item type. |
| QueuePorts.CreateUnboundedQueueAsWritten | simulation/aivika/modeler/queue_port.py:10-29 | As written. The storing strategy is checked first, then the output strategy, before anything changes. Then the port is made and promised, and the computation type is encoded by the encoder of `util.py`. A type it refuses, such as a queue of transact types, fails with the port left promised. On success the queue is defined with both strategies and the encoded type. |
| QueuePorts.CreateUnboundedQueue | simulation/aivika/modeler/queue_port.py:10-29 | Corrected. The same steps and failures, but the computation type is encoded by the encoder of `data_type.py`, so queues of transact types can be created. |
| QueuePorts.UnboundedEnqueueStream | simulation/aivika/modeler/queue_port.py:31-42 | Succeeds exactly when a queue and a stream of one model are given, and appends the enqueue action. A failure changes nothing. |
| QueuePorts.UnboundedDequeueStream | simulation/aivika/modeler/queue_port.py:44-54 | Refuses a non-queue. Otherwise it defines a new stream of the queue's item type that dequeues it, bound to its input. |
| QueuePorts.QueueTypeOfAtom | simulation/aivika/modeler/queue_port.py:18-26 | For a named item and no base computation, both encoders give the annotation `Simulation (IQ.Queue s o T)`. |
| QueuePorts.QueueOfRecordsRefused | simulation/aivika/modeler/queue_port.py:18-26 | As written, a queue of transact types cannot be created, because the encoder of `util.py` refuses them. |
| QueuePorts.QueueOfRecordsDeclared | simulation/aivika/modeler/queue_port.py:18-26 | Corrected: without a base computation, a queue of a transact type `T` is declared `Simulation (IQ.Queue s o T)`. |
| Resources.MaxCountTextInjective | simulation/aivika/modeler/resource.py:36-39 | Different maximum counts, or none, give different code. |
| Resources.CreateResourceWithMaxCount | simulation/aivika/modeler/resource.py:20-43 | An unknown strategy is refused before anything changes. Otherwise the port succeeds exactly when its name is unused. It is defined with the strategy, count and maximum count, and remembers whether it is a priority resource. |
| Resources.CreateResource | simulation/aivika/modeler/resource.py:9-18 | The same with the maximum equal to the count. |
| Resources.CheckResourceAndStream | simulation/aivika/modeler/resource.py:49-53 | Passes exactly when a resource and a stream of one model are given. |
| Resources.ImportAndDerive | simulation/aivika/modeler/resource.py:55-69 | The resource import suited to the base computation is added, then the stream is derived. |
| Resources.RequestResource | simulation/aivika/modeler/resource.py:45-69 | The checks come first, and a priority resource is refused; a refusal changes nothing. Otherwise the stream is derived by `requestResource`. |
| Resources.RequestResourceWithPriority | simulation/aivika/modeler/resource.py:71-102 | The mirror image: a non-priority resource is refused, and otherwise the stream is derived by `requestResourceWithPriority` of the priority read at the item. |
| Resources.ReleaseResource | simulation/aivika/modeler/resource.py:104-126 | After the checks, the stream is derived by `releaseResource` with the resource import added. |
| Resources.ResourceCount | simulation/aivika/modeler/resource.py:128-134 | Succeeds exactly for a resource, and otherwise fails with the not-a-resource error. The result is an expression of the resource's model whose code is `R.resourceCount` of the resource's variable, lifted into an event. |
| Resources.ResourceCountInjective | simulation/aivika/modeler/resource.py:128-134 | Two resources give the same count expression exactly when they are the same variable of the same model. |
| PreemptibleResources.CreatePreemptibleResourceWithMaxCount | simulation/aivika/modeler/resource_preemption.py:13-27 | Succeeds exactly when the name is unused, defining the preemptible resource with its count and maximum count. |
| PreemptibleResources.CreatePreemptibleResource | simulation/aivika/modeler/resource_preemption.py:9-11 | The same with the maximum equal to the count. |
| PreemptibleResources.CheckPreemptibleAndStream | simulation/aivika/modeler/resource_preemption.py:36-38 | Passes exactly when a preemptible resource and a stream of one model are given. |
| PreemptibleResources.RequestPreemptibleResourceWithPriority | simulation/aivika/modeler/resource_preemption.py:29-51 | After the checks, the stream is derived by the preempting request of the priority read at the item. |
| PreemptibleResources.ReleasePreemptibleResource | simulation/aivika/modeler/resource_preemption.py:53-70 | After the checks, the stream is derived by the preempting release. |
| PreemptibleResources.PreemptibleResourceCount | simulation/aivika/modeler/resource_preemption.py:72-78 | Succeeds exactly for a preemptible resource, and otherwise fails with its error. The result is an expression of the resource's model whose code is `PR.resourceCount` of the resource's variable, lifted into an event. |
| PreemptibleResources.PreemptibleResourceCountInjective | simulation/aivika/modeler/resource_preemption.py:72-78 | Two preemptible resources give the same count expression exactly when they are the same variable of the same model. |
| Servers.CheckServerAndStream | simulation/aivika/modeler/server.py:14-18 | Passes exactly when a server and a stream of one model are given and the server's input type encodes to the stream's item type. |
| Servers.ServerStream | simulation/aivika/modeler/server.py:10-25 | A refusal changes nothing. Otherwise the result is a stream of the server's output type, derived by `runProcessor` of the server. |
| Servers.SpacedInjective | simulation/aivika/modeler/server.py:17 | The server's textual comparison loses nothing on names: different names encode differently. |
| Servers.NamedTypesAgreeIffEqual | simulation/aivika/modeler/server.py:17 | Two named item types agree exactly when they are equal. |
| Servers.ListTypeAgainstItself | simulation/aivika/modeler/server.py:17 | A list type is comparable exactly when all its items are legal. |
| Servers.SameNamedRecordsAgree | simulation/aivika/modeler/server.py:17 | Two different transact types with one name are taken to agree. |
| Servers.ListAgreesWithString | simulation/aivika/modeler/server.py:17 | The list `['a', 'b']` and the name `'ab'` are taken to agree, since both encode as `a b`. |

## Left out

- `OptionalAttr.has_expr` (data_type.py:127-130): it calls `get_code(name)` with an undefined `name` and so always raises `NameError`. It is not modelled.
- Creating a transact type: the source's constructor calls `model.add_transact_type`, which `MainModel` does not define. `DataTypes.TransactType.constructor` models the rest: the import and the empty attribute list. The registration of the type with the model is not modelled.
- The `expect_*` helpers that check a Python class are not separate members. The `PortKind` tag and the Dafny types enforce them. The ones that check a port kind become `Outcome` failures inside each operation.
- The order of `generate_code`'s error: when several names are still promised, Python reports the first in set iteration order. `Models.MainModel.GenerateCode` promises only that it reports one of them.
- The class-level counters `Port._next_id` and `SubModel._next_id` are a `Counter` passed explicitly, so that two counters never share state by accident.
- Exceptions are modelled as `Result` and `Outcome` failures with one constructor per exception message. The message text is not modelled. Python raises a `TypeError` when it builds some of these messages (for example the data-type mismatch of `_connect_to`, which adds a list to a string). The model reports the intended error instead; either way the call fails at that point.
- `str()` of delays, priorities and other Python values (floats in particular) is not modelled: these reach the model as text or as an `Expr`. Counts and maximum counts are integers, printed by `IntToString`.
- `Servers.CheckServerAndStream`: `encode_data_type` on a server type that is neither a list nor a string raises a `TypeError`. The model reports it as `IllegalDataTypeItem`, which is the same point of failure.
- `Servers.ServerStream` defines the new stream and binds it to its input in the order of `DerivePort`: write, then bind. The source binds first, then writes. Both orders end in the same state and can fail at the same points.
- `resource_preemption.py` adds no module import for its `PR.` code. The model keeps this and adds none either.
- The port subclasses of the other files (`StreamPort`, `ResourcePort`, `PreemptibleResourcePort`, `UnboundedQueuePort`, `ServerPort`) are not part of this model. Their data types are reconstructed as described above.
- `SubModel`'s `get_main_model` and `get_parent_model` are fields of the `SubModel` class.
- The random-stream generators, `transform.py`, the model-project and file writers, the results and the tables are not part of this model. They produce no state the core reads.
- Python's integer and string operations are assumed to succeed: no memory or recursion limits are modelled.
- Streams.TestStream: `stream.py` takes `create_unbounded_queue` from the module `queue` (stream.py:9), which is not part of this model. The queue functions of `queue_port.py` stand in for it, with the corrected encoder of the Findings. So a stream of transact types can be tested, as tests/integration_test.py:56 expects. With the encoder of `util.py` every such test would fail.

## Findings

| source | as written | input that shows it | evidently intended | confidence | as-written member | corrected member |
|---|---|---|---|---|---|---|
| simulation/aivika/modeler/expr.py:75 | `unary_expr` calls `model.add_module_import` at line 75. `model` is assigned only at line 84, so it is an unbound local at that point and every call raises `UnboundLocalError`. | `unary_expr('-', e)` for any expression `e` | The import goes to the model of `e`, and a whitelisted operator gives the `fmap` expression | not executed | Exprs.UnaryExprAsWritten (with Exprs.UnaryExprAsWrittenRefusesNegation) | Exprs.UnaryExpr |
| simulation/aivika/modeler/queue_port.py:26 | `create_unbounded_queue` encodes the computation type with `encode_data_type` of `util.py`, imported last at line 8. That encoder has no case for transact types, so a queue of transacts raises `InvalidDataTypeException`. | `create_unbounded_queue(model, data_type, 'q2')` with `data_type` a `TransactType`, as at tests/integration_test.py:59 | The queue is declared with the transact type's name, as the encoder of `data_type.py` renders it | not executed | QueuePorts.CreateUnboundedQueueAsWritten (with QueuePorts.QueueOfRecordsRefused) | QueuePorts.CreateUnboundedQueue (with QueuePorts.QueueOfRecordsDeclared) |

=== FILE: data_type.dfy ===
/*
 * Data types (data_type.py): the type tags attached to ports and transact
 * attributes, their rendering as Haskell type syntax, and the record
 * (transact) types whose declarations the modeler emits.
 */
module DataTypes {
  import opened Outcomes
  import opened Strings
  import opened Models
  import opened Exprs

  /** One element of a type tag. Python accepts any value here: a string,
      a nested list, a TransactType, or anything else, which only fails
      once it is encoded; `Illegal` stands for the last kind (for example
      the integer passed as an attribute type). A record is the
      TransactType object itself, so two records are equal only when they
      are the same object, as with Python's `!=`. */
  datatype TypeItem =
    | Atom(text: string)
    | Nested(items: seq<TypeItem>)
    | Record(rec: TransactType)
    | Illegal(literal: int)

  type DataType = seq<TypeItem>

  const StringType := Atom("String")
  const DoubleType := Atom("Double")
  const IntType := Atom("Int")

  /** Items the encoder accepts: anything but an Illegal value, at any
      depth. */
  predicate Legal(item: TypeItem)
  {
    match item
    case Illegal(_) => false
    case Nested(items) => forall i :: 0 <= i < |items| ==> Legal(items[i])
    case _ => true
  }

  predicate AllLegal(dt: DataType)
  {
    forall i :: 0 <= i < |dt| ==> Legal(dt[i])
  }

  /** encode_data_type: the item encodings joined by single spaces. */
  function EncodeDataType(dt: DataType): (r: Result<string>)
    ensures r.Failure? ==> r.error == IllegalDataTypeItem
    decreases dt, 1
  {
    match EncodeItems(dt)
    case Failure(e) => Failure(e)
    case Success(ts) => Success(Join(ts, " "))
  }

  /** map(_encode_data_type_item, dt), failing at an illegal item. */
  function EncodeItems(dt: DataType): (r: Result<seq<string>>)
    ensures r.Success? ==> |r.value| == |dt|
    ensures r.Failure? ==> r.error == IllegalDataTypeItem
    decreases dt, 0
  {
    if dt == [] then Success([])
    else match EncodeItem(dt[0])
      case Failure(e) => Failure(e)
      case Success(t) =>
        match EncodeItems(dt[1..])
        case Failure(e) => Failure(e)
        case Success(ts) => Success([t] + ts)
  }

  /** _encode_data_type_item: a string stands for itself, a list is
      parenthesised, a record type is written by its name. */
  function EncodeItem(item: TypeItem): (r: Result<string>)
    ensures r.Failure? ==> r.error == IllegalDataTypeItem
    decreases item
  {
    match item
    case Atom(s) => Success(s)
    case Nested(items) =>
      (match EncodeDataType(items)
       case Failure(e) => Failure(e)
       case Success(s) => Success("(" + s + ")"))
    case Record(t) => Success(t.name)
    case Illegal(_) => Failure(IllegalDataTypeItem)
  }

  /** Encoding an item succeeds exactly when the item is legal. */
  lemma {:induction false} EncodeItemSucceedsIffLegal(item: TypeItem)
    ensures EncodeItem(item).Success? <==> Legal(item)
    decreases item
  {
    match item
    case Nested(items) =>
      EncodeDataTypeSucceedsIffLegal(items);
    case _ =>
  }

  /** Encoding a type succeeds exactly when all its items are legal. */
  lemma {:induction false} EncodeDataTypeSucceedsIffLegal(dt: DataType)
    ensures EncodeDataType(dt).Success? <==> AllLegal(dt)
    decreases dt, 1
  {
    EncodeItemsSucceedIffLegal(dt);
  }

  lemma {:induction false} EncodeItemsSucceedIffLegal(dt: DataType)
    ensures EncodeItems(dt).Success? <==> AllLegal(dt)
    decreases dt, 0
  {
    if dt != [] {
      EncodeItemSucceedsIffLegal(dt[0]);
      EncodeItemsSucceedIffLegal(dt[1..]);
      if AllLegal(dt[1..]) && Legal(dt[0]) {
        forall i | 0 <= i < |dt| ensures Legal(dt[i]) {
          if i > 0 { assert dt[i] == dt[1..][i - 1]; }
        }
      }
      if AllLegal(dt) {
        forall i | 0 <= i < |dt| - 1 ensures Legal(dt[1..][i]) {
          assert dt[1..][i] == dt[i + 1];
        }
      }
    }
  }

  /** The items of a concatenation encode to the encodings of the parts. */
  lemma {:induction false} EncodeItemsAppend(a: DataType, b: DataType)
    requires EncodeItems(a).Success? && EncodeItems(b).Success?
    ensures EncodeItems(a + b) == Success(EncodeItems(a).value + EncodeItems(b).value)
  {
    if a != [] {
      var x, rest := a[0], a[1..];
      HeadAndRest(a, b);
      EncodeItemsCons(x, rest);
      EncodeItemsCons(x, rest + b);
      EncodeItemsAppend(rest, b);
      ConsAppend(EncodeItem(x).value, EncodeItems(rest).value, EncodeItems(b).value);
    } else {
      assert a + b == b;
      assert EncodeItems(a).value + EncodeItems(b).value == EncodeItems(b).value;
    }
  }

  lemma HeadAndRest(a: DataType, b: DataType)
    requires a != []
    ensures a == [a[0]] + a[1..] && a + b == [a[0]] + (a[1..] + b)
  {
  }

  lemma ConsAppend(y: string, r: seq<string>, b: seq<string>)
    ensures [y] + (r + b) == ([y] + r) + b
  {
  }

  /** One step of the map: the head's encoding, then the rest's. */
  lemma EncodeItemsCons(x: TypeItem, rest: DataType)
    ensures EncodeItems([x] + rest).Success? <==> EncodeItem(x).Success? && EncodeItems(rest).Success?
    ensures EncodeItems([x] + rest).Success? ==>
              EncodeItems([x] + rest).value == [EncodeItem(x).value] + EncodeItems(rest).value
  {
    assert ([x] + rest)[0] == x && ([x] + rest)[1..] == rest;
  }

  /** Encoding is compositional: the encoding of a concatenation of two
      non-empty types is the two encodings separated by one space, so item
      order is kept. */
  lemma EncodeDataTypeAppend(a: DataType, b: DataType)
    requires a != [] && b != []
    requires EncodeDataType(a).Success? && EncodeDataType(b).Success?
    ensures EncodeDataType(a + b) == Success(EncodeDataType(a).value + " " + EncodeDataType(b).value)
  {
    EncodeItemsAppend(a, b);
    JoinAppend(EncodeItems(a).value, EncodeItems(b).value, " ");
  }

  /** The empty type renders as the empty string and a one-item type as
      that item's encoding. */
  lemma EncodeShortTypes(x: TypeItem)
    ensures EncodeDataType([]) == Success("")
    ensures EncodeDataType([x]) == EncodeItem(x)
  {
    assert [x][1..] == [];
  }

  /** A transact attribute. `optional` distinguishes OptionalAttr from
      Attr; `declared` is the data type given at construction. */
  datatype Attr = Attr(owner: TransactType, name: string, declared: TypeItem, optional: bool) {

    /** get_code: the record field name. */
    function Code(): string
    {
      "_" + owner.name + "_" + name
    }

    /** get_data_type: an optional attribute holds a Maybe. */
    function DataType(): TypeItem
    {
      if optional then Nested([Atom("Maybe"), declared]) else declared
    }

    /** Attr.get_expr: the attribute value of the transact, which is the
        expression attr_expr builds for the record field. */
    function GetExpr(): (r: Expr)
      requires !optional
      ensures r == AttrExpr(owner.scope, Code())
      ensures r.scope == owner.scope && Occurs(Code(), r.comp)
    {
      OccursIn("(\\a -> return $ ", Code(), " a)");
      Expr(owner.scope, "(\\a -> return $ " + Code() + " a)")
    }

    /** OptionalAttr.get_expr: the attribute value, or the default when it
        is not set. */
    function GetOptionalExpr(default: string): (r: Expr)
      requires optional
      ensures r.scope == owner.scope && |r.comp| == |default| + |Code()| + 31
      ensures r.comp[..22] == "(\\a -> return $ maybe " && r.comp[22..22 + |default|] == default
      ensures r.comp[22 + |default|..28 + |default|] == " id $ " && r.comp[28 + |default|..|r.comp| - 3] == Code()
      ensures r.comp[|r.comp| - 3..] == " a)"
      ensures Occurs(Code(), r.comp) && Occurs(default, r.comp)
    {
      var c := "(\\a -> return $ maybe " + default + " id $ " + Code() + " a)";
      assert c == "(\\a -> return $ maybe " + default + (" id $ " + Code() + " a)");
      OccursIn("(\\a -> return $ maybe ", default, " id $ " + Code() + " a)");
      OccursIn("(\\a -> return $ maybe " + default + " id $ ", Code(), " a)");
      Expr(owner.scope, c)
    }
  }

  /** Two attributes of one transact type have the same record field
      exactly when they have the same name. */
  lemma FieldCodesDiffer(a: Attr, b: Attr)
    requires a.owner.name == b.owner.name
    ensures a.Code() == b.Code() <==> a.name == b.name
  {
    var head := "_" + a.owner.name + "_";
    assert a.Code() == head + a.name && b.Code() == head + b.name;
    if a.Code() == b.Code() {
      assert a.name == a.Code()[|head|..] == b.Code()[|head|..] == b.name;
    }
  }

  /** Two plain attributes of one transact type give the same expression
      exactly when they have the same name. */
  lemma GetExprsDiffer(a: Attr, b: Attr)
    requires !a.optional && !b.optional
    requires a.owner.name == b.owner.name && a.owner.scope == b.owner.scope
    ensures a.GetExpr() == b.GetExpr() <==> a.name == b.name
  {
    AttrExprInjective(a.owner.scope, a.Code(), b.Code());
    FieldCodesDiffer(a, b);
  }

  /** An optional attribute read with two defaults gives the same
      expression exactly when the defaults are equal. */
  lemma OptionalDefaultsDiffer(a: Attr, d1: string, d2: string)
    requires a.optional
    ensures a.GetOptionalExpr(d1) == a.GetOptionalExpr(d2) <==> d1 == d2
  {
    if a.GetOptionalExpr(d1) == a.GetOptionalExpr(d2) {
      var c := a.GetOptionalExpr(d1).comp;
      assert |d1| == |c| - |a.Code()| - 31 == |d2|;
      assert d1 == c[22..22 + |d1|] == d2;
    }
  }

  /** An optional attribute's field has the type `(Maybe T)`. */
  lemma OptionalFieldIsMaybe(a: Attr)
    requires a.optional && EncodeItem(a.declared).Success?
    ensures EncodeItem(a.DataType()) == Success("(Maybe " + EncodeItem(a.declared).value + ")")
  {
    var t := EncodeItem(a.declared).value;
    var one, two := [a.declared], [Atom("Maybe"), a.declared];
    assert two[0] == Atom("Maybe") && two[1..] == one;
    assert one[0] == a.declared && one[1..] == [];
    assert [t] + [] == [t];
    assert EncodeItems(one) == Success([t]);
    assert ["Maybe"] + [t] == ["Maybe", t];
    assert EncodeItems(two) == Success(["Maybe", t]);
    assert ["Maybe", t][..1] == ["Maybe"];
    assert Join(["Maybe", t], " ") == "Maybe" + " " + t;
    assert EncodeDataType(two) == Success("Maybe" + " " + t);
    assert "(" + ("Maybe" + " " + t) + ")" == "(Maybe " + t + ")";
  }

  /** One line of a record declaration: the field name and its type. */
  function FieldText(a: Attr): Result<string>
  {
    match EncodeItem(a.DataType())
    case Failure(e) => Failure(e)
    case Success(t) => Success(a.Code() + " :: " + t)
  }

  /** The field lines of a declaration, in order. */
  function FieldTexts(fields: seq<Attr>): (r: Result<seq<string>>)
    ensures r.Success? ==> |r.value| == |fields|
    ensures r.Failure? ==> r.error == IllegalDataTypeItem
  {
    if fields == [] then Success([])
    else match FieldTexts(fields[..|fields| - 1])
      case Failure(e) => Failure(e)
      case Success(ts) =>
        match FieldText(fields[|fields| - 1])
        case Failure(e) => Failure(e)
        case Success(t) => Success(ts + [t])
  }

  lemma {:induction false} FieldTextsAt(fields: seq<Attr>, k: nat)
    requires FieldTexts(fields).Success? && k < |fields|
    ensures FieldText(fields[k]).Success?
    ensures FieldTexts(fields).value[k] == FieldText(fields[k]).value
  {
    if k < |fields| - 1 {
      FieldTextsAt(fields[..|fields| - 1], k);
    }
  }

  const FieldSeparator := "\n    , "

  function DeclarationHead(name: string): string
  {
    "data " + name + " = " + "\n  " + name + " {"
  }

  /** The declaration TransactType.get_code emits for the given fields. */
  function Declaration(name: string, fields: seq<Attr>): Result<string>
  {
    if fields == [] then Success("data " + name + " = " + name + "\n")
    else match FieldTexts(fields)
      case Failure(e) => Failure(e)
      case Success(ts) => Success(DeclarationHead(name) + "\n      " + Join(ts, FieldSeparator) + "\n    }" + "\n")
  }

  /** A declaration with fields is the head, the field lines joined by
      the comma separator, and the closing brace. */
  lemma DeclarationShape(name: string, fields: seq<Attr>)
    requires Declaration(name, fields).Success? && fields != []
    ensures FieldTexts(fields).Success?
    ensures Declaration(name, fields).value
              == (DeclarationHead(name) + "\n      ") + Join(FieldTexts(fields).value, FieldSeparator) + ("\n    }" + "\n")
  {
  }

  /** Every field, and so the encoding of every attribute's type, appears
      verbatim in a declaration. */
  lemma FieldInDeclaration(name: string, fields: seq<Attr>, k: nat)
    requires Declaration(name, fields).Success? && k < |fields|
    ensures FieldText(fields[k]).Success?
    ensures Occurs(FieldText(fields[k]).value, Declaration(name, fields).value)
    ensures Occurs(EncodeItem(fields[k].DataType()).value, Declaration(name, fields).value)
  {
    DeclarationShape(name, fields);
    var ts := FieldTexts(fields).value;
    FieldTextsAt(fields, k);
    ItemOccursInJoin(DeclarationHead(name) + "\n      ", ts, FieldSeparator, "\n    }" + "\n", k);
    var tp := EncodeItem(fields[k].DataType()).value;
    var pre := fields[k].Code() + " :: ";
    OccursIn(pre, tp, "");
    assert pre + tp + "" == ts[k];
    OccursWithin(tp, ts[k], Declaration(name, fields).value);
  }

  /** The fields of the record, in declaration order. */
  function Lookup(names: seq<string>, m: map<string, Attr>): (r: seq<Attr>)
    requires forall i :: 0 <= i < |names| ==> names[i] in m
    ensures |r| == |names|
  {
    if names == [] then [] else Lookup(names[..|names| - 1], m) + [m[names[|names| - 1]]]
  }

  lemma {:induction false} LookupAt(names: seq<string>, m: map<string, Attr>, k: nat)
    requires forall i :: 0 <= i < |names| ==> names[i] in m
    requires k < |names|
    ensures Lookup(names, m)[k] == m[names[k]]
  {
    if k < |names| - 1 {
      LookupAt(names[..|names| - 1], m, k);
    }
  }

  /** Replacing the attribute stored under a name keeps its position and
      changes no other field. */
  lemma ReplacedFieldKeepsPosition(names: seq<string>, m: map<string, Attr>, a: Attr, k: nat)
    requires forall i :: 0 <= i < |names| ==> names[i] in m
    requires a.name in m && k < |names|
    ensures |Lookup(names, m[a.name := a])| == |Lookup(names, m)|
    ensures Lookup(names, m[a.name := a])[k] == if names[k] == a.name then a else Lookup(names, m)[k]
  {
    LookupAt(names, m, k);
    LookupAt(names, m[a.name := a], k);
  }

  /** A transact (record) type. Attributes are kept by name in insertion
      order, as a Python dict is. */
  class TransactType {
    const scope: Scope
    const name: string
    var attrNames: seq<string>
    var attrs: map<string, Attr>

    /** The keys of the dictionary are exactly the names, each once. */
    ghost predicate Valid()
      reads this
    {
      (forall i :: 0 <= i < |attrNames| ==> attrNames[i] in attrs)
      && (forall k :: k in attrs ==> k in attrNames)
      && (forall i, j :: 0 <= i < j < |attrNames| ==> attrNames[i] != attrNames[j])
    }

    function Fields(): (r: seq<Attr>)
      reads this
      requires Valid()
    {
      Lookup(attrNames, attrs)
    }

    /** TransactType(model, name): registers the Data.Maybe import. */
    constructor(scope: Scope, name: string)
      modifies scope.Root()
      ensures this.scope == scope && this.name == name
      ensures Valid() && attrNames == [] && attrs == map[]
      ensures scope.Root().State()
                == old(scope.Root().State()).(modules := old(scope.Root().moduleImports) + {"import Data.Maybe"})
    {
      this.scope := scope;
      this.name := name;
      attrNames := [];
      attrs := map[];
      new;
      scope.AddModuleImport("import Data.Maybe");
    }

    /** add_attr: keyed by the attribute's name; a second attribute with
        the same name replaces the first in place. */
    method AddAttr(a: Attr)
      requires Valid()
      modifies this`attrNames, this`attrs
      ensures Valid()
      ensures attrs == old(attrs)[a.name := a]
      ensures attrNames == if a.name in old(attrs) then old(attrNames) else old(attrNames) + [a.name]
    {
      if a.name !in attrs {
        attrNames := attrNames + [a.name];
      }
      attrs := attrs[a.name := a];
    }

    /** get_code: the record declaration, fields in insertion order, the
        first after a newline and six spaces and the others after a comma
        line. Fails when an attribute's type cannot be encoded. */
    method GetCode() returns (r: Result<string>)
      requires Valid()
      ensures r == Declaration(name, Fields())
    {
      var code := "data " + name + " = ";
      if |attrNames| == 0 {
        code := code + name;
      } else {
        code := code + "\n  " + name + " {";
        var first := true;
        var i := 0;
        ghost var texts: seq<string> := [];
        while i < |attrNames|
          invariant 0 <= i <= |attrNames|
          invariant first <==> i == 0
          invariant |texts| == i
          invariant FieldTexts(Lookup(attrNames[..i], attrs)) == Success(texts)
          invariant code == PartialDeclaration(name, texts)
        {
          var attr := attrs[attrNames[i]];
          FieldTextsStep(attrNames, attrs, i, texts);
          ghost var before := code;
          ghost var sep := if texts == [] then "\n      " else FieldSeparator;
          if first {
            first := false;
            code := code + "\n      ";
          } else {
            code := code + FieldSeparator;
          }
          assert code == before + sep;
          code := code + attr.Code();
          var t := EncodeItem(attr.DataType());
          if t.Failure? {
            FailureSpreads(name, attrNames, attrs, i + 1);
            return Failure(t.error);
          }
          code := code + " :: " + t.value;
          ghost var line := attr.Code() + " :: " + t.value;
          assert code == before + sep + line;
          PartialDeclarationSnoc(name, texts, line);
          texts := texts + [line];
          i := i + 1;
        }
        assert attrNames[..i] == attrNames;
        code := code + "\n    }";
        RenderedDeclaration(name, Fields(), texts);
      }
      code := code + "\n";
      r := Success(code);
    }
  }

  /** The text get_code has built after the fields rendered so far. */
  function PartialDeclaration(name: string, texts: seq<string>): string
  {
    DeclarationHead(name) + (if texts == [] then "" else "\n      " + Join(texts, FieldSeparator))
  }

  lemma RenderedDeclaration(name: string, fields: seq<Attr>, texts: seq<string>)
    requires fields != [] && FieldTexts(fields) == Success(texts)
    ensures Declaration(name, fields) == Success(PartialDeclaration(name, texts) + "\n    }" + "\n")
  {
    var h, j := DeclarationHead(name), Join(texts, FieldSeparator);
    assert texts != [];
    assert PartialDeclaration(name, texts) == h + ("\n      " + j);
    assert h + ("\n      " + j) + "\n    }" + "\n" == h + "\n      " + j + "\n    }" + "\n";
  }

  lemma PartialDeclarationSnoc(name: string, texts: seq<string>, x: string)
    ensures PartialDeclaration(name, texts + [x])
              == PartialDeclaration(name, texts) + (if texts == [] then "\n      " else FieldSeparator) + x
  {
    JoinSnoc(texts, x, FieldSeparator);
  }

  /** One more attribute renders one more field line, or fails. */
  lemma FieldTextsStep(names: seq<string>, m: map<string, Attr>, i: nat, texts: seq<string>)
    requires forall j :: 0 <= j < |names| ==> names[j] in m
    requires i < |names| && FieldTexts(Lookup(names[..i], m)) == Success(texts)
    ensures FieldTexts(Lookup(names[..i + 1], m))
              == match FieldText(m[names[i]])
                 case Failure(e) => Failure(e)
                 case Success(t) => Success(texts + [t])
  {
    assert names[..i + 1][..i] == names[..i];
  }

  /** A field that fails to render makes the whole declaration fail. */
  lemma FailureSpreads(name: string, names: seq<string>, m: map<string, Attr>, k: nat)
    requires forall j :: 0 <= j < |names| ==> names[j] in m
    requires 0 < k <= |names| && FieldTexts(Lookup(names[..k], m)).Failure?
    ensures Declaration(name, Lookup(names, m)) == Failure(IllegalDataTypeItem)
  {
    LookupPrefix(names, m, k);
    FieldTextsPrefixFails(Lookup(names, m), k);
  }

  /** The lookup of a prefix of the names is the prefix of the lookup. */
  lemma {:induction false} LookupPrefix(names: seq<string>, m: map<string, Attr>, k: nat)
    requires forall i :: 0 <= i < |names| ==> names[i] in m
    requires k <= |names|
    ensures Lookup(names[..k], m) == Lookup(names, m)[..k]
  {
    if k < |names| {
      assert names[..|names| - 1][..k] == names[..k];
      LookupPrefix(names[..|names| - 1], m, k);
    } else {
      assert names[..k] == names;
    }
  }

  /** Once a prefix of the fields fails to render, the whole does. */
  lemma {:induction false} FieldTextsPrefixFails(fields: seq<Attr>, k: nat)
    requires k <= |fields| && FieldTexts(fields[..k]).Failure?
    ensures FieldTexts(fields).Failure?
  {
    if k < |fields| {
      assert fields[..|fields| - 1][..k] == fields[..k];
      FieldTextsPrefixFails(fields[..|fields| - 1], k);
    } else {
      assert fields[..k] == fields;
    }
  }

  /** Attr(transact_type, name, data_type) and OptionalAttr(...): the new
      attribute adds itself to its transact type. The data type is not
      checked here; an illegal one only surfaces in get_code. */
  method NewAttr(owner: TransactType, name: string, declared: TypeItem, optional: bool) returns (a: Attr)
    requires owner.Valid()
    modifies owner`attrNames, owner`attrs
    ensures a == Attr(owner, name, declared, optional)
    ensures owner.Valid()
    ensures owner.attrs == old(owner.attrs)[name := a]
    ensures owner.attrNames == if name in old(owner.attrs) then old(owner.attrNames) else old(owner.attrNames) + [name]
  {
    a := Attr(owner, name, declared, optional);
    owner.AddAttr(a);
  }
}

=== FILE: expr.dfy ===
/*
 * Expressions (expr.py): a piece of target-language code that maps a
 * transact to a computation, tied to the model it was built in.
 */
module Exprs {
  import opened Outcomes
  import opened Strings
  import opened Models

  datatype Expr = Expr(scope: Scope, comp: string) {
    /** read: the computation applied to the given transact, in
        parentheses and separated from it by one space. */
    function Read(transact: string): (r: string)
      ensures |r| == |comp| + |transact| + 3 && r[0] == '(' && r[|r| - 1] == ')'
      ensures r[1..|comp| + 1] == comp && r[|comp| + 1] == ' ' && r[|comp| + 2..|r| - 1] == transact
      ensures Occurs(comp, r) && Occurs(transact, r)
    {
      var r := "(" + comp + " " + transact + ")";
      assert r == "(" + comp + (" " + transact + ")");
      OccursIn("(", comp, " " + transact + ")");
      OccursIn("(" + comp + " ", transact, ")");
      r
    }
  }

  /** return_expr: the constant whose literal text is `value`; `const`
      makes it ignore the transact. */
  function ReturnExpr(scope: Scope, value: string): (r: Expr)
    ensures r.scope == scope && |r.comp| == |value| + 15
    ensures r.comp[..7] == "const (" && r.comp[14..|r.comp| - 1] == value
    ensures Occurs(value, r.comp)
  {
    OccursIn("const (return ", value, ")");
    Expr(scope, "const (return " + value + ")")
  }

  /** Different constants give different expressions. */
  lemma ReturnExprInjective(scope: Scope, a: string, b: string)
    ensures ReturnExpr(scope, a) == ReturnExpr(scope, b) <==> a == b
  {
    if ReturnExpr(scope, a) == ReturnExpr(scope, b) {
      var c := ReturnExpr(scope, a).comp;
      assert a == c[14..|c| - 1] == b;
    }
  }

  /** attr_expr: a function of the transact `a` that returns the named
      attribute of `a`. */
  function AttrExpr(scope: Scope, attrName: string): (r: Expr)
    ensures r.scope == scope && |r.comp| == |attrName| + 19
    ensures r.comp[..7] == "(\\a -> " && r.comp[16..|r.comp| - 3] == attrName && r.comp[|r.comp| - 3..] == " a)"
    ensures Occurs(attrName, r.comp)
  {
    OccursIn("(\\a -> return $ ", attrName, " a)");
    Expr(scope, "(\\a -> return $ " + attrName + " a)")
  }

  /** Different attributes give different expressions. */
  lemma AttrExprInjective(scope: Scope, a: string, b: string)
    ensures AttrExpr(scope, a) == AttrExpr(scope, b) <==> a == b
  {
    if AttrExpr(scope, a) == AttrExpr(scope, b) {
      var c := AttrExpr(scope, a).comp;
      assert a == c[16..|c| - 3] == b;
    }
  }

  /** time_expr: the current modelling time, whatever the transact. */
  function TimeExpr(scope: Scope): (r: Expr)
    ensures r.scope == scope && |r.comp| == 25 && r.comp[..7] == "const (" && Occurs("time", r.comp)
    ensures r != ReturnExpr(scope, "time")
  {
    OccursIn("const (liftDynamics ", "time", ")");
    Expr(scope, "const (liftDynamics " + "time" + ")")
  }

  const BinaryOperators: set<string> :=
    {"==", "!=", "<", ">", "<=", ">=", "+", "-", "*", "/", "%", "and", "or"}

  /** The Haskell operator for a binary operator of the whitelist; the four
      tokens Haskell spells differently are rewritten, the others are kept. */
  function TranslateBinaryOperator(op: string): (r: Option<string>)
    ensures r.Some? <==> op in BinaryOperators
    ensures r.Some? && op in {"!=", "%", "and", "or"} ==> r.value !in BinaryOperators
    ensures r.Some? && op !in {"!=", "%", "and", "or"} ==> r.value == op
    ensures op == "!=" ==> r == Some("/=")
    ensures op == "%" ==> r == Some("mod")
    ensures op == "and" ==> r == Some("&&")
    ensures op == "or" ==> r == Some("||")
  {
    if op == "!=" then Some("/=")
    else if op == "%" then Some("mod")
    else if op == "and" then Some("&&")
    else if op == "or" then Some("||")
    else if op in {"==", "<", ">", "<=", ">=", "+", "-", "*", "/"} then Some(op)
    else None
  }

  /** No two operators of the whitelist are translated to the same Haskell
      operator. */
  lemma BinaryTranslationInjective(a: string, b: string)
    requires a in BinaryOperators && b in BinaryOperators && a != b
    ensures TranslateBinaryOperator(a) != TranslateBinaryOperator(b)
  {
  }

  /** binary_expr. Operands of different models are refused before anything
      changes; the Control.Monad import is added before the operator is
      checked, so an unrecognised operator still leaves it behind. */
  method BinaryExpr(e1: Expr, op: string, e2: Expr) returns (r: Result<Expr>)
    modifies e1.scope.Root()
    ensures e1.scope != e2.scope ==>
              r == Failure(DifferentModels) && e1.scope.Root().State() == old(e1.scope.Root().State())
    ensures e1.scope == e2.scope ==>
              e1.scope.Root().State()
                == old(e1.scope.Root().State()).(modules := old(e1.scope.Root().moduleImports) + {"import Control.Monad"})
    ensures e1.scope == e2.scope && op !in BinaryOperators ==> r == Failure(UnrecognizedBinaryOperator(op))
    ensures e1.scope == e2.scope && op in BinaryOperators ==>
              r == Success(Expr(e1.scope, "(\\a -> liftM2 (" + TranslateBinaryOperator(op).value + ") "
                                          + e1.Read("a") + " " + e2.Read("a") + ")"))
  {
    if e1.scope != e2.scope {
      return Failure(DifferentModels);
    }
    var model := e1.scope;
    model.AddModuleImport("import Control.Monad");
    var hop := TranslateBinaryOperator(op);
    if hop.None? {
      return Failure(UnrecognizedBinaryOperator(op));
    }
    r := Success(Expr(model, "(\\a -> liftM2 (" + hop.value + ") " + e1.Read("a") + " " + e2.Read("a") + ")"));
  }

  const UnaryOperators: set<string> := {"+", "-", "abs", "not"}

  /** The Haskell function for a unary operator of the whitelist. */
  function TranslateUnaryOperator(op: string): (r: Option<string>)
    ensures r.Some? <==> op in UnaryOperators
    ensures r.Some? ==> r.value in {"id", "negate", "abs", "not"}
    ensures op == "-" ==> r == Some("negate")
    ensures op == "+" ==> r == Some("id")
    ensures op in {"abs", "not"} ==> r == Some(op)
  {
    if op == "-" then Some("negate")
    else if op == "+" then Some("id")
    else if op in {"abs", "not"} then Some(op)
    else None
  }

  /** unary_expr as written: its first statement calls a method on the
      local `model`, which is only assigned further down, so Python raises
      UnboundLocalError on every call, whatever the operator, before
      touching any model. */
  function UnaryExprAsWritten(op: string, e: Expr): (r: Result<Expr>)
    ensures r.Failure?
  {
    Failure(UnboundLocal("model"))
  }

  /** Even an operator of the documented whitelist is refused as written. */
  lemma UnaryExprAsWrittenRefusesNegation(e: Expr)
    ensures "-" in UnaryOperators
    ensures UnaryExprAsWritten("-", e) == Failure(UnboundLocal("model"))
  {
  }

  /** unary_expr as intended: the model is that of the operand; the
      Data.Functor import is added, then the operator is checked against
      the whitelist and translated. */
  method UnaryExpr(op: string, e: Expr) returns (r: Result<Expr>)
    modifies e.scope.Root()
    ensures e.scope.Root().State()
              == old(e.scope.Root().State()).(modules := old(e.scope.Root().moduleImports) + {"import Data.Functor"})
    ensures r.Success? <==> op in UnaryOperators
    ensures r.Failure? ==> r.error == UnrecognizedUnaryOperator(op)
    ensures r.Success? ==>
              r.value == Expr(e.scope, "(\\a -> fmap (" + TranslateUnaryOperator(op).value + ") " + e.Read("a") + ")")
  {
    var model := e.scope;
    model.AddModuleImport("import Data.Functor");
    var hop := TranslateUnaryOperator(op);
    if hop.None? {
      return Failure(UnrecognizedUnaryOperator(op));
    }
    r := Success(Expr(model, "(\\a -> fmap (" + hop.value + ") " + e.Read("a") + ")"));
  }

  /** if_expr: refused unless the three expressions share one model; the
      result belongs to that model and, in a `do` block over the transact
      `a`, binds the condition read at `a` to `f` and then chooses between
      the two branches read at `a`. */
  function IfExpr(c: Expr, t: Expr, f: Expr): (r: Result<Expr>)
    ensures r.Success? <==> c.scope == t.scope && c.scope == f.scope
    ensures r.Failure? ==> r.error == DifferentModels
    ensures r.Success? ==>
              var code, rc, rt, rf := r.value.comp, c.Read("a"), t.Read("a"), f.Read("a");
              var k := 29 + |rc|;
              var m := k + |rt| + 6;
              && r.value.scope == c.scope
              && |code| == m + |rf| + 3
              && code[..17] == "(\\a -> do { f <- " && code[17..17 + |rc|] == rc
              && code[17 + |rc|..k] == "; if f then " && code[k..k + |rt|] == rt
              && code[k + |rt|..m] == " else " && code[m..m + |rf|] == rf
              && code[m + |rf|..] == " })"
  {
    if c.scope != t.scope || c.scope != f.scope then Failure(DifferentModels)
    else
      var rc, rt, rf := c.Read("a"), t.Read("a"), f.Read("a");
      IfCodeLayout(rc, rt, rf);
      Success(Expr(c.scope, "(\\a -> do { f <- " + rc + "; "
                            + "if f then " + rt + " else " + rf + " })"))
  }

  /** Where the condition and the two branches sit in the code of
      if_expr. */
  lemma IfCodeLayout(rc: string, rt: string, rf: string)
    ensures var code := "(\\a -> do { f <- " + rc + "; " + "if f then " + rt + " else " + rf + " })";
            var k := 29 + |rc|;
            var m := k + |rt| + 6;
            && |code| == m + |rf| + 3
            && code[..17] == "(\\a -> do { f <- " && code[17..17 + |rc|] == rc
            && code[17 + |rc|..k] == "; if f then " && code[k..k + |rt|] == rt
            && code[k + |rt|..m] == " else " && code[m..m + |rf|] == rf
            && code[m + |rf|..] == " })"
  {
    var p, s1, s2, s3 := "(\\a -> do { f <- ", "; if f then ", " else ", " })";
    var code := "(\\a -> do { f <- " + rc + "; " + "if f then " + rt + " else " + rf + " })";
    assert "; " + "if f then " == s1;
    assert code == p + rc + (s1 + rt + s2 + rf + s3);
    PieceAt(p, rc, s1 + rt + s2 + rf + s3);
    assert code == p + rc + s1 + rt + (s2 + rf + s3);
    PieceAt(p + rc, s1, rt + s2 + rf + s3);
    PieceAt(p + rc + s1, rt, s2 + rf + s3);
    PieceAt(p + rc + s1 + rt, s2, rf + s3);
    PieceAt(p + rc + s1 + rt + s2, rf, s3);
    PieceAt(p + rc + s1 + rt + s2 + rf, s3, "");
  }
}

=== FILE: model.dfy ===
/*
 * The binding environment of a simulation model (model.py): MainModel owns
 * the defined names, the promised (lazy) names, the ordered actions, the
 * ordered result sources and the two import sets; SubModel only adds a
 * name prefix and forwards every call to the main model.
 */
module Models {
  import opened Outcomes
  import opened Strings

  /** The state of a MainModel as a value. */
  datatype Env = Env(
    vars: set<string>,        // defined variable names
    lazy: set<string>,        // promised, not yet defined names
    actions: seq<string>,     // the statements of the mdo block, in order
    sources: seq<string>,     // the result sources, in order
    packages: set<string>,    // package imports
    modules: set<string>)     // module imports

  const EmptyEnv := Env({}, {}, [], [], {}, {})

  /** A name is never both defined and promised. */
  predicate Consistent(e: Env)
  {
    e.vars !! e.lazy
  }

  predicate Unused(e: Env, name: string)
  {
    name !in e.vars && name !in e.lazy
  }

  /** The action that binds a variable. */
  function Statement(name: string, comp: string): string
  {
    name + " <- " + comp
  }

  /** add_var: a defined name is refused; otherwise the name becomes defined
      (leaving the promises if it was promised) and its statement goes to
      the current tail of the actions. */
  function Define(e: Env, name: string, comp: string): (r: Result<Env>)
    ensures r.Failure? <==> name in e.vars
    ensures Consistent(e) && r.Success? ==> Consistent(r.value)
    ensures r.Success? ==> name in r.value.vars && name !in r.value.lazy
  {
    if name in e.vars then Failure(VariableAlreadyDefined(name))
    else Success(e.(vars := e.vars + {name}, lazy := e.lazy - {name},
                    actions := e.actions + [Statement(name, comp)]))
  }

  /** add_lazy_var: a name that is defined or already promised is refused;
      otherwise it is promised and nothing is emitted. */
  function Promise(e: Env, name: string): (r: Result<Env>)
    ensures r.Success? <==> Unused(e, name)
    ensures Consistent(e) && r.Success? ==> Consistent(r.value)
    ensures r.Success? ==> r.value.actions == e.actions && name in r.value.lazy
  {
    if name in e.vars then Failure(VariableAlreadyDefined(name))
    else if name in e.lazy then Failure(VariableAlreadyLazy(name))
    else Success(e.(lazy := e.lazy + {name}))
  }

  function Act(e: Env, action: string): Env
  {
    e.(actions := e.actions + [action])
  }

  /** The environment after a name unknown to `e` is defined. */
  function DefineNew(e: Env, name: string, comp: string): Env
  {
    e.(vars := e.vars + {name}, actions := e.actions + [Statement(name, comp)])
  }

  /** Promising an unused name and keeping the promise later has the same
      effect as defining it at once. */
  lemma PromiseThenDefine(e: Env, name: string, comp: string)
    requires Unused(e, name)
    ensures Promise(e, name).Success?
    ensures Define(Promise(e, name).value, name, comp) == Success(DefineNew(e, name, comp))
  {
  }

  /** Defining, one after another, names that are all free to define. */
  function DefineAll(e: Env, defs: seq<(string, string)>): Result<Env>
    decreases |defs|
  {
    if defs == [] then Success(e)
    else match Define(e, defs[0].0, defs[0].1)
      case Failure(err) => Failure(err)
      case Success(e1) => DefineAll(e1, defs[1..])
  }

  function Statements(defs: seq<(string, string)>): seq<string>
  {
    if defs == [] then [] else [Statement(defs[0].0, defs[0].1)] + Statements(defs[1..])
  }

  /** The forward-reference mechanism. While `name` is promised, other names
      may be defined (their statements can read `name`); the promise stays
      outstanding until `name` is defined, and then its statement is emitted
      after all of theirs, at the position of its definition. */
  lemma {:induction false} ForwardReference(e: Env, name: string, comp: string, defs: seq<(string, string)>)
    requires Consistent(e) && name in e.lazy
    requires DefineAll(e, defs).Success?
    requires forall i :: 0 <= i < |defs| ==> defs[i].0 != name
    ensures var mid := DefineAll(e, defs).value;
            && name in mid.lazy
            && mid.actions == e.actions + Statements(defs)
            && Define(mid, name, comp).Success?
            && Define(mid, name, comp).value.actions
                 == e.actions + Statements(defs) + [Statement(name, comp)]
            && Define(mid, name, comp).value.lazy == mid.lazy - {name}
    decreases |defs|
  {
    if defs != [] {
      var e1 := Define(e, defs[0].0, defs[0].1).value;
      ForwardReference(e1, name, comp, defs[1..]);
      assert e1.actions + Statements(defs[1..]) == e.actions + Statements(defs);
    }
  }

  /** The text of the statements of the mdo block, each on its own line. */
  function ActionLines(indent: string, actions: seq<string>): string
  {
    if actions == [] then ""
    else ActionLines(indent, actions[..|actions| - 1]) + indent + actions[|actions| - 1] + ";\n"
  }

  /** Rendering respects order: the actions of a prefix come first. */
  lemma {:induction false} ActionLinesAppend(indent: string, a: seq<string>, b: seq<string>)
    ensures ActionLines(indent, a + b) == ActionLines(indent, a) + ActionLines(indent, b)
    decreases |b|
  {
    if b == [] {
      assert a + b == a;
    } else {
      var b' := b[..|b| - 1];
      assert (a + b)[..|a + b| - 1] == a + b';
      ActionLinesAppend(indent, a, b');
    }
  }

  /** Each action occupies exactly one line, at the offset given by the
      lines before it. */
  lemma ActionLineAt(indent: string, actions: seq<string>, k: nat)
    requires k < |actions|
    ensures var before := ActionLines(indent, actions[..k]);
            var line := indent + actions[k] + ";\n";
            && |before| + |line| <= |ActionLines(indent, actions)|
            && ActionLines(indent, actions)[|before|..|before| + |line|] == line
  {
    ActionLinesAround(indent, actions, k);
    MiddleSlice(ActionLines(indent, actions[..k]), indent + actions[k] + ";\n", ActionLines(indent, actions[k + 1..]));
  }

  /** The lines before action k, its own line and the lines after it. */
  lemma ActionLinesAround(indent: string, actions: seq<string>, k: nat)
    requires k < |actions|
    ensures ActionLines(indent, actions)
              == ActionLines(indent, actions[..k]) + (indent + actions[k] + ";\n") + ActionLines(indent, actions[k + 1..])
  {
    var pre, mid, rest := actions[..k], [actions[k]], actions[k + 1..];
    assert pre + mid + rest == actions;
    ActionLinesAppend(indent, pre + mid, rest);
    ActionLinesAppend(indent, pre, mid);
    ActionLinesSingle(indent, actions[k]);
  }

  lemma ActionLinesSingle(indent: string, x: string)
    ensures ActionLines(indent, [x]) == indent + x + ";\n"
  {
    var xs := [x];
    assert xs[..|xs| - 1] == [] && xs[|xs| - 1] == x;
    assert ActionLines(indent, xs) == ActionLines(indent, []) + indent + x + ";\n";
    assert ActionLines(indent, []) == [];
  }

  lemma MiddleSlice(a: string, b: string, c: string)
    ensures (a + b + c)[|a|..|a| + |b|] == b
  {
  }

  /** The list of result sources, as _get_sources renders it. */
  function SourceList(indent: string, sources: seq<string>): string
  {
    indent + "[" + Join(sources, ",\n" + indent + " ") + "]"
  }

  /** What follows the statements: the return of the result sources. */
  function Footer(indent: string, sources: seq<string>): string
  {
    var indent2 := indent + "  ";
    indent2 + "return $\n" + indent2 + "  results\n"
      + SourceList(indent2 + "  ", sources) + "\n" + indent + "}"
  }

  /** The whole generated mdo block for the given actions and sources. */
  function Program(indent: string, actions: seq<string>, sources: seq<string>): string
  {
    indent + "mdo { \n" + ActionLines(indent + "  ", actions) + Footer(indent, sources)
  }

  /** A model with no result source renders the empty list. */
  lemma NoSourcesRenderEmptyList(indent: string)
    ensures SourceList(indent, []) == indent + "[]"
  {
  }

  /** The source list shows the sources in order: the first right after the
      bracket, each other behind a comma, a newline and the indentation. */
  lemma SourceListOrder(indent: string, sources: seq<string>)
    requires |sources| > 0
    ensures SourceList(indent, sources)
              == indent + "[" + sources[0] + Prefixed(sources[1..], ",\n" + indent + " ") + "]"
  {
    JoinIsFirstThenPrefixed(sources, ",\n" + indent + " ");
  }

  /** The generated program lists the statements in the order they were
      emitted: the lines of the actions emitted earlier come first. */
  lemma ProgramKeepsActionOrder(indent: string, earlier: seq<string>, later: seq<string>, sources: seq<string>)
    ensures Program(indent, earlier + later, sources)
              == indent + "mdo { \n" + ActionLines(indent + "  ", earlier)
                 + ActionLines(indent + "  ", later) + Footer(indent, sources)
  {
    ActionLinesAppend(indent + "  ", earlier, later);
  }

  /** Issues the numbers of generated names; owned by the caller in place of
      the class-level counters of Port and SubModel. */
  class Counter {
    var next: nat

    constructor()
      ensures next == 1
    {
      next := 1;
    }

    method Take() returns (n: nat)
      modifies this
      ensures n == old(next) && next == old(next) + 1
    {
      n := next;
      next := next + 1;
    }
  }

  class MainModel {
    const baseComp: Option<string>
    var packageImports: set<string>
    var moduleImports: set<string>
    var actions: seq<string>
    var sources: seq<string>
    var varNames: set<string>
    var lazyVarNames: set<string>

    function State(): Env
      reads this
    {
      Env(varNames, lazyVarNames, actions, sources, packageImports, moduleImports)
    }

    constructor(baseComp: Option<string>)
      ensures this.baseComp == baseComp && State() == EmptyEnv
    {
      this.baseComp := baseComp;
      packageImports, moduleImports := {}, {};
      actions, sources := [], [];
      varNames, lazyVarNames := {}, {};
    }

    method AddPackageImport(package: string)
      modifies this
      ensures State() == old(State()).(packages := old(packageImports) + {package})
    {
      packageImports := packageImports + {package};
    }

    method AddModuleImport(moduleName: string)
      modifies this
      ensures State() == old(State()).(modules := old(moduleImports) + {moduleName})
    {
      moduleImports := moduleImports + {moduleName};
    }

    method AddVar(name: string, comp: string) returns (r: Outcome)
      modifies this
      ensures var d := Define(old(State()), name, comp);
              && (d.Success? ==> r == Pass && State() == d.value)
              && (d.Failure? ==> r == Fail(d.error) && State() == old(State()))
    {
      if name in varNames {
        r := Fail(VariableAlreadyDefined(name));
      } else if name in lazyVarNames {
        var action := Statement(name, comp);
        lazyVarNames := lazyVarNames - {name};
        varNames := varNames + {name};
        AddAction(action);
        r := Pass;
      } else {
        var action := Statement(name, comp);
        varNames := varNames + {name};
        AddAction(action);
        r := Pass;
      }
    }

    method AddLazyVar(name: string) returns (r: Outcome)
      modifies this
      ensures var d := Promise(old(State()), name);
              && (d.Success? ==> r == Pass && State() == d.value)
              && (d.Failure? ==> r == Fail(d.error) && State() == old(State()))
    {
      if name in varNames {
        r := Fail(VariableAlreadyDefined(name));
      } else if name in lazyVarNames {
        r := Fail(VariableAlreadyLazy(name));
      } else {
        lazyVarNames := lazyVarNames + {name};
        r := Pass;
      }
    }

    method AddAction(action: string)
      modifies this
      ensures State() == Act(old(State()), action)
    {
      actions := actions + [action];
    }

    method AddResultSource(source: string)
      modifies this
      ensures State() == old(State()).(sources := old(sources) + [source])
    {
      sources := sources + [source];
    }

    /** generate_code: refused while any promise is outstanding, naming one
        of the promised variables; otherwise the actions in order inside an
        mdo block, followed by the result sources. */
    method GenerateCode(indent: string) returns (r: Result<string>)
      ensures r.Failure? <==> lazyVarNames != {}
      ensures r.Failure? ==> r.error.VariableNotDefined? && r.error.variable in lazyVarNames
      ensures r.Success? ==> r.value == Program(indent, actions, sources)
    {
      if |lazyVarNames| > 0 {
        var name :| name in lazyVarNames;
        return Failure(VariableNotDefined(name));
      }
      var code := indent + "mdo { \n";
      var indent2 := indent + "  ";
      code := AppendActions(code, indent2);
      ghost var body := code;
      code := code + indent2 + "return $\n";
      code := code + indent2 + "  results\n";
      var list := GetSources(indent2 + "  ");
      code := code + list + "\n";
      code := code + indent + "}";
      assert code == body + Footer(indent, sources);
      r := Success(code);
    }

    /** The loop of generate_code over the actions: each one on its own
        line, indented and ended by a semicolon, after `code`. */
    method AppendActions(code0: string, indent: string) returns (code: string)
      ensures code == code0 + ActionLines(indent, actions)
    {
      code := code0;
      var i := 0;
      while i < |actions|
        invariant 0 <= i <= |actions|
        invariant code == code0 + ActionLines(indent, actions[..i])
      {
        assert actions[..i + 1][..i] == actions[..i];
        code := code + indent + actions[i] + ";\n";
        i := i + 1;
      }
      assert actions[..i] == actions;
    }

    /** _get_sources: the result sources in order, separated by a comma, a
        newline and the indentation. */
    method GetSources(indent: string) returns (code: string)
      ensures code == SourceList(indent, sources)
    {
      code := indent + "[";
      var first := true;
      var i := 0;
      while i < |sources|
        invariant 0 <= i <= |sources|
        invariant first <==> i == 0
        invariant code == indent + "[" + Join(sources[..i], ",\n" + indent + " ")
      {
        JoinSnoc(sources[..i], sources[i], ",\n" + indent + " ");
        assert sources[..i + 1] == sources[..i] + [sources[i]];
        if first {
          first := false;
          code := code + sources[i];
        } else {
          code := code + ",\n" + indent + " " + sources[i];
        }
        i := i + 1;
      }
      assert sources[..i] == sources;
      code := code + "]";
    }
  }

  /** The prefix of the n-th submodel. */
  function SubPrefix(n: nat): string
  {
    "__comp_" + NatToString(n) + "_"
  }

  /** Distinct submodels get distinct prefixes, so a name declared in two
      sibling submodels mangles to two different variables. */
  lemma SiblingNamesDiffer(a: nat, b: nat, name: string)
    requires a != b
    ensures SubPrefix(a) + name != SubPrefix(b) + name
  {
    NatToStringInjective(a, b);
    var sa, sb := NatToString(a), NatToString(b);
    var xa, xb := SubPrefix(a) + name, SubPrefix(b) + name;
    if |sa| != |sb| {
      assert |xa| != |xb|;
    } else {
      var k :| 0 <= k < |sa| && sa[k] != sb[k];
      assert xa[7 + k] == sa[k];
      assert xb[7 + k] == sb[k];
    }
  }

  class SubModel {
    const root: MainModel
    const parent: Scope
    const prefix: string

    constructor(parent: Scope, ids: Counter)
      modifies ids
      ensures root == parent.Root() && this.parent == parent
      ensures prefix == SubPrefix(old(ids.next)) && ids.next == old(ids.next) + 1
    {
      root := parent.Root();
      this.parent := parent;
      prefix := SubPrefix(ids.next);
      new;
      var n := ids.Take();
    }

    method AddPackageImport(package: string)
      modifies root
      ensures root.State() == old(root.State()).(packages := old(root.packageImports) + {package})
    {
      root.AddPackageImport(package);
    }

    method AddModuleImport(moduleName: string)
      modifies root
      ensures root.State() == old(root.State()).(modules := old(root.moduleImports) + {moduleName})
    {
      root.AddModuleImport(moduleName);
    }

    method AddVar(name: string, comp: string) returns (r: Outcome)
      modifies root
      ensures var d := Define(old(root.State()), name, comp);
              && (d.Success? ==> r == Pass && root.State() == d.value)
              && (d.Failure? ==> r == Fail(d.error) && root.State() == old(root.State()))
    {
      r := root.AddVar(name, comp);
    }

    method AddLazyVar(name: string) returns (r: Outcome)
      modifies root
      ensures var d := Promise(old(root.State()), name);
              && (d.Success? ==> r == Pass && root.State() == d.value)
              && (d.Failure? ==> r == Fail(d.error) && root.State() == old(root.State()))
    {
      r := root.AddLazyVar(name);
    }

    method AddAction(action: string)
      modifies root
      ensures root.State() == Act(old(root.State()), action)
    {
      root.AddAction(action);
    }

    method AddResultSource(source: string)
      modifies root
      ensures root.State() == old(root.State()).(sources := old(root.sources) + [source])
    {
      root.AddResultSource(source);
    }
  }

  /** A model as the rest of the modeler sees it: the main model or a
      submodel. Equality is object identity, as in Python. */
  datatype Scope = Main(main: MainModel) | Sub(sub: SubModel) {

    /** get_main_model: every scope, however nested, ends at one MainModel. */
    function Root(): MainModel
    {
      match this
      case Main(m) => m
      case Sub(s) => s.root
    }

    /** get_var_prefix */
    function Prefix(): string
    {
      match this
      case Main(_) => ""
      case Sub(s) => s.prefix
    }

    /** get_base_comp */
    function BaseComp(): Option<string>
    {
      Root().baseComp
    }

    method AddPackageImport(package: string)
      modifies Root()
      ensures Root().State() == old(Root().State()).(packages := old(Root().packageImports) + {package})
    {
      match this
      case Main(m) => m.AddPackageImport(package);
      case Sub(s) => s.AddPackageImport(package);
    }

    method AddModuleImport(moduleName: string)
      modifies Root()
      ensures Root().State() == old(Root().State()).(modules := old(Root().moduleImports) + {moduleName})
    {
      match this
      case Main(m) => m.AddModuleImport(moduleName);
      case Sub(s) => s.AddModuleImport(moduleName);
    }

    method AddVar(name: string, comp: string) returns (r: Outcome)
      modifies Root()
      ensures var d := Define(old(Root().State()), name, comp);
              && (d.Success? ==> r == Pass && Root().State() == d.value)
              && (d.Failure? ==> r == Fail(d.error) && Root().State() == old(Root().State()))
    {
      match this
      case Main(m) => r := m.AddVar(name, comp);
      case Sub(s) => r := s.AddVar(name, comp);
    }

    method AddLazyVar(name: string) returns (r: Outcome)
      modifies Root()
      ensures var d := Promise(old(Root().State()), name);
              && (d.Success? ==> r == Pass && Root().State() == d.value)
              && (d.Failure? ==> r == Fail(d.error) && Root().State() == old(Root().State()))
    {
      match this
      case Main(m) => r := m.AddLazyVar(name);
      case Sub(s) => r := s.AddLazyVar(name);
    }

    method AddAction(action: string)
      modifies Root()
      ensures Root().State() == Act(old(Root().State()), action)
    {
      match this
      case Main(m) => m.AddAction(action);
      case Sub(s) => s.AddAction(action);
    }

    method AddResultSource(source: string)
      modifies Root()
      ensures Root().State() == old(Root().State()).(sources := old(Root().sources) + [source])
    {
      match this
      case Main(m) => m.AddResultSource(source);
      case Sub(s) => s.AddResultSource(source);
    }
  }
}

=== FILE: outcomes.dfy ===
/*
 * Failure outcomes of the modeler. Every exception the Python code raises
 * (InvalidVariableException, InvalidPortException, InvalidDataTypeException,
 * InvalidExprException, and the AttributeError/UnboundLocalError a few
 * call sites run into) becomes a constructor of Error.
 */
module Outcomes {

  datatype Option<T> = None | Some(value: T) {
    function GetOr(default: T): T {
      match this
      case Some(v) => v
      case None => default
    }
  }

  datatype Error =
    // model.py: InvalidVariableException
    | VariableAlreadyDefined(variable: string)
    | VariableAlreadyLazy(variable: string)
    | VariableNotDefined(variable: string)
    // port.py: InvalidPortException, and AttributeError on bind_to_* of a non-PortOnce
    | PortAlreadyDefined(port: string)
    | AlreadyBoundToInput(port: string)
    | AlreadyBoundToOutput(port: string)
    | NotAPortOnce(port: string)
    | NotASourcePort(port: string)
    | DataTypeMismatch(port: string)
    // data_type.py / util.py: InvalidDataTypeException
    | IllegalDataTypeItem
    // checks of the stream, queue, resource and server operations
    | NotAStream(port: string)
    | NotAResource(port: string)
    | NotAPreemptibleResource(port: string)
    | NotAnUnboundedQueue(port: string)
    | NotAServer(port: string)
    | NoPorts
    | DifferentModels
    | DifferentDataTypes
    | InvalidQueueStrategy(strategy: string)
    | PriorityStrategyExpected(port: string)
    | NonPriorityStrategyExpected(port: string)
    | ServerInputMismatch(port: string)
    // expr.py: InvalidExprException, UnboundLocalError
    | UnrecognizedBinaryOperator(op: string)
    | UnrecognizedUnaryOperator(op: string)
    | UnboundLocal(variable: string)

  datatype Result<T> = Success(value: T) | Failure(error: Error) {
    function GetOr(default: T): T {
      match this
      case Success(v) => v
      case Failure(_) => default
    }
  }

  /** The outcome of a call that returns nothing in Python. */
  datatype Outcome = Pass | Fail(error: Error)
}

=== FILE: plumbing.dfy ===
/*
 * The steps the stream, resource, queue and server operations share: make
 * an unnamed once-port, derive it from an argument stream, fan a stream out
 * into several, and bind a list of streams to their consumer. Each is the
 * sequence of port and model calls those operations repeat verbatim.
 */
module Plumbing {
  import opened Outcomes
  import opened Strings
  import opened Models
  import opened DataTypes
  import opened Ports

  /** StreamPort(model, dt) and PortOnce(model, dt): a fresh port under the
      next unnamed-port number, promised in the model. */
  method NewUnnamedPort(scope: Scope, dataType: DataType, kind: PortKind, ids: Counter) returns (r: Result<Port>)
    modifies scope.Root(), ids
    ensures ids.next == old(ids.next) + 1
    ensures var n := PortName(old(ids.next));
            var e := old(scope.Root().State());
            var mn := scope.Prefix() + n;
            && (r.Success? <==> Unused(e, mn))
            && (r.Failure? ==> r.error == Promise(e, mn).error && scope.Root().State() == e)
            && (r.Success? ==>
                  scope.Root().State() == e.(lazy := e.lazy + {mn})
                  && fresh(r.value) && r.value.Is(scope, dataType, kind, n, "", None, false, false))
  {
    r := NewPort(scope, dataType, kind, None, None, None, ids);
  }

  /** The type tag of a stream of `item`: ['Stream', base?, item]. */
  function StreamType(base: Option<string>, item: TypeItem): (dt: DataType)
    ensures |dt| > 0 && dt[0] == Atom("Stream") && dt[|dt| - 1] == item
  {
    [Atom("Stream")] + (if base.Some? then [Atom(base.value)] else []) + [item]
  }

  /** The type of a computation returning a `dt`: ['Simulation', base?, dt]. */
  function ComputationType(base: Option<string>, dt: DataType): DataType
  {
    [Atom("Simulation")] + (if base.Some? then [Atom(base.value)] else []) + [Nested(dt)]
  }

  /** The queue strategies expect_queue_strategy accepts. */
  const QueueStrategies: set<string> := {"FCFS", "LCFS", "SIRO", "StaticPriorities"}

  /** is_priority_queue_strategy */
  predicate IsPriorityStrategy(strategy: string)
  {
    strategy == "StaticPriorities"
  }

  /** The effect of DerivePort, given the model `e`, the counter `next` and
      the output flag `sBound` of the argument before the call. */
  predicate Derived(scope: Scope, dataType: DataType, kind: PortKind, code: string, s: Port,
                    next: nat, e: Env, sBound: bool, after: Env, r: Result<Port>)
    reads s, if r.Success? then {r.value} else {}
  {
    var n := PortName(next);
    var mn := scope.Prefix() + n;
    && (!Unused(e, mn) ==>
          r == Failure(Promise(e, mn).error) && after == e && s.outputBound == sBound)
    && (Unused(e, mn) ==>
          after == DefineNew(e, mn, code)
          && s.outputBound == (sBound || s.kind.IsOnce())
          && (r.Success? <==> s.kind.IsOnce() && !sBound)
          && (r.Failure? ==>
                r.error == if s.kind.IsOnce() then AlreadyBoundToOutput(s.name) else NotAPortOnce(s.name))
          && (r.Success? ==> r.value.Is(scope, dataType, kind, n, "", Some(code), true, false)))
  }

  /** The tail of delay, transform, request, release and server: a new
      port is made and defined by `code`, bound to its input, and then the
      argument stream is bound to its output. When the argument is already
      consumed the new definition has been emitted all the same. */
  method DerivePort(scope: Scope, dataType: DataType, kind: PortKind, code: string, s: Port, ids: Counter)
    returns (r: Result<Port>)
    requires kind.IsOnce()
    modifies scope.Root(), ids, s`outputBound
    ensures ids.next == old(ids.next) + 1
    ensures r.Success? ==> fresh(r.value)
    ensures Derived(scope, dataType, kind, code, s, old(ids.next), old(scope.Root().State()), old(s.outputBound),
                    scope.Root().State(), r)
  {
    var made := NewUnnamedPort(scope, dataType, kind, ids);
    if made.Failure? {
      return Failure(made.error);
    }
    var y := made.value;
    PromiseThenDefine(old(scope.Root().State()), y.mangledName, code);
    var w := y.Write(code);
    assert w == Pass;
    var b := y.BindToInput();
    var o := s.BindToOutput();
    if o.Fail? {
      return Failure(o.error);
    }
    r := Success(y);
  }

  /** The environment after each (name, computation) pair is defined in
      order, when none of the names is defined yet. */
  function Defined(e: Env, defs: seq<(string, string)>): Env
  {
    e.(vars := e.vars + NameSet(defs), lazy := e.lazy - NameSet(defs), actions := e.actions + Statements(defs))
  }

  function NameSet(defs: seq<(string, string)>): set<string>
  {
    set i | 0 <= i < |defs| :: defs[i].0
  }

  lemma {:induction false} StatementsSnoc(defs: seq<(string, string)>, d: (string, string))
    ensures Statements(defs + [d]) == Statements(defs) + [Statement(d.0, d.1)]
    decreases |defs|
  {
    if defs == [] {
      assert defs + [d] == [d];
    } else {
      assert (defs + [d])[1..] == defs[1..] + [d];
      StatementsSnoc(defs[1..], d);
    }
  }

  /** Defining the next name of the list extends the closed form by one. */
  lemma DefinedStep(e: Env, defs: seq<(string, string)>, i: nat)
    requires i < |defs|
    requires defs[i].0 !in e.vars && defs[i].0 !in NameSet(defs[..i])
    ensures Define(Defined(e, defs[..i]), defs[i].0, defs[i].1) == Success(Defined(e, defs[..i + 1]))
  {
    var x, c := defs[i].0, defs[i].1;
    var before, after := Defined(e, defs[..i]), Defined(e, defs[..i + 1]);
    var names := NameSet(defs[..i]);
    assert defs[..i + 1] == defs[..i] + [defs[i]];
    StatementsSnoc(defs[..i], defs[i]);
    assert NameSet(defs[..i + 1]) == names + {x} by {
      forall y | y in NameSet(defs[..i + 1]) ensures y in names + {x} {
        var j :| 0 <= j < i + 1 && defs[..i + 1][j].0 == y;
        if j < i {
          assert defs[..i][j].0 == y;
        }
      }
      forall y | y in names ensures y in NameSet(defs[..i + 1]) {
        var j :| 0 <= j < i && defs[..i][j].0 == y;
        assert defs[..i + 1][j].0 == y;
      }
      assert defs[..i + 1][i].0 == x;
    }
    assert x !in before.vars;
    assert before.vars + {x} == after.vars;
    assert before.lazy - {x} == after.lazy;
    assert before.actions + [Statement(x, c)] == after.actions;
  }

  /** The unnamed port numbers start..start+count-1, as mangled names. */
  function FreshSeq(prefix: string, start: nat, count: nat): (r: seq<string>)
    ensures |r| == count
  {
    seq(count, i requires 0 <= i < count => prefix + PortName(start + i))
  }

  function FreshNames(prefix: string, start: nat, count: nat): set<string>
  {
    set i: nat | start <= i < start + count :: prefix + PortName(i)
  }

  /** The list comprehension of StreamPort calls, as the model sees it:
      promising `count` unnamed ports one after another; the state, the
      next port number and whether all promises were accepted. */
  function PromiseFresh(e: Env, prefix: string, next: nat, count: nat): (Env, nat, Outcome)
    decreases count
  {
    if count == 0 then (e, next, Pass)
    else match Promise(e, prefix + PortName(next))
      case Failure(err) => (e, next + 1, Fail(err))
      case Success(e1) => PromiseFresh(e1, prefix, next + 1, count - 1)
  }

  /** Promising a run of unnamed ports succeeds exactly when none of their
      names is in use, and then promises all of them and nothing else. */
  lemma {:induction false} PromiseFreshSucceeds(e: Env, prefix: string, next: nat, count: nat)
    ensures (PromiseFresh(e, prefix, next, count).2 == Pass)
              <==> (forall i :: next <= i < next + count ==> Unused(e, prefix + PortName(i)))
    ensures PromiseFresh(e, prefix, next, count).2 == Pass ==>
              PromiseFresh(e, prefix, next, count).0 == e.(lazy := e.lazy + FreshNames(prefix, next, count))
              && PromiseFresh(e, prefix, next, count).1 == next + count
    decreases count
  {
    if count > 0 {
      var mn := prefix + PortName(next);
      if Unused(e, mn) {
        var e1 := e.(lazy := e.lazy + {mn});
        assert Promise(e, mn) == Success(e1);
        PromiseFreshSucceeds(e1, prefix, next + 1, count - 1);
        OthersStayUnused(e, prefix, next, count);
        FreshNamesSplit(prefix, next, count);
      }
    } else {
      assert FreshNames(prefix, next, count) == {};
    }
  }

  /** Promising the first name of a run does not touch the others. */
  lemma OthersStayUnused(e: Env, prefix: string, next: nat, count: nat)
    ensures var e1 := e.(lazy := e.lazy + {prefix + PortName(next)});
            forall i :: next + 1 <= i < next + count ==> Unused(e1, prefix + PortName(i)) == Unused(e, prefix + PortName(i))
  {
    var e1 := e.(lazy := e.lazy + {prefix + PortName(next)});
    forall i | next + 1 <= i < next + count
      ensures Unused(e1, prefix + PortName(i)) == Unused(e, prefix + PortName(i))
    {
      PortNamesDiffer(prefix, next, i);
    }
  }

  /** A run of names is its first name and the rest of the run. */
  lemma FreshNamesSplit(prefix: string, next: nat, count: nat)
    requires count > 0
    ensures FreshNames(prefix, next, count) == {prefix + PortName(next)} + FreshNames(prefix, next + 1, count - 1)
  {
    var mn := prefix + PortName(next);
    forall x | x in FreshNames(prefix, next, count)
      ensures x in {mn} + FreshNames(prefix, next + 1, count - 1)
    {
      var i: nat :| next <= i < next + count && x == prefix + PortName(i);
      if i > next {
        assert x in FreshNames(prefix, next + 1, count - 1);
      }
    }
  }

  /** [StreamPort(model, item) for i in range(0, count)]: `count` fresh
      ports, numbered in order, each promised. */
  method NewUnnamedPorts(scope: Scope, dataType: DataType, kind: PortKind, count: nat, ids: Counter)
    returns (r: Result<seq<Port>>)
    modifies scope.Root(), ids
    ensures var p := PromiseFresh(old(scope.Root().State()), scope.Prefix(), old(ids.next), count);
            && scope.Root().State() == p.0 && ids.next == p.1
            && (r.Success? <==> p.2 == Pass)
            && (r.Failure? ==> p.2 == Fail(r.error))
    ensures r.Success? ==> |r.value| == count
    ensures r.Success? ==>
              forall i :: 0 <= i < |r.value| ==>
                fresh(r.value[i])
                && r.value[i].Is(scope, dataType, kind, PortName(old(ids.next) + i), "", None, false, false)
  {
    var ys: seq<Port> := [];
    var i := 0;
    while i < count
      invariant 0 <= i <= count
      invariant ids.next == old(ids.next) + i
      invariant PromiseFresh(old(scope.Root().State()), scope.Prefix(), old(ids.next), count)
                == PromiseFresh(scope.Root().State(), scope.Prefix(), ids.next, count - i)
      invariant |ys| == i
      invariant forall j :: 0 <= j < i ==>
                  fresh(ys[j]) && ys[j].Is(scope, dataType, kind, PortName(old(ids.next) + j), "", None, false, false)
    {
      var made := NewUnnamedPort(scope, dataType, kind, ids);
      if made.Failure? {
        return Failure(made.error);
      }
      ys := ys + [made.value];
      i := i + 1;
    }
    r := Success(ys);
  }

  /** The code of the i-th view of a split or cloned stream. */
  function ViewCode(source: string, i: int): string
  {
    "return $ " + source + " ! " + IntToString(i)
  }

  /** Each port name paired with the code of its view. */
  function ViewDefs(names: seq<string>, source: string): (r: seq<(string, string)>)
    ensures |r| == |names|
  {
    seq(|names|, i requires 0 <= i < |names| => (names[i], ViewCode(source, i)))
  }

  function MangledNames(ys: seq<Port>): (r: seq<string>)
    ensures |r| == |ys|
  {
    seq(|ys|, i requires 0 <= i < |ys| => ys[i].mangledName)
  }

  /** The loop of split_stream and clone_stream that defines port i as
      element i of the array stream and binds it to its input. */
  method WriteViews(scope: Scope, ys: seq<Port>, source: string)
    requires forall i :: 0 <= i < |ys| ==>
               ys[i].scope == scope && ys[i].kind.IsOnce() && ys[i].comp.None? && !ys[i].inputBound
    requires forall i, j :: 0 <= i < j < |ys| ==> ys[i].mangledName != ys[j].mangledName
    requires forall i :: 0 <= i < |ys| ==> ys[i].mangledName !in scope.Root().varNames
    modifies scope.Root(), set y | y in ys
    ensures scope.Root().State() == Defined(old(scope.Root().State()), ViewDefs(MangledNames(ys), source))
    ensures forall i :: 0 <= i < |ys| ==>
              ys[i].comp == Some(ViewCode(source, i)) && ys[i].inputBound && ys[i].outputBound == old(ys[i].outputBound)
  {
    ghost var e0 := scope.Root().State();
    ghost var defs := ViewDefs(MangledNames(ys), source);
    var i := 0;
    while i < |ys|
      invariant 0 <= i <= |ys|
      invariant scope.Root().State() == Defined(e0, defs[..i])
      invariant forall j :: 0 <= j < i ==> ys[j].comp == Some(ViewCode(source, j)) && ys[j].inputBound
      invariant forall j :: i <= j < |ys| ==> ys[j].comp.None? && !ys[j].inputBound
      invariant forall j :: 0 <= j < |ys| ==> ys[j].outputBound == old(ys[j].outputBound)
    {
      var y := ys[i];
      ViewNotYetDefined(ys, defs, source, i);
      OtherViews(ys, i);
      WriteView(y, i, source, e0, defs);
      i := i + 1;
    }
    assert defs[..i] == defs;
  }

  /** The name of view i is not among the views defined before it. */
  lemma ViewNotYetDefined(ys: seq<Port>, defs: seq<(string, string)>, source: string, i: nat)
    requires i < |ys| && defs == ViewDefs(MangledNames(ys), source)
    requires forall a, b :: 0 <= a < b < |ys| ==> ys[a].mangledName != ys[b].mangledName
    ensures |defs| == |ys| && defs[i] == (ys[i].mangledName, ViewCode(source, i))
    ensures defs[i].0 !in NameSet(defs[..i])
  {
    forall j | 0 <= j < i
      ensures defs[..i][j].0 != defs[i].0
    {
      assert defs[..i][j].0 == ys[j].mangledName;
    }
  }

  /** Ports with distinct mangled names are distinct objects. */
  lemma OtherViews(ys: seq<Port>, i: nat)
    requires i < |ys|
    requires forall a, b :: 0 <= a < b < |ys| ==> ys[a].mangledName != ys[b].mangledName
    ensures forall j :: 0 <= j < |ys| && j != i ==> ys[j] != ys[i]
  {
    forall j | 0 <= j < |ys| && j != i
      ensures ys[j] != ys[i]
    {
      if j < i {
        assert ys[j].mangledName != ys[i].mangledName;
      } else {
        assert ys[i].mangledName != ys[j].mangledName;
      }
    }
  }

  /** One turn of that loop: port i is defined as element i and bound to
      its input. */
  method WriteView(y: Port, i: nat, source: string, ghost e0: Env, ghost defs: seq<(string, string)>)
    requires i < |defs| && defs[i] == (y.mangledName, ViewCode(source, i))
    requires y.kind.IsOnce() && y.comp.None? && !y.inputBound
    requires defs[i].0 !in e0.vars && defs[i].0 !in NameSet(defs[..i])
    requires y.scope.Root().State() == Defined(e0, defs[..i])
    modifies y.scope.Root(), y`comp, y`inputBound
    ensures y.scope.Root().State() == Defined(e0, defs[..i + 1])
    ensures y.comp == Some(ViewCode(source, i)) && y.inputBound
  {
    var code := "return $ " + source + " ! " + IntToString(i);
    DefinedStep(e0, defs, i);
    var w := y.Write(code);
    var b := y.BindToInput();
  }

  /** The environment once `n` unnamed ports numbered from `next` have
      been defined as the views of `source`, in order. */
  function WithViews(e: Env, prefix: string, next: nat, n: nat, source: string): Env
  {
    e.(vars := e.vars + FreshNames(prefix, next, n),
       actions := e.actions + Statements(ViewDefs(FreshSeq(prefix, next, n), source)))
  }

  /** The effect of MakeViews, given the model `e` and the counter `next`
      before it: all `n` ports are promised, in order, and then all are
      defined as the views of `source`; a promise refused stops the run. */
  predicate ViewsMade(scope: Scope, dataType: DataType, kind: PortKind, n: nat, source: string,
                      next: nat, e: Env, after: Env, nextAfter: nat, r: Result<seq<Port>>)
    reads if r.Success? then set p | p in r.value else {}
  {
    var p := PromiseFresh(e, scope.Prefix(), next, n);
    && (r.Success? <==> p.2 == Pass)
    && (r.Failure? ==> p.2 == Fail(r.error) && after == p.0 && nextAfter == p.1)
    && (r.Success? ==>
          |r.value| == n && nextAfter == next + n
          && after == WithViews(e, scope.Prefix(), next, n, source)
          && forall i :: 0 <= i < |r.value| ==>
               r.value[i].Is(scope, dataType, kind, PortName(next + i), "", Some(ViewCode(source, i)), true, false))
  }

  /** The second half of split_stream and clone_stream: `n` fresh ports,
      port i defined as element i of `source` and bound to its input. The
      ports are all promised before the first is defined, so a name taken
      halfway leaves the earlier ones promised. */
  method MakeViews(scope: Scope, dataType: DataType, kind: PortKind, n: nat, source: string, ids: Counter)
    returns (r: Result<seq<Port>>)
    requires kind.IsOnce()
    modifies scope.Root(), ids
    ensures r.Success? ==> forall i :: 0 <= i < |r.value| ==> fresh(r.value[i])
    ensures ViewsMade(scope, dataType, kind, n, source, old(ids.next), old(scope.Root().State()),
                      scope.Root().State(), ids.next, r)
  {
    ghost var e := scope.Root().State();
    ghost var next := ids.next;
    var made := NewUnnamedPorts(scope, dataType, kind, n, ids);
    if made.Failure? {
      return Failure(made.error);
    }
    var ys := made.value;
    PromiseFreshSucceeds(e, scope.Prefix(), next, n);
    ghost var names := FreshSeq(scope.Prefix(), next, n);
    assert MangledNames(ys) == names;
    ghost var e1 := scope.Root().State();
    assert e1 == e.(lazy := e.lazy + FreshNames(scope.Prefix(), next, n));
    FreshViewsReady(ys, e, scope.Prefix(), next, n);
    WriteViews(scope, ys, source);
    assert scope.Root().State() == Defined(e1, ViewDefs(names, source));
    NamesOfFreshViews(e, scope.Prefix(), next, n, source);
    r := Success(ys);
  }

  /** Ports named by a run of unused unnamed port names have pairwise
      distinct names, none of them defined. */
  lemma FreshViewsReady(ys: seq<Port>, e: Env, prefix: string, next: nat, n: nat)
    requires MangledNames(ys) == FreshSeq(prefix, next, n)
    requires forall i :: next <= i < next + n ==> Unused(e, prefix + PortName(i))
    ensures forall i, j :: 0 <= i < j < |ys| ==> ys[i].mangledName != ys[j].mangledName
    ensures forall i :: 0 <= i < |ys| ==> ys[i].mangledName !in e.vars
  {
    forall i, j | 0 <= i < j < |ys| ensures ys[i].mangledName != ys[j].mangledName {
      assert MangledNames(ys)[i] == ys[i].mangledName;
      assert MangledNames(ys)[j] == ys[j].mangledName;
      PortNamesDiffer(prefix, next + i, next + j);
    }
    forall i | 0 <= i < |ys| ensures ys[i].mangledName !in e.vars {
      assert MangledNames(ys)[i] == ys[i].mangledName;
      assert Unused(e, prefix + PortName(next + i));
    }
  }

  /** Promising a run of unused names and then defining them as views
      leaves only the definitions. */
  lemma NamesOfFreshViews(e: Env, prefix: string, next: nat, n: nat, source: string)
    requires forall i :: next <= i < next + n ==> Unused(e, prefix + PortName(i))
    ensures Defined(e.(lazy := e.lazy + FreshNames(prefix, next, n)), ViewDefs(FreshSeq(prefix, next, n), source))
              == WithViews(e, prefix, next, n, source)
  {
    var defs := ViewDefs(FreshSeq(prefix, next, n), source);
    var made := FreshNames(prefix, next, n);
    assert NameSet(defs) == made by {
      forall x | x in made ensures x in NameSet(defs) {
        var i: nat :| next <= i < next + n && x == prefix + PortName(i);
        assert defs[i - next].0 == x;
      }
    }
    assert e.lazy !! made;
    assert (e.lazy + made) - made == e.lazy;
  }

  /** Both array imports of split and clone. */
  function ArrayImports(e: Env): Env
  {
    e.(packages := e.packages + {"array"}, modules := e.modules + {"import Data.Functor", "import Data.Array"})
  }

  /** The definition of the intermediate array of streams. */
  function FanOutCode(head: string, count: int, source: string): string
  {
    "fmap (listArray (0, " + IntToString(count) + " - 1)) $ " + head + " " + IntToString(count) + " " + source
  }

  /** The effect of FanOut, given the model `e`, the counter `next` and
      the output flag `sBound` of the argument before the call; `nextAfter`
      is the counter after it. */
  predicate FannedOut(s: Port, head: string, dataType: DataType, kind: PortKind, count: int,
                      next: nat, e: Env, sBound: bool, after: Env, nextAfter: nat, r: Result<seq<Port>>)
    reads s, if r.Success? then set p | p in r.value else {}
  {
    var e1 := ArrayImports(e);
    var mn0 := s.scope.Prefix() + PortName(next);
    var e2 := DefineNew(e1, mn0, FanOutCode(head, count, s.mangledName));
    var n := if count < 0 then 0 else count;
    && (!Unused(e1, mn0) ==>
          r == Failure(Promise(e1, mn0).error) && after == e1 && nextAfter == next + 1 && s.outputBound == sBound)
    && (Unused(e1, mn0) && (!s.kind.IsOnce() || sBound) ==>
          r == Failure(if s.kind.IsOnce() then AlreadyBoundToOutput(s.name) else NotAPortOnce(s.name))
          && after == e2 && nextAfter == next + 1 && s.outputBound == sBound)
    && (Unused(e1, mn0) && s.kind.IsOnce() && !sBound ==>
          s.outputBound && ViewsMade(s.scope, dataType, kind, n, mn0, next + 1, e2, after, nextAfter, r))
  }

  /** split_stream and clone_stream after the argument check (`head` is
      splitStream or cloneStream): the array imports; an intermediate port
      holding the array of `count` streams, bound to its input; the
      argument bound to its output; the views made by MakeViews; and
      finally the intermediate bound to its output. A negative count makes
      no ports. */
  method FanOut(s: Port, head: string, dataType: DataType, kind: PortKind, count: int, ids: Counter)
    returns (r: Result<seq<Port>>)
    requires kind.IsOnce()
    modifies s.scope.Root(), ids, s`outputBound
    ensures r.Success? ==> forall i :: 0 <= i < |r.value| ==> fresh(r.value[i])
    ensures FannedOut(s, head, dataType, kind, count, old(ids.next), old(s.scope.Root().State()), old(s.outputBound),
                      s.scope.Root().State(), ids.next, r)
  {
    var model := s.scope;
    model.AddPackageImport("array");
    model.AddModuleImport("import Data.Functor");
    model.AddModuleImport("import Data.Array");
    assert model.Root().State() == ArrayImports(old(model.Root().State()));
    var code0 := "fmap (listArray (0, " + IntToString(count) + " - 1)) $ " + head + " " + IntToString(count) + " " + s.Read();
    ghost var e1 := model.Root().State();
    ghost var mn0 := model.Prefix() + PortName(ids.next);
    assert code0 == FanOutCode(head, count, s.mangledName);
    var made := DerivePort(model, dataType, kind, code0, s, ids);
    if made.Failure? {
      return Failure(made.error);
    }
    var ys0 := made.value;
    ghost var e2 := model.Root().State();
    assert e2 == DefineNew(e1, mn0, code0);
    var n: nat := if count < 0 then 0 else count;
    r := ViewsThenRelease(model, dataType, kind, n, ys0, ids);
  }

  /** The views of the intermediate array port, which is then bound to its
      output. */
  method ViewsThenRelease(scope: Scope, dataType: DataType, kind: PortKind, n: nat, y0: Port, ids: Counter)
    returns (r: Result<seq<Port>>)
    requires kind.IsOnce() && y0.kind.IsOnce() && !y0.outputBound
    modifies scope.Root(), ids, y0`outputBound
    ensures r.Success? ==> forall i :: 0 <= i < |r.value| ==> fresh(r.value[i])
    ensures ViewsMade(scope, dataType, kind, n, y0.mangledName, old(ids.next), old(scope.Root().State()),
                      scope.Root().State(), ids.next, r)
    ensures y0.outputBound == r.Success?
  {
    r := MakeViews(scope, dataType, kind, n, y0.Read(), ids);
    if r.Failure? {
      return;
    }
    var b0 := y0.BindToOutput();
    assert forall i :: 0 <= i < |r.value| ==> r.value[i] != y0;
  }

  /** The loop `for p in ps: p.bind_to_output()` of the merges: it stops at
      the first port that is not a once-port or is already bound, including
      a port listed a second time. */
  method BindOutputs(ps: seq<Port>, ghost bound: seq<bool>) returns (k: nat, r: Outcome)
    requires |bound| == |ps| && forall j :: 0 <= j < |ps| ==> bound[j] == ps[j].outputBound
    modifies ps`outputBound
    ensures k <= |ps|
    ensures r == Pass <==> k == |ps|
    ensures k < |ps| ==>
              r == Fail(if ps[k].kind.IsOnce() then AlreadyBoundToOutput(ps[k].name) else NotAPortOnce(ps[k].name))
              && (!ps[k].kind.IsOnce() || bound[k] || ps[k] in ps[..k])
    ensures forall j :: 0 <= j < k ==> ps[j].kind.IsOnce() && !bound[j] && ps[j] !in ps[..j]
    ensures forall j :: 0 <= j < |ps| ==> ps[j].outputBound == (bound[j] || ps[j] in ps[..k])
  {
    var i := 0;
    while i < |ps|
      invariant 0 <= i <= |ps|
      invariant forall j :: 0 <= j < i ==> ps[j].kind.IsOnce() && !bound[j] && ps[j] !in ps[..j]
      invariant forall p :: p in ps ==> p.outputBound == (old(p.outputBound) || p in ps[..i])
    {
      assert ps[..i + 1] == ps[..i] + [ps[i]];
      var o := ps[i].BindToOutput();
      if o.Fail? {
        assert forall j :: 0 <= j < |ps| ==> ps[j].outputBound == (bound[j] || ps[j] in ps[..i]);
        return i, o;
      }
      i := i + 1;
    }
    assert ps[..i] == ps;
    assert forall j :: 0 <= j < |ps| ==> ps[j].outputBound == (bound[j] || ps[j] in ps[..i]);
    return |ps|, Pass;
  }

  /** The definition of a merged stream: `head` applied to the list of the
      argument streams, in order. */
  function MergeCode(head: string, names: seq<string>): string
  {
    "return $ " + head + " [" + Join(names, ", ") + "]"
  }

  /** Every argument of a merge is named in the merged definition. */
  lemma MergeCodeNamesEveryPort(head: string, names: seq<string>, k: nat)
    requires k < |names|
    ensures Occurs(names[k], MergeCode(head, names))
  {
    ItemOccursInJoin("return $ " + head + " [", names, ", ", "]", k);
  }

  /** Two arguments are listed in their order, separated by a comma. */
  lemma MergeCodeOfTwo(head: string, a: string, b: string)
    ensures MergeCode(head, [a, b]) == "return $ " + head + " [" + a + ", " + b + "]"
  {
    JoinSnoc([a], b, ", ");
    assert [a] + [b] == [a, b];
  }

  /** Whether each argument is already bound to its output. */
  function OutputFlags(ps: seq<Port>): (b: seq<bool>)
    reads set p | p in ps
    ensures |b| == |ps| && forall j :: 0 <= j < |ps| ==> b[j] == ps[j].outputBound
  {
    seq(|ps|, j reads set p | p in ps requires 0 <= j < |ps| => ps[j].outputBound)
  }

  /** The effect of the merge tail, given the counter `next`, the model `e`
      and the arguments' output flags `bound` before it, and the model
      `after` it leaves: a used name is refused before anything changes;
      otherwise the arguments are bound in order and the first that cannot
      be bound is the error, with the ones before it consumed and the new
      port left promised. */
  predicate Merged(scope: Scope, dataType: DataType, kind: PortKind, ps: seq<Port>, head: string,
                   next: nat, e: Env, bound: seq<bool>, after: Env, r: Result<Port>)
    requires |bound| == |ps|
    reads set p | p in ps, if r.Success? then {r.value} else {}
  {
    var n := PortName(next);
    var mn := scope.Prefix() + n;
    && (!Unused(e, mn) ==>
          r == Failure(Promise(e, mn).error) && after == e
          && forall j :: 0 <= j < |ps| ==> ps[j].outputBound == bound[j])
    && (Unused(e, mn) ==>
          (r.Success? <==> forall j :: 0 <= j < |ps| ==> ps[j].kind.IsOnce() && !bound[j] && ps[j] !in ps[..j]))
    && (Unused(e, mn) && r.Failure? ==>
          after == e.(lazy := e.lazy + {mn})
          && exists k :: 0 <= k < |ps|
               && (forall j :: 0 <= j < k ==> ps[j].kind.IsOnce() && !bound[j] && ps[j] !in ps[..j])
               && r.error == (if ps[k].kind.IsOnce() then AlreadyBoundToOutput(ps[k].name) else NotAPortOnce(ps[k].name))
               && (forall j :: 0 <= j < |ps| ==> ps[j].outputBound == (bound[j] || ps[j] in ps[..k])))
    && (r.Success? ==>
          after == DefineNew(e, mn, MergeCode(head, MangledNames(ps)))
          && r.value.Is(scope, dataType, kind, n, "", Some(MergeCode(head, MangledNames(ps))), true, false)
          && forall j :: 0 <= j < |ps| ==> ps[j].outputBound)
  }

  /** A merge whose k-th argument cannot be bound fails with that argument's error. */
  lemma MergedRefused(scope: Scope, dataType: DataType, kind: PortKind, ps: seq<Port>, head: string,
                      next: nat, e: Env, bound: seq<bool>, after: Env, k: nat, r: Result<Port>)
    requires |bound| == |ps| && k < |ps|
    requires Unused(e, scope.Prefix() + PortName(next)) && after == e.(lazy := e.lazy + {scope.Prefix() + PortName(next)})
    requires forall j :: 0 <= j < k ==> ps[j].kind.IsOnce() && !bound[j] && ps[j] !in ps[..j]
    requires !ps[k].kind.IsOnce() || bound[k] || ps[k] in ps[..k]
    requires r == Failure(if ps[k].kind.IsOnce() then AlreadyBoundToOutput(ps[k].name) else NotAPortOnce(ps[k].name))
    requires forall j :: 0 <= j < |ps| ==> ps[j].outputBound == (bound[j] || ps[j] in ps[..k])
    ensures Merged(scope, dataType, kind, ps, head, next, e, bound, after, r)
  {
  }

  /** A merge whose arguments all bind defines the merged port. */
  lemma MergedDone(scope: Scope, dataType: DataType, kind: PortKind, ps: seq<Port>, head: string,
                   next: nat, e: Env, bound: seq<bool>, after: Env, r: Result<Port>)
    requires |bound| == |ps| && r.Success?
    requires Unused(e, scope.Prefix() + PortName(next))
    requires after == DefineNew(e, scope.Prefix() + PortName(next), MergeCode(head, MangledNames(ps)))
    requires r.value.Is(scope, dataType, kind, PortName(next), "", Some(MergeCode(head, MangledNames(ps))), true, false)
    requires forall j :: 0 <= j < |ps| ==> ps[j].kind.IsOnce() && !bound[j] && ps[j] !in ps[..j] && ps[j].outputBound
    ensures Merged(scope, dataType, kind, ps, head, next, e, bound, after, r)
  {
  }

  /** The tail both merges share: a new port is made (promised), every
      argument is bound to its output in order, the new port is bound to
      its input and defined by `head` over the argument names. A port that
      cannot be bound stops the loop and leaves the new port promised. */
  method MergePorts(scope: Scope, dataType: DataType, kind: PortKind, ps: seq<Port>, head: string, ids: Counter)
    returns (r: Result<Port>)
    requires kind.IsOnce()
    modifies scope.Root(), ids, set p | p in ps
    ensures ids.next == old(ids.next) + 1
    ensures r.Success? ==> fresh(r.value)
    ensures forall p :: p in ps ==> p.inputBound == old(p.inputBound) && p.comp == old(p.comp)
    ensures Merged(scope, dataType, kind, ps, head, old(ids.next), old(scope.Root().State()), old(OutputFlags(ps)),
                   scope.Root().State(), r)
  {
    ghost var bound := OutputFlags(ps);
    var made := NewUnnamedPort(scope, dataType, kind, ids);
    if made.Failure? {
      assert forall j :: 0 <= j < |ps| ==> ps[j].outputBound == bound[j];
      return Failure(made.error);
    }
    var y := made.value;
    ghost var e := old(scope.Root().State());
    var k, o := BindOutputs(ps, bound);
    if o.Fail? {
      r := Failure(o.error);
      MergedRefused(scope, dataType, kind, ps, head, old(ids.next), e, bound, scope.Root().State(), k, r);
      return;
    }
    assert ps[..k] == ps;
    DefineMerge(y, ps, head, e);
    r := Success(y);
    MergedDone(scope, dataType, kind, ps, head, old(ids.next), e, bound, scope.Root().State(), r);
  }

  /** The tail of the merges: the merged port is bound to its input and
      defined as `head` of the list of the arguments. */
  method DefineMerge(y: Port, ps: seq<Port>, head: string, ghost e: Env)
    requires y.kind.IsOnce() && y.comp.None? && !y.inputBound
    requires Unused(e, y.mangledName) && y.scope.Root().State() == e.(lazy := e.lazy + {y.mangledName})
    modifies y.scope.Root(), y`inputBound, y`comp
    ensures y.scope.Root().State() == DefineNew(e, y.mangledName, MergeCode(head, MangledNames(ps)))
    ensures y.comp == Some(MergeCode(head, MangledNames(ps))) && y.inputBound
  {
    var b := y.BindToInput();
    var names := seq(|ps|, i requires 0 <= i < |ps| => ps[i].Read());
    assert names == MangledNames(ps);
    var code := "return $ " + head + " [" + Join(names, ", ") + "]";
    PromiseThenDefine(e, y.mangledName, code);
    var w := y.Write(code);
    assert w == Pass;
  }
}

=== FILE: port.dfy ===
/*
 * Ports (port.py): a named variable of a model carrying a data type. A port
 * made without a computation is promised and written once later; a
 * once-port has one producer (its input) and one consumer (its output); a
 * source port can be listed among the model's result sources.
 */
module Ports {
  import opened Outcomes
  import opened Strings
  import opened Models
  import opened DataTypes

  /** Which subclass of Port an object is, with the metadata the subclass
      keeps. Stream ports are once-ports; resource, queue and server ports
      are source ports. */
  datatype PortKind =
    | Plain                                                    // Port
    | Once                                                     // PortOnce
    | Source                                                   // SourcePort
    | Stream(item: TypeItem)                                   // StreamPort
    | Resource(strategy: string, priority: bool)               // ResourcePort
    | PreemptibleResource                                      // PreemptibleResourcePort
    | UnboundedQueue(item: TypeItem, storingStrategy: string, outputStrategy: string)  // UnboundedQueuePort
    | Server(input: TypeItem, output: TypeItem)             // ServerPort
  {
    /** The port has bind_to_input and bind_to_output. */
    predicate IsOnce()
    {
      Once? || Stream?
    }

    /** The port has add_result_source. */
    predicate IsSource()
    {
      Source? || Resource? || PreemptibleResource? || UnboundedQueue? || Server?
    }
  }

  /** The name of the n-th unnamed port. */
  function PortName(n: nat): string
  {
    "__port_" + NatToString(n)
  }

  /** Unnamed ports never collide: distinct numbers give distinct names,
      under any model prefix. */
  lemma PortNamesDiffer(prefix: string, a: nat, b: nat)
    requires a != b
    ensures prefix + PortName(a) != prefix + PortName(b)
  {
    NatToStringInjective(a, b);
    var sa, sb := NatToString(a), NatToString(b);
    var xa, xb := prefix + PortName(a), prefix + PortName(b);
    if |sa| != |sb| {
      assert |xa| != |xb|;
    } else {
      var k :| 0 <= k < |sa| && sa[k] != sb[k];
      assert xa[|prefix| + 7 + k] == sa[k];
      assert xb[|prefix| + 7 + k] == sb[k];
    }
  }

  /** The effect of a model call, given what its specification function
      computed: the new state on success, the error and no change on
      failure. */
  predicate Applied(before: Env, after: Env, d: Result<Env>, r: Outcome)
  {
    match d
    case Success(e) => r == Pass && after == e
    case Failure(err) => r == Fail(err) && after == before
  }

  /** What Port.__init__ does to the model: promise the name when no
      computation is given, define it otherwise. */
  function Register(e: Env, mangledName: string, comp: Option<string>): (r: Result<Env>)
    ensures comp.None? ==> (r.Success? <==> Unused(e, mangledName))
    ensures comp.Some? ==> (r.Success? <==> mangledName !in e.vars)
    ensures r.Success? ==> mangledName in r.value.vars + r.value.lazy
  {
    match comp
    case None => Promise(e, mangledName)
    case Some(c) => Define(e, mangledName, c)
  }

  class Port {
    const scope: Scope
    const dataType: DataType
    const kind: PortKind
    const name: string
    const mangledName: string
    const descr: string
    var comp: Option<string>
    var inputBound: bool
    var outputBound: bool

    /** The whole state of a port. */
    predicate Is(scope: Scope, dataType: DataType, kind: PortKind, name: string, descr: string,
                 comp: Option<string>, inputBound: bool, outputBound: bool)
      reads this
    {
      && this.scope == scope && this.dataType == dataType && this.kind == kind
      && this.name == name && mangledName == scope.Prefix() + name && this.descr == descr
      && this.comp == comp && this.inputBound == inputBound && this.outputBound == outputBound
    }

    /** The fields Port.__init__ and PortOnce.__init__ set; the model is
        told about the port by NewPort. */
    constructor Init(scope: Scope, dataType: DataType, kind: PortKind, name: string, descr: string,
                     comp: Option<string>)
      ensures Is(scope, dataType, kind, name, descr, comp, false, false)
    {
      this.scope := scope;
      this.dataType := dataType;
      this.kind := kind;
      this.name := name;
      this.mangledName := scope.Prefix() + name;
      this.descr := descr;
      this.comp := comp;
      inputBound := false;
      outputBound := false;
    }

    /** read: the variable the port stands for. */
    function Read(): string
    {
      mangledName
    }

    /** write: defines the port unless it has a computation already. The
        computation is recorded before the model is asked, so it stays
        recorded even when the model refuses the name. */
    method Write(c: string) returns (r: Outcome)
      modifies this`comp, scope.Root()
      ensures old(comp).Some? ==>
                r == Fail(PortAlreadyDefined(name)) && comp == old(comp)
                && scope.Root().State() == old(scope.Root().State())
      ensures old(comp).None? ==>
                comp == Some(c)
                && Applied(old(scope.Root().State()), scope.Root().State(),
                           Define(old(scope.Root().State()), mangledName, c), r)
    {
      if comp.None? {
        comp := Some(c);
        r := scope.AddVar(mangledName, c);
      } else {
        r := Fail(PortAlreadyDefined(name));
      }
    }

    /** bind_to_input: succeeds once on a once-port. */
    method BindToInput() returns (r: Outcome)
      modifies this`inputBound
      ensures !kind.IsOnce() ==> r == Fail(NotAPortOnce(name)) && inputBound == old(inputBound)
      ensures kind.IsOnce() ==>
                inputBound && r == if old(inputBound) then Fail(AlreadyBoundToInput(name)) else Pass
    {
      if !kind.IsOnce() {
        return Fail(NotAPortOnce(name));
      }
      if inputBound {
        return Fail(AlreadyBoundToInput(name));
      }
      inputBound := true;
      r := Pass;
    }

    /** bind_to_output: succeeds once on a once-port. */
    method BindToOutput() returns (r: Outcome)
      modifies this`outputBound
      ensures !kind.IsOnce() ==> r == Fail(NotAPortOnce(name)) && outputBound == old(outputBound)
      ensures kind.IsOnce() ==>
                outputBound && r == if old(outputBound) then Fail(AlreadyBoundToOutput(name)) else Pass
    {
      if !kind.IsOnce() {
        return Fail(NotAPortOnce(name));
      }
      if outputBound {
        return Fail(AlreadyBoundToOutput(name));
      }
      outputBound := true;
      r := Pass;
    }

    /** connect_to: binds this port's output, then the destination's input,
        and only then compares the data types, so a mismatch leaves both
        flags set; with equal types the destination reads this port. */
    method ConnectTo(dst: Port) returns (r: Outcome)
      modifies this`outputBound, dst`inputBound, dst`comp, dst.scope.Root()
      ensures var bound := kind.IsOnce() && !old(outputBound);
              var both := bound && dst.kind.IsOnce() && !old(dst.inputBound);
              var code := "return " + mangledName;
              && outputBound == (old(outputBound) || kind.IsOnce())
              && dst.inputBound == (old(dst.inputBound) || (bound && dst.kind.IsOnce()))
              && (!bound ==>
                    r == Fail(if kind.IsOnce() then AlreadyBoundToOutput(name) else NotAPortOnce(name)))
              && (bound && !both ==>
                    r == Fail(if dst.kind.IsOnce() then AlreadyBoundToInput(dst.name) else NotAPortOnce(dst.name)))
              && (both && dataType != dst.dataType ==> r == Fail(DataTypeMismatch(dst.name)))
              && (!(both && dataType == dst.dataType) ==>
                    dst.comp == old(dst.comp) && dst.scope.Root().State() == old(dst.scope.Root().State()))
              && (both && dataType == dst.dataType && old(dst.comp).Some? ==>
                    r == Fail(PortAlreadyDefined(dst.name)) && dst.comp == old(dst.comp)
                    && dst.scope.Root().State() == old(dst.scope.Root().State()))
              && (both && dataType == dst.dataType && old(dst.comp).None? ==>
                    dst.comp == Some(code)
                    && Applied(old(dst.scope.Root().State()), dst.scope.Root().State(),
                               Define(old(dst.scope.Root().State()), dst.mangledName, code), r))
    {
      r := BindToOutput();
      if r.Fail? {
        return;
      }
      r := dst.BindToInput();
      if r.Fail? {
        return;
      }
      if dataType != dst.dataType {
        return Fail(DataTypeMismatch(dst.name));
      }
      r := dst.Write("return " + Read());
    }

    /** add_result_source (SourcePort) and _add_result_source: one more
        result source naming this port. */
    method AddResultSource() returns (r: Outcome)
      modifies scope.Root()
      ensures !kind.IsSource() ==>
                r == Fail(NotASourcePort(name)) && scope.Root().State() == old(scope.Root().State())
      ensures kind.IsSource() ==>
                r == Pass
                && scope.Root().State()
                   == old(scope.Root().State()).(sources := old(scope.Root().sources) + [ResultSource(mangledName, descr)])
    {
      if !kind.IsSource() {
        return Fail(NotASourcePort(name));
      }
      var n := "\"" + EncodeStr(mangledName) + "\"";
      var d := "\"" + EncodeStr(descr) + "\"";
      assert "resultSource " + n + " " + d + " " + mangledName == ResultSource(mangledName, descr);
      scope.AddResultSource("resultSource " + n + " " + d + " " + mangledName);
      r := Pass;
    }
  }

  /** Port.__init__ together with the registration: an unnamed port takes
      the next number from the counter (even when the model then refuses
      it); a port without a computation is promised, one with a
      computation is defined; the port starts unbound on both sides. */
  method NewPort(scope: Scope, dataType: DataType, kind: PortKind, name: Option<string>,
                 descr: Option<string>, comp: Option<string>, ids: Counter) returns (r: Result<Port>)
    modifies scope.Root(), ids
    ensures ids.next == old(ids.next) + (if name.None? then 1 else 0)
    ensures var n := name.GetOr(PortName(old(ids.next)));
            var e := old(scope.Root().State());
            var d := Register(e, scope.Prefix() + n, comp);
            && scope.Root().State() == d.GetOr(e)
            && (d.Failure? ==> r == Failure(d.error))
            && (d.Success? ==>
                  r.Success? && fresh(r.value)
                  && r.value.Is(scope, dataType, kind, n, descr.GetOr(""), comp, false, false))
  {
    var n: string;
    if name.None? {
      var k := ids.Take();
      n := PortName(k);
    } else {
      n := name.value;
    }
    var p := new Port.Init(scope, dataType, kind, n, descr.GetOr(""), comp);
    var o: Outcome;
    if comp.None? {
      o := scope.AddLazyVar(p.mangledName);
    } else {
      o := scope.AddVar(p.mangledName, comp.value);
    }
    if o.Fail? {
      return Failure(o.error);
    }
    r := Success(p);
  }

  /** The result source entry of a port. */
  function ResultSource(mangledName: string, descr: string): string
  {
    "resultSource \"" + EncodeStr(mangledName) + "\" \"" + EncodeStr(descr) + "\" " + mangledName
  }

  /** A port whose name and description need no escaping is listed
      verbatim. */
  lemma ResultSourceOfPlainText(mangledName: string, descr: string)
    requires Plain(mangledName) && Plain(descr)
    ensures ResultSource(mangledName, descr)
              == "resultSource \"" + mangledName + "\" \"" + descr + "\" " + mangledName
  {
    EncodeStrKeepsPlain(mangledName);
    EncodeStrKeepsPlain(descr);
  }

  /** _encode_str: the five replacements, in the order of the source. */
  function EncodeStr(s: string): string
  {
    var s1 := Replace(s, "\r\n", " ");
    var s2 := Replace(s1, "\n", " ");
    var s3 := Replace(s2, "\r", " ");
    var s4 := Replace(s3, "\\", "\\\\");
    Replace(s4, "\"", "\\\"")
  }

  predicate NoLineBreaks(s: string)
  {
    '\r' !in s && '\n' !in s
  }

  /** Text that none of the replacements touch. */
  predicate Plain(s: string)
  {
    NoLineBreaks(s) && '\\' !in s && '"' !in s
  }

  /** Every line break (CR LF, LF or CR) becomes one space. */
  function FlattenNewlines(s: string): string
    decreases |s|
  {
    if s == [] then []
    else if |s| >= 2 && s[0] == '\r' && s[1] == '\n' then " " + FlattenNewlines(s[2..])
    else if s[0] == '\r' || s[0] == '\n' then " " + FlattenNewlines(s[1..])
    else [s[0]] + FlattenNewlines(s[1..])
  }

  /** Backslash and double quote are preceded by a backslash. */
  function Escape(s: string): string
  {
    if s == [] then []
    else (if s[0] == '\\' then "\\\\" else if s[0] == '"' then "\\\"" else [s[0]]) + Escape(s[1..])
  }

  /** A Haskell string literal's body: no bare double quote, and every
      backslash starts the escape of a backslash or a double quote. */
  predicate WellEscaped(e: string)
    decreases |e|
  {
    if e == [] then true
    else if e[0] == '\\' then |e| >= 2 && (e[1] == '\\' || e[1] == '"') && WellEscaped(e[2..])
    else e[0] != '"' && WellEscaped(e[1..])
  }

  /** Reading a string literal's body back: a backslash stands for the
      character after it. */
  function Unescape(e: string): string
    decreases |e|
  {
    if e == [] then []
    else if e[0] == '\\' && |e| >= 2 then [e[1]] + Unescape(e[2..])
    else [e[0]] + Unescape(e[1..])
  }

  /** Replacing one character distributes over concatenation. */
  lemma {:induction false} ReplaceCharAppend(a: string, b: string, p: char, rep: string)
    ensures Replace(a + b, [p], rep) == Replace(a, [p], rep) + Replace(b, [p], rep)
    decreases |a|
  {
    if a == [] {
      assert a + b == b;
    } else {
      assert a + b == [a[0]] + (a[1..] + b);
      assert a == [a[0]] + a[1..];
      ReplaceCharCons(a[0], a[1..] + b, p, rep);
      ReplaceCharCons(a[0], a[1..], p, rep);
      ReplaceCharAppend(a[1..], b, p, rep);
    }
  }

  /** The first three replacements flatten the line breaks. */
  lemma {:induction false} FlattenByReplacing(s: string)
    ensures Replace(Replace(Replace(s, "\r\n", " "), "\n", " "), "\r", " ") == FlattenNewlines(s)
    decreases |s|
  {
    if s == [] {
    } else if |s| >= 2 && s[0] == '\r' && s[1] == '\n' {
      assert s[..2] == "\r\n";
      var t := Replace(s[2..], "\r\n", " ");
      assert Replace(s, "\r\n", " ") == [' '] + t;
      ReplaceCharCons(' ', t, '\n', " ");
      var u := Replace(t, "\n", " ");
      ReplaceCharCons(' ', u, '\r', " ");
      FlattenByReplacing(s[2..]);
    } else {
      var t := Replace(s[1..], "\r\n", " ");
      if |s| >= 2 {
        assert s[..2] != "\r\n" by {
          assert s[..2][0] == s[0] && s[..2][1] == s[1];
        }
      } else {
        assert s == [s[0]] && s[1..] == [];
      }
      assert Replace(s, "\r\n", " ") == [s[0]] + t;
      ReplaceCharCons(s[0], t, '\n', " ");
      var u := Replace(t, "\n", " ");
      if s[0] == '\n' {
        ReplaceCharCons(' ', u, '\r', " ");
      } else {
        ReplaceCharCons(s[0], u, '\r', " ");
      }
      FlattenByReplacing(s[1..]);
    }
  }

  /** The last two replacements escape backslashes and double quotes. */
  lemma {:induction false} EscapeByReplacing(s: string)
    ensures Replace(Replace(s, "\\", "\\\\"), "\"", "\\\"") == Escape(s)
    decreases |s|
  {
    if s != [] {
      assert s == [s[0]] + s[1..];
      ReplaceCharCons(s[0], s[1..], '\\', "\\\\");
      var t := Replace(s[1..], "\\", "\\\\");
      if s[0] == '\\' {
        assert "\\\\" + t == ['\\'] + (['\\'] + t);
        ReplaceCharCons('\\', ['\\'] + t, '"', "\\\"");
        ReplaceCharCons('\\', t, '"', "\\\"");
      } else {
        ReplaceCharCons(s[0], t, '"', "\\\"");
      }
      EscapeByReplacing(s[1..]);
    }
  }

  /** _encode_str escapes the text after flattening its line breaks. */
  lemma EncodeStrIsEscapedFlattening(s: string)
    ensures EncodeStr(s) == Escape(FlattenNewlines(s))
  {
    FlattenByReplacing(s);
    EscapeByReplacing(FlattenNewlines(s));
  }

  lemma {:induction false} FlattenHasNoLineBreaks(s: string)
    ensures NoLineBreaks(FlattenNewlines(s))
    decreases |s|
  {
    if s != [] {
      if |s| >= 2 && s[0] == '\r' && s[1] == '\n' {
        FlattenHasNoLineBreaks(s[2..]);
      } else {
        FlattenHasNoLineBreaks(s[1..]);
      }
    }
  }

  lemma {:induction false} EscapeKeepsNoLineBreaks(s: string)
    requires NoLineBreaks(s)
    ensures NoLineBreaks(Escape(s))
    decreases |s|
  {
    if s != [] {
      assert s[0] in s;
      assert forall c :: c in s[1..] ==> c in s;
      EscapeKeepsNoLineBreaks(s[1..]);
    }
  }

  lemma {:induction false} EscapeIsWellEscaped(s: string)
    ensures WellEscaped(Escape(s))
    decreases |s|
  {
    if s != [] {
      var e := Escape(s);
      var rest := Escape(s[1..]);
      EscapeIsWellEscaped(s[1..]);
      if s[0] == '\\' || s[0] == '"' {
        assert e[2..] == rest;
      } else {
        assert e[1..] == rest;
      }
    }
  }

  /** Reading the escaped text back gives the text. */
  lemma {:induction false} UnescapeEscape(s: string)
    ensures Unescape(Escape(s)) == s
    decreases |s|
  {
    if s != [] {
      var e := Escape(s);
      var rest := Escape(s[1..]);
      UnescapeEscape(s[1..]);
      if s[0] == '\\' || s[0] == '"' {
        assert e[2..] == rest;
      } else {
        assert e[1..] == rest;
      }
    }
  }

  /** What _encode_str promises: the result is one line, is a well-formed
      string literal body, and reads back as the text with its line breaks
      turned into spaces. */
  lemma EncodeStrRoundTrip(s: string)
    ensures NoLineBreaks(EncodeStr(s))
    ensures WellEscaped(EncodeStr(s))
    ensures Unescape(EncodeStr(s)) == FlattenNewlines(s)
  {
    EncodeStrIsEscapedFlattening(s);
    FlattenHasNoLineBreaks(s);
    EscapeKeepsNoLineBreaks(FlattenNewlines(s));
    EscapeIsWellEscaped(FlattenNewlines(s));
    UnescapeEscape(FlattenNewlines(s));
  }

  lemma {:induction false} FlattenKeepsPlain(s: string)
    requires NoLineBreaks(s)
    ensures FlattenNewlines(s) == s
    decreases |s|
  {
    if s != [] {
      assert s[0] in s;
      assert forall c :: c in s[1..] ==> c in s;
      FlattenKeepsPlain(s[1..]);
    }
  }

  lemma {:induction false} EscapeKeepsPlain(s: string)
    requires Plain(s)
    ensures Escape(s) == s
    decreases |s|
  {
    if s != [] {
      assert s[0] in s;
      assert forall c :: c in s[1..] ==> c in s;
      EscapeKeepsPlain(s[1..]);
    }
  }

  /** Text without line breaks, backslashes or double quotes is left as it
      is. */
  lemma EncodeStrKeepsPlain(s: string)
    requires Plain(s)
    ensures EncodeStr(s) == s
  {
    EncodeStrIsEscapedFlattening(s);
    FlattenKeepsPlain(s);
    EscapeKeepsPlain(s);
  }
}

=== FILE: queue_port.dfy ===
/*
 * Unbounded queues (queue_port.py): a source port holding an infinite
 * queue of stream items, a stream consumed into it by an action, and
 * streams read back out of it.
 */
module QueuePorts {
  import opened Outcomes
  import opened Strings
  import opened Models
  import opened DataTypes
  import opened Util
  import opened Ports
  import opened Plumbing

  /** The data type of an UnboundedQueuePort:
      ['IQ.Queue', base?, storing, output, item]. */
  function QueueType(base: Option<string>, item: TypeItem, storing: string, output: string): (dt: DataType)
    ensures |dt| >= 4 && dt[0] == Atom("IQ.Queue") && dt[|dt| - 1] == item
  {
    [Atom("IQ.Queue")] + (if base.Some? then [Atom(base.value)] else []) + [Atom(storing), Atom(output), item]
  }

  /** The definition of a new queue, given the encoded computation type. */
  function QueueCode(storing: string, output: string, encoded: string): string
  {
    "(runEventInStartTime $ IQ.newQueue " + storing + " " + output + ") :: " + encoded
  }

  /** The action that feeds a stream into a queue. */
  function EnqueueAction(queue: string, stream: string): string
  {
    "runProcessInStartTime consumeStream (\\a -> liftEvent $ IQ.enqueue " + queue + " a) " + stream
  }

  /** The definition of a stream dequeued from a queue. */
  function DequeueCode(queue: string): string
  {
    "return $ repeatProcess (IQ.dequeue " + queue + ")"
  }

  /** The effect of create_unbounded_queue when the queue's computation
      type is rendered by `encode`, given the model `e` and the counter
      `next` before the call: both strategies are checked before anything
      happens; then the port is made (promised) and its type encoded; a type
      the encoder refuses leaves the port promised and never written. */
  predicate QueueCreated(scope: Scope, item: TypeItem, name: Option<string>, descr: Option<string>,
                         storing: string, output: string, encode: DataType -> Result<string>,
                         next: nat, e: Env, after: Env, nextAfter: nat, r: Result<Port>)
    reads if r.Success? then {r.value} else {}
  {
    var n := name.GetOr(PortName(next));
    var mn := scope.Prefix() + n;
    var dt := QueueType(scope.BaseComp(), item, storing, output);
    var enc := encode(ComputationType(scope.BaseComp(), dt));
    && (storing !in QueueStrategies ==>
          r == Failure(InvalidQueueStrategy(storing)) && after == e && nextAfter == next)
    && (storing in QueueStrategies && output !in QueueStrategies ==>
          r == Failure(InvalidQueueStrategy(output)) && after == e && nextAfter == next)
    && (storing in QueueStrategies && output in QueueStrategies ==>
          && nextAfter == next + (if name.None? then 1 else 0)
          && (r.Success? <==> Unused(e, mn) && enc.Success?)
          && (!Unused(e, mn) ==> r == Failure(Promise(e, mn).error) && after == e)
          && (Unused(e, mn) && enc.Failure? ==> r == Failure(enc.error) && after == e.(lazy := e.lazy + {mn}))
          && (r.Success? ==>
                after == DefineNew(e, mn, QueueCode(storing, output, enc.value))
                && r.value.Is(scope, dt, UnboundedQueue(item, storing, output), n, descr.GetOr(""),
                              Some(QueueCode(storing, output, enc.value)), false, false)))
  }

  /** create_unbounded_queue as written: the type is encoded with the
      encoder of util.py, so a queue of transact types is refused (see
      QueueOfRecordsRefused). */
  method CreateUnboundedQueueAsWritten(scope: Scope, item: TypeItem, name: Option<string>, descr: Option<string>,
                                       storing: string, output: string, ids: Counter) returns (r: Result<Port>)
    modifies scope.Root(), ids
    ensures r.Success? ==> fresh(r.value)
    ensures QueueCreated(scope, item, name, descr, storing, output, EncodePlainType, old(ids.next),
                         old(scope.Root().State()), scope.Root().State(), ids.next, r)
  {
    r := DeclareQueue(scope, item, name, descr, storing, output, EncodePlainType, ids);
  }

  /** create_unbounded_queue with the type encoded by the encoder of
      data_type.py, which renders a transact type by its name, so queues of
      transacts can be declared (see QueueOfRecordsDeclared). */
  method CreateUnboundedQueue(scope: Scope, item: TypeItem, name: Option<string>, descr: Option<string>,
                              storing: string, output: string, ids: Counter) returns (r: Result<Port>)
    modifies scope.Root(), ids
    ensures r.Success? ==> fresh(r.value)
    ensures QueueCreated(scope, item, name, descr, storing, output, EncodeDataType, old(ids.next),
                         old(scope.Root().State()), scope.Root().State(), ids.next, r)
  {
    r := DeclareQueue(scope, item, name, descr, storing, output, EncodeDataType, ids);
  }

  /** The body of create_unbounded_queue, for either encoder. */
  method DeclareQueue(scope: Scope, item: TypeItem, name: Option<string>, descr: Option<string>,
                      storing: string, output: string, encode: DataType -> Result<string>, ids: Counter)
    returns (r: Result<Port>)
    modifies scope.Root(), ids
    ensures r.Success? ==> fresh(r.value)
    ensures QueueCreated(scope, item, name, descr, storing, output, encode, old(ids.next),
                         old(scope.Root().State()), scope.Root().State(), ids.next, r)
  {
    if storing !in QueueStrategies {
      return Failure(InvalidQueueStrategy(storing));
    }
    if output !in QueueStrategies {
      return Failure(InvalidQueueStrategy(output));
    }
    var base := scope.BaseComp();
    var made := NewPort(scope, QueueType(base, item, storing, output), UnboundedQueue(item, storing, output),
                        name, descr, None, ids);
    if made.Failure? {
      return Failure(made.error);
    }
    var y := made.value;
    var enc := encode(ComputationType(base, y.dataType));
    if enc.Failure? {
      return Failure(enc.error);
    }
    var code := "(runEventInStartTime $ IQ.newQueue " + storing + " " + output + ") :: " + enc.value;
    PromiseThenDefine(old(scope.Root().State()), y.mangledName, code);
    var w := y.Write(code);
    assert w == Pass;
    r := Success(y);
  }

  /** unbounded_enqueue_stream: after the three checks, one action; the
      stream is not bound to its output, so nothing stops the same stream
      from being enqueued again. */
  method UnboundedEnqueueStream(q: Port, s: Port) returns (r: Outcome)
    modifies q.scope.Root()
    ensures !q.kind.UnboundedQueue? ==> r == Fail(NotAnUnboundedQueue(q.name))
    ensures q.kind.UnboundedQueue? && !s.kind.Stream? ==> r == Fail(NotAStream(s.name))
    ensures q.kind.UnboundedQueue? && s.kind.Stream? && q.scope != s.scope ==> r == Fail(DifferentModels)
    ensures r == Pass <==> q.kind.UnboundedQueue? && s.kind.Stream? && q.scope == s.scope
    ensures r.Fail? ==> q.scope.Root().State() == old(q.scope.Root().State())
    ensures r == Pass ==>
              q.scope.Root().State() == Act(old(q.scope.Root().State()), EnqueueAction(q.mangledName, s.mangledName))
  {
    if !q.kind.UnboundedQueue? {
      return Fail(NotAnUnboundedQueue(q.name));
    }
    if !s.kind.Stream? {
      return Fail(NotAStream(s.name));
    }
    var model := q.scope;
    if model != s.scope {
      return Fail(DifferentModels);
    }
    var code := "runProcessInStartTime consumeStream (\\a -> liftEvent $ IQ.enqueue " + q.Read() + " a) " + s.Read();
    model.AddAction(code);
    r := Pass;
  }

  /** unbounded_dequeue_stream: a fresh stream of the queue's items,
      defined and bound to its input; the queue port itself is left as it
      was, so it can be dequeued again. */
  method UnboundedDequeueStream(q: Port, ids: Counter) returns (r: Result<Port>)
    modifies q.scope.Root(), ids
    ensures !q.kind.UnboundedQueue? ==>
              r == Failure(NotAnUnboundedQueue(q.name))
              && q.scope.Root().State() == old(q.scope.Root().State()) && ids.next == old(ids.next)
    ensures q.kind.UnboundedQueue? ==>
              var n := PortName(old(ids.next));
              var mn := q.scope.Prefix() + n;
              var e := old(q.scope.Root().State());
              var item := q.kind.item;
              && ids.next == old(ids.next) + 1
              && (r.Success? <==> Unused(e, mn))
              && (r.Failure? ==> r.error == Promise(e, mn).error && q.scope.Root().State() == e)
              && (r.Success? ==>
                    fresh(r.value)
                    && q.scope.Root().State() == DefineNew(e, mn, DequeueCode(q.mangledName))
                    && r.value.Is(q.scope, StreamType(q.scope.BaseComp(), item), Stream(item), n, "",
                                  Some(DequeueCode(q.mangledName)), true, false))
  {
    if !q.kind.UnboundedQueue? {
      return Failure(NotAnUnboundedQueue(q.name));
    }
    var model := q.scope;
    var item := q.kind.item;
    var code := "return $ repeatProcess (IQ.dequeue " + q.Read() + ")";
    var made := NewUnnamedPort(model, StreamType(model.BaseComp(), item), Stream(item), ids);
    if made.Failure? {
      return Failure(made.error);
    }
    var y := made.value;
    PromiseThenDefine(old(model.Root().State()), y.mangledName, code);
    var w := y.Write(code);
    assert w == Pass;
    var b := y.BindToInput();
    r := Success(y);
  }

  /** The type a queue of plain items is declared with, without a base
      computation, is `Simulation (IQ.Queue s o t)`, and both encoders agree
      on it. */
  lemma QueueTypeOfAtom(item: string, storing: string, output: string)
    ensures EncodePlainType(ComputationType(None, QueueType(None, Atom(item), storing, output)))
              == EncodeDataType(ComputationType(None, QueueType(None, Atom(item), storing, output)))
              == Success("Simulation (IQ.Queue " + storing + " " + output + " " + item + ")")
  {
    var dt := QueueType(None, Atom(item), storing, output);
    var tag := "IQ.Queue " + storing + " " + output + " " + item;
    QueueTag(Atom(item), storing, output);
    SimulationOf(dt, tag);
    assert "Simulation (" + tag + ")" == "Simulation (IQ.Queue " + storing + " " + output + " " + item + ")";
    var ct := ComputationType(None, dt);
    assert AllRecordFree(ct) by {
      assert ct == [Atom("Simulation"), Nested(dt)];
      assert RecordFree(Nested(dt)) by {
        assert forall i :: 0 <= i < |dt| ==> dt[i].Atom?;
      }
    }
    PlainTypeAgrees(ct);
  }

  /** A queue of transact-typed items is declared, by the encoder of
      data_type.py, as `Simulation (IQ.Queue s o T)` with `T` the transact
      type's name. */
  lemma QueueOfRecordsDeclared(t: TransactType, storing: string, output: string)
    ensures EncodeDataType(ComputationType(None, QueueType(None, Record(t), storing, output)))
              == Success("Simulation (IQ.Queue " + storing + " " + output + " " + t.name + ")")
  {
    var tag := "IQ.Queue " + storing + " " + output + " " + t.name;
    QueueTag(Record(t), storing, output);
    SimulationOf(QueueType(None, Record(t), storing, output), tag);
    assert "Simulation (" + tag + ")" == "Simulation (IQ.Queue " + storing + " " + output + " " + t.name + ")";
  }

  /** A computation type without a base computation renders as
      `Simulation (t)`. */
  lemma SimulationOf(dt: DataType, tag: string)
    requires EncodeDataType(dt) == Success(tag)
    ensures EncodeDataType(ComputationType(None, dt)) == Success("Simulation (" + tag + ")")
  {
    assert EncodeItem(Nested(dt)) == Success("(" + tag + ")");
    EncodeShortTypes(Atom("Simulation"));
    EncodeShortTypes(Nested(dt));
    EncodeDataTypeAppend([Atom("Simulation")], [Nested(dt)]);
    assert "Simulation" + " " + ("(" + tag + ")") == "Simulation (" + tag + ")";
    assert ComputationType(None, dt) == [Atom("Simulation")] + [Nested(dt)];
  }

  /** The queue type itself: its three names and the item, in order,
      between spaces. */
  lemma QueueTag(x: TypeItem, storing: string, output: string)
    requires EncodeItem(x).Success?
    ensures EncodeDataType(QueueType(None, x, storing, output))
              == Success("IQ.Queue " + storing + " " + output + " " + EncodeItem(x).value)
  {
    var a, b, c, d := [Atom("IQ.Queue")], [Atom(storing)], [Atom(output)], [x];
    EncodeShortTypes(Atom("IQ.Queue"));
    EncodeShortTypes(Atom(storing));
    EncodeShortTypes(Atom(output));
    EncodeShortTypes(x);
    EncodeDataTypeAppend(a, b);
    assert "IQ.Queue" + " " == "IQ.Queue ";
    assert EncodeDataType(a + b) == Success("IQ.Queue " + storing);
    EncodeDataTypeAppend(a + b, c);
    assert EncodeDataType(a + b + c) == Success("IQ.Queue " + storing + " " + output);
    EncodeDataTypeAppend(a + b + c, d);
    assert QueueType(None, x, storing, output) == a + b + c + d;
  }

  /** A queue of record-typed items cannot be declared: the encoder of
      util.py refuses the record wherever it sits in the queue type. */
  lemma QueueOfRecordsRefused(base: Option<string>, t: TransactType, storing: string, output: string)
    ensures EncodePlainType(ComputationType(base, QueueType(base, Record(t), storing, output)))
              == Failure(IllegalDataTypeItem)
  {
    var dt := QueueType(base, Record(t), storing, output);
    assert !RecordFree(dt[|dt| - 1]);
    var ct := ComputationType(base, dt);
    assert ct[|ct| - 1] == Nested(dt);
    assert !RecordFree(ct[|ct| - 1]);
    PlainTypeAgrees(ct);
  }
}

=== FILE: resource.dfy ===
/*
 * Resources (resource.py): a source port holding a resource with a queue
 * strategy, and the stream operations that request and release it. The
 * resource port is only read by them, never bound.
 */
module Resources {
  import opened Outcomes
  import opened Strings
  import opened Models
  import opened DataTypes
  import opened Exprs
  import opened Ports
  import opened Plumbing

  /** The data type of a ResourcePort: ['R.Resource', base?, strategy]. */
  function ResourceType(base: Option<string>, strategy: string): DataType
  {
    [Atom("R.Resource")] + (if base.Some? then [Atom(base.value)] else []) + [Atom(strategy)]
  }

  /** The maximum count as emitted: Nothing for no bound, (Just n)
      otherwise. */
  function MaxCountText(maxCount: Option<int>): string
  {
    if maxCount.None? then "Nothing" else "(Just " + IntToString(maxCount.value) + ")"
  }

  /** Distinct maximum counts are emitted differently. */
  lemma MaxCountTextInjective(a: Option<int>, b: Option<int>)
    requires a != b
    ensures MaxCountText(a) != MaxCountText(b)
  {
    if a.Some? && b.Some? {
      IntToStringInjective(a.value, b.value);
      var ta, tb := MaxCountText(a), MaxCountText(b);
      var sa, sb := IntToString(a.value), IntToString(b.value);
      if |sa| != |sb| {
        assert |ta| != |tb|;
      } else {
        var k :| 0 <= k < |sa| && sa[k] != sb[k];
        assert ta[6 + k] == sa[k];
        assert tb[6 + k] == sb[k];
      }
    } else if a.Some? {
      assert MaxCountText(a)[0] == '(' != MaxCountText(b)[0];
    } else {
      assert MaxCountText(b)[0] == '(' != MaxCountText(a)[0];
    }
  }

  /** The definition of a new resource. */
  function ResourceCode(strategy: string, count: int, maxCount: Option<int>): string
  {
    "runEventInStartTime $ R.newResourceWithMaxCount " + strategy + " " + IntToString(count) + " " + MaxCountText(maxCount)
  }

  /** The effect of create_resource_with_max_count, given the model `e` and
      the counter `next` before the call. */
  predicate ResourceCreated(scope: Scope, count: int, maxCount: Option<int>, name: Option<string>, descr: Option<string>,
                            strategy: string, next: nat, e: Env, after: Env, nextAfter: nat, r: Result<Port>)
    reads if r.Success? then {r.value} else {}
  {
    var n := name.GetOr(PortName(next));
    var mn := scope.Prefix() + n;
    var code := ResourceCode(strategy, count, maxCount);
    && (strategy !in QueueStrategies ==>
          r == Failure(InvalidQueueStrategy(strategy)) && after == e && nextAfter == next)
    && (strategy in QueueStrategies ==>
          && nextAfter == next + (if name.None? then 1 else 0)
          && (r.Success? <==> Unused(e, mn))
          && (r.Failure? ==> r == Failure(Promise(e, mn).error) && after == e)
          && (r.Success? ==>
                after == DefineNew(e, mn, code)
                && r.value.Is(scope, ResourceType(scope.BaseComp(), strategy),
                              Resource(strategy, IsPriorityStrategy(strategy)), n, descr.GetOr(""), Some(code),
                              false, false)))
  }

  /** create_resource_with_max_count: the strategy is checked first; then
      the port is made and defined as a new resource. */
  method CreateResourceWithMaxCount(scope: Scope, count: int, maxCount: Option<int>, name: Option<string>,
                                    descr: Option<string>, strategy: string, ids: Counter) returns (r: Result<Port>)
    modifies scope.Root(), ids
    ensures r.Success? ==> fresh(r.value)
    ensures ResourceCreated(scope, count, maxCount, name, descr, strategy, old(ids.next), old(scope.Root().State()),
                            scope.Root().State(), ids.next, r)
  {
    if strategy !in QueueStrategies {
      return Failure(InvalidQueueStrategy(strategy));
    }
    var made := NewPort(scope, ResourceType(scope.BaseComp(), strategy), Resource(strategy, IsPriorityStrategy(strategy)),
                        name, descr, None, ids);
    if made.Failure? {
      return Failure(made.error);
    }
    var y := made.value;
    var maxText: string;
    if maxCount.None? {
      maxText := "Nothing";
    } else {
      maxText := "(Just " + IntToString(maxCount.value) + ")";
    }
    var code := "runEventInStartTime $ R.newResourceWithMaxCount " + strategy + " " + IntToString(count) + " " + maxText;
    PromiseThenDefine(old(scope.Root().State()), y.mangledName, code);
    var w := y.Write(code);
    assert w == Pass;
    r := Success(y);
  }

  /** create_resource: a resource whose maximum count is its count. */
  method CreateResource(scope: Scope, count: int, name: Option<string>, descr: Option<string>, strategy: string,
                        ids: Counter) returns (r: Result<Port>)
    modifies scope.Root(), ids
    ensures r.Success? ==> fresh(r.value)
    ensures ResourceCreated(scope, count, Some(count), name, descr, strategy, old(ids.next), old(scope.Root().State()),
                            scope.Root().State(), ids.next, r)
  {
    r := CreateResourceWithMaxCount(scope, count, Some(count), name, descr, strategy, ids);
  }

  /** The module imported as R, which depends only on whether the model
      has a base computation. */
  function ResourceImport(base: Option<string>): string
  {
    if base.None? then "import qualified Simulation.Aivika.Resource as R"
    else "import qualified Simulation.Aivika.Trans.Resource as R"
  }

  /** The model with the resource module imported. */
  function WithResourceImport(e: Env, base: Option<string>): Env
  {
    e.(modules := e.modules + {ResourceImport(base)})
  }

  /** The checks every resource operation makes on its arguments, in
      order: a resource, a stream, one model. */
  function CheckResourceAndStream(r: Port, s: Port): (o: Outcome)
    ensures o == Pass <==> r.kind.Resource? && s.kind.Stream? && r.scope == s.scope
  {
    if !r.kind.Resource? then Fail(NotAResource(r.name))
    else if !s.kind.Stream? then Fail(NotAStream(s.name))
    else if r.scope != s.scope then Fail(DifferentModels)
    else Pass
  }

  function RequestCode(resource: string, stream: string): string
  {
    "return $ mapStreamM (\\a -> do { R.requestResource " + resource + "; return a }) " + stream
  }

  function RequestWithPriorityCode(priority: string, resource: string, stream: string): string
  {
    "return $ mapStreamM (\\a -> do { p <- liftEvent $ " + priority + "; R.requestResourceWithPriority " + resource
      + " p; return a }) " + stream
  }

  function ReleaseCode(resource: string, stream: string): string
  {
    "return $ mapStreamM (\\a -> do { R.releaseResource " + resource + "; return a }) " + stream
  }

  /** The common tail of the resource operations: the import, then a new
      stream of the argument's items derived from it by `code`. */
  method ImportAndDerive(s: Port, code: string, ids: Counter) returns (r: Result<Port>)
    requires s.kind.Stream?
    modifies s.scope.Root(), ids, s`outputBound
    ensures ids.next == old(ids.next) + 1 && (r.Success? ==> fresh(r.value))
    ensures Derived(s.scope, StreamType(s.scope.BaseComp(), s.kind.item), Stream(s.kind.item), code, s, old(ids.next),
                    WithResourceImport(old(s.scope.Root().State()), s.scope.BaseComp()), old(s.outputBound),
                    s.scope.Root().State(), r)
  {
    var model := s.scope;
    var base := model.BaseComp();
    if base.None? {
      model.AddModuleImport("import qualified Simulation.Aivika.Resource as R");
    } else {
      model.AddModuleImport("import qualified Simulation.Aivika.Trans.Resource as R");
    }
    var item := s.kind.item;
    r := DerivePort(model, StreamType(base, item), Stream(item), code, s, ids);
  }

  /** request_resource: refused on a resource with the priority strategy,
      before anything changes. */
  method RequestResource(res: Port, s: Port, ids: Counter) returns (r: Result<Port>)
    modifies s.scope.Root(), ids, s`outputBound
    ensures CheckResourceAndStream(res, s).Fail? ==> r == Failure(CheckResourceAndStream(res, s).error)
    ensures CheckResourceAndStream(res, s) == Pass && res.kind.priority ==>
              r == Failure(NonPriorityStrategyExpected(res.name))
    ensures CheckResourceAndStream(res, s).Fail? || res.kind.priority ==>
              ids.next == old(ids.next) && s.outputBound == old(s.outputBound)
              && s.scope.Root().State() == old(s.scope.Root().State())
    ensures CheckResourceAndStream(res, s) == Pass && !res.kind.priority ==>
              ids.next == old(ids.next) + 1 && (r.Success? ==> fresh(r.value))
              && Derived(s.scope, StreamType(s.scope.BaseComp(), s.kind.item), Stream(s.kind.item),
                         RequestCode(res.mangledName, s.mangledName), s, old(ids.next),
                         WithResourceImport(old(s.scope.Root().State()), s.scope.BaseComp()), old(s.outputBound),
                         s.scope.Root().State(), r)
  {
    var o := CheckResourceAndStream(res, s);
    if o.Fail? {
      return Failure(o.error);
    }
    if res.kind.priority {
      return Failure(NonPriorityStrategyExpected(res.name));
    }
    var code := "return $ mapStreamM (\\a -> do { R.requestResource " + res.Read() + "; return a }) " + s.Read();
    r := ImportAndDerive(s, code, ids);
  }

  /** request_resource_with_priority: refused on a resource without the
      priority strategy, before anything changes; the priority is read at
      the transact. */
  method RequestResourceWithPriority(res: Port, priority: Expr, s: Port, ids: Counter) returns (r: Result<Port>)
    modifies s.scope.Root(), ids, s`outputBound
    ensures CheckResourceAndStream(res, s).Fail? ==> r == Failure(CheckResourceAndStream(res, s).error)
    ensures CheckResourceAndStream(res, s) == Pass && !res.kind.priority ==>
              r == Failure(PriorityStrategyExpected(res.name))
    ensures CheckResourceAndStream(res, s).Fail? || !res.kind.priority ==>
              ids.next == old(ids.next) && s.outputBound == old(s.outputBound)
              && s.scope.Root().State() == old(s.scope.Root().State())
    ensures CheckResourceAndStream(res, s) == Pass && res.kind.priority ==>
              ids.next == old(ids.next) + 1 && (r.Success? ==> fresh(r.value))
              && Derived(s.scope, StreamType(s.scope.BaseComp(), s.kind.item), Stream(s.kind.item),
                         RequestWithPriorityCode(priority.Read("a"), res.mangledName, s.mangledName), s, old(ids.next),
                         WithResourceImport(old(s.scope.Root().State()), s.scope.BaseComp()), old(s.outputBound),
                         s.scope.Root().State(), r)
  {
    var o := CheckResourceAndStream(res, s);
    if o.Fail? {
      return Failure(o.error);
    }
    if !res.kind.priority {
      return Failure(PriorityStrategyExpected(res.name));
    }
    var code := "return $ mapStreamM (\\a -> do { p <- liftEvent $ " + priority.Read("a")
      + "; R.requestResourceWithPriority " + res.Read() + " p; return a }) " + s.Read();
    r := ImportAndDerive(s, code, ids);
  }

  /** release_resource: no strategy check. */
  method ReleaseResource(res: Port, s: Port, ids: Counter) returns (r: Result<Port>)
    modifies s.scope.Root(), ids, s`outputBound
    ensures CheckResourceAndStream(res, s).Fail? ==>
              r == Failure(CheckResourceAndStream(res, s).error)
              && ids.next == old(ids.next) && s.outputBound == old(s.outputBound)
              && s.scope.Root().State() == old(s.scope.Root().State())
    ensures CheckResourceAndStream(res, s) == Pass ==>
              ids.next == old(ids.next) + 1 && (r.Success? ==> fresh(r.value))
              && Derived(s.scope, StreamType(s.scope.BaseComp(), s.kind.item), Stream(s.kind.item),
                         ReleaseCode(res.mangledName, s.mangledName), s, old(ids.next),
                         WithResourceImport(old(s.scope.Root().State()), s.scope.BaseComp()), old(s.outputBound),
                         s.scope.Root().State(), r)
  {
    var o := CheckResourceAndStream(res, s);
    if o.Fail? {
      return Failure(o.error);
    }
    var code := "return $ mapStreamM (\\a -> do { R.releaseResource " + res.Read() + "; return a }) " + s.Read();
    r := ImportAndDerive(s, code, ids);
  }

  /** resource_count: an expression of the resource's model; no port is
      made and nothing changes. */
  function ResourceCount(res: Port): (r: Result<Expr>)
    ensures r.Success? <==> res.kind.Resource?
    ensures r.Failure? ==> r.error == NotAResource(res.name)
    ensures r.Success? ==>
              && r.value.scope == res.scope && |r.value.comp| == |res.mangledName| + 36
              && r.value.comp[..35] == "(\\a -> liftEvent $ R.resourceCount "
              && r.value.comp[35..|r.value.comp| - 1] == res.mangledName && r.value.comp[|r.value.comp| - 1] == ')'
    ensures r.Success? ==> Occurs(res.mangledName, r.value.comp)
  {
    if !res.kind.Resource? then Failure(NotAResource(res.name))
    else
      var comp := "(\\a -> liftEvent $ R.resourceCount " + res.Read() + ")";
      OccursIn("(\\a -> liftEvent $ R.resourceCount ", res.mangledName, ")");
      Success(Expr(res.scope, comp))
  }

  /** Two resources give the same count expression exactly when
      they are the same variable of the same model. */
  lemma ResourceCountInjective(p: Port, q: Port)
    requires p.kind.Resource? && q.kind.Resource?
    ensures ResourceCount(p) == ResourceCount(q) <==> p.scope == q.scope && p.mangledName == q.mangledName
  {
    if ResourceCount(p) == ResourceCount(q) {
      var c := ResourceCount(p).value.comp;
      assert p.mangledName == c[35..|c| - 1] == q.mangledName;
    }
  }
}

=== FILE: resource_preemption.dfy ===
/*
 * Preemptible resources (resource_preemption.py): a source port holding a
 * resource that a request of higher priority may take over. Acquisition
 * is by priority only, and no strategy is checked. Unlike resource.py, no
 * module import is added for PR.
 */
module PreemptibleResources {
  import opened Outcomes
  import opened Strings
  import opened Models
  import opened DataTypes
  import opened Exprs
  import opened Ports
  import opened Plumbing
  import opened Resources

  /** The data type of a PreemptibleResourcePort: ['PR.Resource', base?]. */
  function PreemptibleResourceType(base: Option<string>): DataType
  {
    [Atom("PR.Resource")] + (if base.Some? then [Atom(base.value)] else [])
  }

  /** The definition of a new preemptible resource. */
  function PreemptibleResourceCode(count: int, maxCount: Option<int>): string
  {
    "runEventInStartTime $ PR.newResourceWithMaxCount " + IntToString(count) + " " + MaxCountText(maxCount)
  }

  /** The effect of create_preemptible_resource_with_max_count, given the
      model `e` and the counter `next` before the call. */
  predicate PreemptibleResourceCreated(scope: Scope, count: int, maxCount: Option<int>, name: Option<string>,
                                       descr: Option<string>, next: nat, e: Env, after: Env, nextAfter: nat,
                                       r: Result<Port>)
    reads if r.Success? then {r.value} else {}
  {
    var n := name.GetOr(PortName(next));
    var mn := scope.Prefix() + n;
    var code := PreemptibleResourceCode(count, maxCount);
    && nextAfter == next + (if name.None? then 1 else 0)
    && (r.Success? <==> Unused(e, mn))
    && (r.Failure? ==> r == Failure(Promise(e, mn).error) && after == e)
    && (r.Success? ==>
          after == DefineNew(e, mn, code)
          && r.value.Is(scope, PreemptibleResourceType(scope.BaseComp()), PreemptibleResource, n, descr.GetOr(""),
                        Some(code), false, false))
  }

  /** create_preemptible_resource_with_max_count: the port is made and
      defined as a new preemptible resource. */
  method CreatePreemptibleResourceWithMaxCount(scope: Scope, count: int, maxCount: Option<int>, name: Option<string>,
                                               descr: Option<string>, ids: Counter) returns (r: Result<Port>)
    modifies scope.Root(), ids
    ensures r.Success? ==> fresh(r.value)
    ensures PreemptibleResourceCreated(scope, count, maxCount, name, descr, old(ids.next), old(scope.Root().State()),
                                       scope.Root().State(), ids.next, r)
  {
    var made := NewPort(scope, PreemptibleResourceType(scope.BaseComp()), PreemptibleResource, name, descr, None, ids);
    if made.Failure? {
      return Failure(made.error);
    }
    var y := made.value;
    var maxText: string;
    if maxCount.None? {
      maxText := "Nothing";
    } else {
      maxText := "(Just " + IntToString(maxCount.value) + ")";
    }
    var code := "runEventInStartTime $ PR.newResourceWithMaxCount " + IntToString(count) + " " + maxText;
    PromiseThenDefine(old(scope.Root().State()), y.mangledName, code);
    var w := y.Write(code);
    assert w == Pass;
    r := Success(y);
  }

  /** create_preemptible_resource: the maximum count is the count. */
  method CreatePreemptibleResource(scope: Scope, count: int, name: Option<string>, descr: Option<string>,
                                   ids: Counter) returns (r: Result<Port>)
    modifies scope.Root(), ids
    ensures r.Success? ==> fresh(r.value)
    ensures PreemptibleResourceCreated(scope, count, Some(count), name, descr, old(ids.next), old(scope.Root().State()),
                                       scope.Root().State(), ids.next, r)
  {
    r := CreatePreemptibleResourceWithMaxCount(scope, count, Some(count), name, descr, ids);
  }

  /** The checks of both stream operations, in order: a preemptible
      resource, a stream, one model. */
  function CheckPreemptibleAndStream(r: Port, s: Port): (o: Outcome)
    ensures o == Pass <==> r.kind.PreemptibleResource? && s.kind.Stream? && r.scope == s.scope
    ensures o.Fail? && !r.kind.PreemptibleResource? ==> o.error == NotAPreemptibleResource(r.name)
  {
    if !r.kind.PreemptibleResource? then Fail(NotAPreemptibleResource(r.name))
    else if !s.kind.Stream? then Fail(NotAStream(s.name))
    else if r.scope != s.scope then Fail(DifferentModels)
    else Pass
  }

  function PreemptingRequestCode(priority: string, resource: string, stream: string): string
  {
    "return $ mapStreamM (\\a -> do { p <- liftEvent $ " + priority + "; PR.requestResourceWithPriority " + resource
      + " p; return a }) " + stream
  }

  function PreemptibleReleaseCode(resource: string, stream: string): string
  {
    "return $ mapStreamM (\\a -> do { PR.releaseResource " + resource + "; return a }) " + stream
  }

  /** request_preemptible_resource_with_priority: after the checks, a new
      stream of the same items; the priority is read at the transact. */
  method RequestPreemptibleResourceWithPriority(res: Port, priority: Expr, s: Port, ids: Counter)
    returns (r: Result<Port>)
    modifies s.scope.Root(), ids, s`outputBound
    ensures CheckPreemptibleAndStream(res, s).Fail? ==>
              r == Failure(CheckPreemptibleAndStream(res, s).error)
              && ids.next == old(ids.next) && s.outputBound == old(s.outputBound)
              && s.scope.Root().State() == old(s.scope.Root().State())
    ensures CheckPreemptibleAndStream(res, s) == Pass ==>
              ids.next == old(ids.next) + 1 && (r.Success? ==> fresh(r.value))
              && Derived(s.scope, StreamType(s.scope.BaseComp(), s.kind.item), Stream(s.kind.item),
                         PreemptingRequestCode(priority.Read("a"), res.mangledName, s.mangledName), s, old(ids.next),
                         old(s.scope.Root().State()), old(s.outputBound), s.scope.Root().State(), r)
  {
    var o := CheckPreemptibleAndStream(res, s);
    if o.Fail? {
      return Failure(o.error);
    }
    var model := res.scope;
    var item := s.kind.item;
    var code := "return $ mapStreamM (\\a -> do { p <- liftEvent $ " + priority.Read("a")
      + "; PR.requestResourceWithPriority " + res.Read() + " p; return a }) " + s.Read();
    r := DerivePort(model, StreamType(model.BaseComp(), item), Stream(item), code, s, ids);
  }

  /** release_preemptible_resource. */
  method ReleasePreemptibleResource(res: Port, s: Port, ids: Counter) returns (r: Result<Port>)
    modifies s.scope.Root(), ids, s`outputBound
    ensures CheckPreemptibleAndStream(res, s).Fail? ==>
              r == Failure(CheckPreemptibleAndStream(res, s).error)
              && ids.next == old(ids.next) && s.outputBound == old(s.outputBound)
              && s.scope.Root().State() == old(s.scope.Root().State())
    ensures CheckPreemptibleAndStream(res, s) == Pass ==>
              ids.next == old(ids.next) + 1 && (r.Success? ==> fresh(r.value))
              && Derived(s.scope, StreamType(s.scope.BaseComp(), s.kind.item), Stream(s.kind.item),
                         PreemptibleReleaseCode(res.mangledName, s.mangledName), s, old(ids.next),
                         old(s.scope.Root().State()), old(s.outputBound), s.scope.Root().State(), r)
  {
    var o := CheckPreemptibleAndStream(res, s);
    if o.Fail? {
      return Failure(o.error);
    }
    var model := res.scope;
    var item := s.kind.item;
    var code := "return $ mapStreamM (\\a -> do { PR.releaseResource " + res.Read() + "; return a }) " + s.Read();
    r := DerivePort(model, StreamType(model.BaseComp(), item), Stream(item), code, s, ids);
  }

  /** preemptible_resource_count: an expression of the resource's model;
      no port is made and nothing changes. */
  function PreemptibleResourceCount(res: Port): (r: Result<Expr>)
    ensures r.Success? <==> res.kind.PreemptibleResource?
    ensures r.Failure? ==> r.error == NotAPreemptibleResource(res.name)
    ensures r.Success? ==>
              && r.value.scope == res.scope && |r.value.comp| == |res.mangledName| + 37
              && r.value.comp[..36] == "(\\a -> liftEvent $ PR.resourceCount "
              && r.value.comp[36..|r.value.comp| - 1] == res.mangledName && r.value.comp[|r.value.comp| - 1] == ')'
    ensures r.Success? ==> Occurs(res.mangledName, r.value.comp)
  {
    if !res.kind.PreemptibleResource? then Failure(NotAPreemptibleResource(res.name))
    else
      var comp := "(\\a -> liftEvent $ PR.resourceCount " + res.Read() + ")";
      OccursIn("(\\a -> liftEvent $ PR.resourceCount ", res.mangledName, ")");
      Success(Expr(res.scope, comp))
  }

  /** Two preemptible resources give the same count expression exactly when
      they are the same variable of the same model. */
  lemma PreemptibleResourceCountInjective(p: Port, q: Port)
    requires p.kind.PreemptibleResource? && q.kind.PreemptibleResource?
    ensures PreemptibleResourceCount(p) == PreemptibleResourceCount(q) <==> p.scope == q.scope && p.mangledName == q.mangledName
  {
    if PreemptibleResourceCount(p) == PreemptibleResourceCount(q) {
      var c := PreemptibleResourceCount(p).value.comp;
      assert p.mangledName == c[36..|c| - 1] == q.mangledName;
    }
  }
}

=== FILE: server.dfy ===
/*
 * Servers (server.py): a stream processed by a server port becomes a new
 * stream of the server's output type. The server port is only read, never
 * bound.
 */
module Servers {
  import opened Outcomes
  import opened Strings
  import opened Models
  import opened DataTypes
  import opened Ports
  import opened Plumbing

  /** The one-character strings of `s`, in order. */
  function Chars(s: string): (r: seq<string>)
    ensures |r| == |s|
  {
    seq(|s|, i requires 0 <= i < |s| => [s[i]])
  }

  /** encode_data_type of a plain string: Python iterates the string, so
      its characters are joined by single spaces. */
  function Spaced(s: string): string
  {
    Join(Chars(s), " ")
  }

  /** The server input and stream item types are each given to
      encode_data_type of data_type.py, which expects a list: a list is
      encoded as a data type, a string character by character, and
      anything else cannot be iterated. */
  function EncodeAsDataType(item: TypeItem): Result<string>
  {
    match item
    case Nested(items) => EncodeDataType(items)
    case Atom(s) => Success(Spaced(s))
    case _ => Failure(IllegalDataTypeItem)
  }

  /** The checks of server_stream, in order: a server, a stream, one
      model, and the same encoded type on both sides. */
  function CheckServerAndStream(server: Port, s: Port): (o: Outcome)
    ensures o == Pass <==>
              && server.kind.Server? && s.kind.Stream? && server.scope == s.scope
              && EncodeAsDataType(server.kind.input).Success?
              && EncodeAsDataType(server.kind.input) == EncodeAsDataType(s.kind.item)
    ensures o.Fail? && server.kind.Server? && s.kind.Stream? && server.scope == s.scope ==>
              o.error == (if EncodeAsDataType(server.kind.input).Failure?
                             || EncodeAsDataType(s.kind.item).Failure? then IllegalDataTypeItem
                          else ServerInputMismatch(server.name))
  {
    if !server.kind.Server? then Fail(NotAServer(server.name))
    else if !s.kind.Stream? then Fail(NotAStream(s.name))
    else if server.scope != s.scope then Fail(DifferentModels)
    else match EncodeAsDataType(server.kind.input)
      case Failure(e) => Fail(e)
      case Success(a) =>
        match EncodeAsDataType(s.kind.item)
        case Failure(e) => Fail(e)
        case Success(b) => if a != b then Fail(ServerInputMismatch(server.name)) else Pass
  }

  function ServerCode(server: string, stream: string): string
  {
    "return $ runProcessor (serverProcessor " + server + ") " + stream
  }

  /** server_stream: every check comes before any port is made; then a new
      stream of the server's output items, defined and bound to its input,
      and the argument stream bound to its output. */
  method ServerStream(server: Port, s: Port, ids: Counter) returns (r: Result<Port>)
    modifies s.scope.Root(), ids, s`outputBound
    ensures CheckServerAndStream(server, s).Fail? ==>
              r == Failure(CheckServerAndStream(server, s).error)
              && ids.next == old(ids.next) && s.outputBound == old(s.outputBound)
              && s.scope.Root().State() == old(s.scope.Root().State())
    ensures CheckServerAndStream(server, s) == Pass ==>
              ids.next == old(ids.next) + 1 && (r.Success? ==> fresh(r.value))
              && Derived(s.scope, StreamType(s.scope.BaseComp(), server.kind.output), Stream(server.kind.output),
                         ServerCode(server.mangledName, s.mangledName), s, old(ids.next), old(s.scope.Root().State()),
                         old(s.outputBound), s.scope.Root().State(), r)
  {
    var o := CheckServerAndStream(server, s);
    if o.Fail? {
      return Failure(o.error);
    }
    var model := server.scope;
    var code := "return $ runProcessor (serverProcessor " + server.Read() + ") " + s.Read();
    var output := server.kind.output;
    r := DerivePort(model, StreamType(model.BaseComp(), output), Stream(output), code, s, ids);
  }

  /** The shape of a spaced string: one character in every even place. */
  lemma {:induction false} SpacedShape(s: string)
    ensures |Spaced(s)| == if |s| == 0 then 0 else 2 * |s| - 1
    ensures forall j :: 0 <= j < |Spaced(s)| && j % 2 == 0 ==> Spaced(s)[j] == s[j / 2]
    decreases |s|
  {
    if |s| > 0 {
      var t := s[..|s| - 1];
      SpacedShape(t);
      assert Chars(s) == Chars(t) + [[s[|s| - 1]]];
      JoinSnoc(Chars(t), [s[|s| - 1]], " ");
    }
  }

  /** Spacing loses nothing: distinct strings stay distinct. */
  lemma SpacedInjective(a: string, b: string)
    requires Spaced(a) == Spaced(b)
    ensures a == b
  {
    SpacedShape(a);
    SpacedShape(b);
    assert |a| == |b|;
    forall i | 0 <= i < |a|
      ensures a[i] == b[i]
    {
      assert Spaced(a)[2 * i] == a[i];
      assert Spaced(b)[2 * i] == b[i];
    }
  }

  /** For two named types the check is equality of the names. */
  lemma NamedTypesAgreeIffEqual(a: string, b: string)
    ensures EncodeAsDataType(Atom(a)) == EncodeAsDataType(Atom(b)) <==> a == b
  {
    if Spaced(a) == Spaced(b) {
      SpacedInjective(a, b);
    }
  }

  /** A legal list type is accepted against itself, and an illegal one is
      refused whatever the stream carries. */
  lemma ListTypeAgainstItself(items: DataType)
    ensures EncodeAsDataType(Nested(items)).Success? <==> AllLegal(items)
  {
    EncodeDataTypeSucceedsIffLegal(items);
  }

  /** The check is on the encoded text, not on the types: two distinct
      record types that share a name are accepted as the same. */
  lemma SameNamedRecordsAgree(t1: TransactType, t2: TransactType)
    requires t1.name == t2.name
    ensures EncodeAsDataType(Nested([Record(t1)])) == EncodeAsDataType(Nested([Record(t2)])) == Success(t1.name)
  {
    EncodeShortTypes(Record(t1));
    EncodeShortTypes(Record(t2));
  }

  /** The string-iterating encoder can equate a list with a string: the
      list ['a', 'b'] and the string 'ab' both encode as "a b". */
  lemma ListAgreesWithString()
    ensures EncodeAsDataType(Nested([Atom("a"), Atom("b")])) == EncodeAsDataType(Atom("ab")) == Success("a b")
  {
    var dt := [Atom("a"), Atom("b")];
    var tail := [Atom("b")];
    assert dt[1..] == tail;
    assert tail[1..] == [];
    assert ["b"] + [] == ["b"];
    assert EncodeItems(tail) == Success(["b"]);
    assert ["a"] + ["b"] == ["a", "b"];
    assert EncodeItems(dt) == Success(["a", "b"]);
    JoinSnoc(["a"], "b", " ");
    assert Join(["a", "b"], " ") == "a b";
    assert Chars("ab") == ["a", "b"];
  }
}

=== FILE: stream.dfy ===
/*
 * Stream combinators (stream.py): every operation checks that its argument
 * is a stream port, then makes new once-ports, defines them, and binds the
 * argument to its output so that no stream is consumed twice.
 */
module Streams {
  import opened Outcomes
  import opened Strings
  import opened Models
  import opened DataTypes
  import opened Exprs
  import opened Ports
  import opened Plumbing
  import opened QueuePorts

  /** The definition of an empty stream, given its encoded type. */
  function EmptyCode(encoded: string): string
  {
    "return emptyStream :: " + encoded
  }

  /** empty_stream: a new stream bound to its input, then defined as the
      empty stream of its type, encoded with the encoder of data_type.py.
      A type the encoder refuses leaves the port promised and bound. */
  method EmptyStream(scope: Scope, item: TypeItem, ids: Counter) returns (r: Result<Port>)
    modifies scope.Root(), ids
    ensures ids.next == old(ids.next) + 1
    ensures var n := PortName(old(ids.next));
            var mn := scope.Prefix() + n;
            var e := old(scope.Root().State());
            var dt := StreamType(scope.BaseComp(), item);
            var enc := EncodeDataType(ComputationType(scope.BaseComp(), dt));
            && (r.Success? <==> Unused(e, mn) && Legal(item))
            && (!Unused(e, mn) ==> r == Failure(Promise(e, mn).error) && scope.Root().State() == e)
            && (Unused(e, mn) && !Legal(item) ==>
                  r == Failure(IllegalDataTypeItem) && scope.Root().State() == e.(lazy := e.lazy + {mn}))
            && (r.Success? ==>
                  enc.Success? && fresh(r.value)
                  && scope.Root().State() == DefineNew(e, mn, EmptyCode(enc.value))
                  && r.value.Is(scope, dt, Stream(item), n, "", Some(EmptyCode(enc.value)), true, false))
  {
    var base := scope.BaseComp();
    var made := NewUnnamedPort(scope, StreamType(base, item), Stream(item), ids);
    if made.Failure? {
      return Failure(made.error);
    }
    var y := made.value;
    var b := y.BindToInput();
    var enc := EncodeDataType(ComputationType(base, y.dataType));
    StreamComputationLegal(base, item);
    EncodeDataTypeSucceedsIffLegal(ComputationType(base, y.dataType));
    if enc.Failure? {
      return Failure(enc.error);
    }
    var code := "return emptyStream :: " + enc.value;
    PromiseThenDefine(old(scope.Root().State()), y.mangledName, code);
    var w := y.Write(code);
    assert w == Pass;
    r := Success(y);
  }

  /** The type of a stream computation is legal exactly when the item is:
      the other parts of the tag are names. */
  lemma StreamComputationLegal(base: Option<string>, item: TypeItem)
    ensures AllLegal(ComputationType(base, StreamType(base, item))) <==> Legal(item)
  {
    var dt := StreamType(base, item);
    var ct := ComputationType(base, dt);
    assert ct[|ct| - 1] == Nested(dt);
    assert dt[|dt| - 1] == item;
    if Legal(item) {
      forall i | 0 <= i < |dt| ensures Legal(dt[i]) {
        if i < |dt| - 1 {
          assert dt[i].Atom?;
        }
      }
      forall i | 0 <= i < |ct| ensures Legal(ct[i]) {
        if i < |ct| - 1 {
          assert ct[i].Atom?;
        }
      }
    } else {
      assert !Legal(ct[|ct| - 1]);
    }
  }

  /** An empty stream of a named item type, without a base computation, is
      declared as `Simulation (Stream t)`. */
  lemma EmptyStreamTypeOfAtom(item: string)
    ensures EncodeDataType(ComputationType(None, StreamType(None, Atom(item))))
              == Success("Simulation (Stream " + item + ")")
  {
    var dt := StreamType(None, Atom(item));
    EncodeShortTypes(Atom("Stream"));
    EncodeShortTypes(Atom(item));
    EncodeDataTypeAppend([Atom("Stream")], [Atom(item)]);
    assert "Stream" + " " == "Stream ";
    assert dt == [Atom("Stream")] + [Atom(item)];
    SimulationOf(dt, "Stream " + item);
    assert "Simulation (" + ("Stream " + item) + ")" == "Simulation (Stream " + item + ")";
  }

  /** The action that consumes a stream and discards its items. */
  function SinkAction(stream: string): string
  {
    "runProcessInStartTime $ sinkStream " + stream
  }

  /** terminate_stream: the stream is bound to its output and one action
      consumes it; a stream that is already consumed is refused and nothing
      is emitted. */
  method TerminateStream(s: Port) returns (r: Outcome)
    modifies s`outputBound, s.scope.Root()
    ensures !s.kind.Stream? ==>
              r == Fail(NotAStream(s.name)) && s.outputBound == old(s.outputBound)
              && s.scope.Root().State() == old(s.scope.Root().State())
    ensures s.kind.Stream? && old(s.outputBound) ==>
              r == Fail(AlreadyBoundToOutput(s.name)) && s.outputBound
              && s.scope.Root().State() == old(s.scope.Root().State())
    ensures s.kind.Stream? && !old(s.outputBound) ==>
              r == Pass && s.outputBound
              && s.scope.Root().State() == Act(old(s.scope.Root().State()), SinkAction(s.mangledName))
  {
    if !s.kind.Stream? {
      return Fail(NotAStream(s.name));
    }
    var model := s.scope;
    var code := "runProcessInStartTime $ sinkStream " + s.Read();
    r := s.BindToOutput();
    if r.Fail? {
      return;
    }
    model.AddAction(code);
  }

  /** The definition of a stream delayed by `delay` (the text of the
      interval). */
  function DelayCode(delay: string, stream: string): string
  {
    "return $ mapStreamM (\\a -> do { holdProcess " + delay + "; return a }) " + stream
  }

  /** delay_stream: a new stream of the same items, derived from the
      argument. */
  method DelayStream(delay: string, s: Port, ids: Counter) returns (r: Result<Port>)
    modifies s.scope.Root(), ids, s`outputBound
    ensures !s.kind.Stream? ==>
              r == Failure(NotAStream(s.name)) && s.outputBound == old(s.outputBound)
              && s.scope.Root().State() == old(s.scope.Root().State()) && ids.next == old(ids.next)
    ensures s.kind.Stream? ==>
              ids.next == old(ids.next) + 1 && (r.Success? ==> fresh(r.value))
              && Derived(s.scope, StreamType(s.scope.BaseComp(), s.kind.item), Stream(s.kind.item),
                         DelayCode(delay, s.mangledName), s, old(ids.next), old(s.scope.Root().State()),
                         old(s.outputBound), s.scope.Root().State(), r)
  {
    if !s.kind.Stream? {
      return Failure(NotAStream(s.name));
    }
    var model := s.scope;
    var item := s.kind.item;
    var code := "return $ mapStreamM (\\a -> do { holdProcess " + delay + "; return a }) " + s.Read();
    r := DerivePort(model, StreamType(model.BaseComp(), item), Stream(item), code, s, ids);
  }

  /** split_stream: `count` new streams, port i reading element i of the
      array that splits the argument. */
  method SplitStream(count: int, s: Port, ids: Counter) returns (r: Result<seq<Port>>)
    modifies s.scope.Root(), ids, s`outputBound
    ensures !s.kind.Stream? ==>
              r == Failure(NotAStream(s.name)) && s.outputBound == old(s.outputBound)
              && s.scope.Root().State() == old(s.scope.Root().State()) && ids.next == old(ids.next)
    ensures s.kind.Stream? ==>
              (r.Success? ==> forall i :: 0 <= i < |r.value| ==> fresh(r.value[i]))
              && FannedOut(s, "splitStream", StreamType(s.scope.BaseComp(), s.kind.item), Stream(s.kind.item), count,
                           old(ids.next), old(s.scope.Root().State()), old(s.outputBound), s.scope.Root().State(),
                           ids.next, r)
  {
    if !s.kind.Stream? {
      return Failure(NotAStream(s.name));
    }
    var item := s.kind.item;
    r := FanOut(s, "splitStream", StreamType(s.scope.BaseComp(), item), Stream(item), count, ids);
  }

  /** clone_stream: the shape of split_stream, with cloneStream in place of
      splitStream. */
  method CloneStream(count: int, s: Port, ids: Counter) returns (r: Result<seq<Port>>)
    modifies s.scope.Root(), ids, s`outputBound
    ensures !s.kind.Stream? ==>
              r == Failure(NotAStream(s.name)) && s.outputBound == old(s.outputBound)
              && s.scope.Root().State() == old(s.scope.Root().State()) && ids.next == old(ids.next)
    ensures s.kind.Stream? ==>
              (r.Success? ==> forall i :: 0 <= i < |r.value| ==> fresh(r.value[i]))
              && FannedOut(s, "cloneStream", StreamType(s.scope.BaseComp(), s.kind.item), Stream(s.kind.item), count,
                           old(ids.next), old(s.scope.Root().State()), old(s.outputBound), s.scope.Root().State(),
                           ids.next, r)
  {
    if !s.kind.Stream? {
      return Failure(NotAStream(s.name));
    }
    var item := s.kind.item;
    r := FanOut(s, "cloneStream", StreamType(s.scope.BaseComp(), item), Stream(item), count, ids);
  }

  /** expect_same_model over a list of ports. */
  predicate SameModel(ps: seq<Port>)
  {
    forall i :: 0 <= i < |ps| ==> ps[i].scope == ps[0].scope
  }

  /** expect_same_data_type over a list of ports. */
  predicate SameDataType(ps: seq<Port>)
  {
    forall i :: 0 <= i < |ps| ==> ps[i].dataType == ps[0].dataType
  }

  /** Every port of the list can be bound to its output, in order: a
      once-port, not yet consumed, not listed earlier. */
  predicate Consumable(ps: seq<Port>)
    reads set p | p in ps
  {
    forall j :: 0 <= j < |ps| ==> ps[j].kind.IsOnce() && !ps[j].outputBound && ps[j] !in ps[..j]
  }

  /** merge_streams: after the checks on the list (none of which changes
      anything) a new stream is promised, every argument is bound to its
      output, and the new stream reads the concatenation of the arguments. */
  method MergeStreams(ps: seq<Port>, ids: Counter) returns (r: Result<Port>)
    modifies if |ps| > 0 then {ps[0].scope.Root()} else {}, ids, set p | p in ps
    ensures |ps| == 0 ==> r == Failure(NoPorts) && ids.next == old(ids.next)
    ensures |ps| > 0 && !ps[0].kind.Stream? ==> r == Failure(NotAStream(ps[0].name))
    ensures |ps| > 0 && ps[0].kind.Stream? && !SameModel(ps) ==> r == Failure(DifferentModels)
    ensures |ps| > 0 && ps[0].kind.Stream? && SameModel(ps) && !SameDataType(ps) ==> r == Failure(DifferentDataTypes)
    ensures |ps| > 0 && !(ps[0].kind.Stream? && SameModel(ps) && SameDataType(ps)) ==>
              ids.next == old(ids.next) && ps[0].scope.Root().State() == old(ps[0].scope.Root().State())
              && forall p :: p in ps ==> p.outputBound == old(p.outputBound)
    ensures forall p :: p in ps ==> p.inputBound == old(p.inputBound) && p.comp == old(p.comp)
    ensures (exists i, j :: 0 <= i < j < |ps| && ps[i] == ps[j]) ==> r.Failure?
    ensures |ps| > 0 && ps[0].kind.Stream? && SameModel(ps) && SameDataType(ps) ==>
              var scope := ps[0].scope;
              var item := ps[0].kind.item;
              var n := PortName(old(ids.next));
              var mn := scope.Prefix() + n;
              var e := old(scope.Root().State());
              var code := MergeCode("concatStreams", MangledNames(ps));
              && ids.next == old(ids.next) + 1
              && (r.Success? <==> Unused(e, mn) && old(Consumable(ps)))
              && (r.Success? ==> fresh(r.value) && scope.Root().State() == DefineNew(e, mn, code))
              && Merged(scope, StreamType(scope.BaseComp(), item), Stream(item), ps, "concatStreams",
                        old(ids.next), e, old(OutputFlags(ps)), scope.Root().State(), r)
  {
    if |ps| == 0 {
      return Failure(NoPorts);
    }
    var p0 := ps[0];
    if !p0.kind.Stream? {
      return Failure(NotAStream(p0.name));
    }
    if !SameModel(ps) {
      return Failure(DifferentModels);
    }
    if !SameDataType(ps) {
      return Failure(DifferentDataTypes);
    }
    var model := p0.scope;
    var item := p0.kind.item;
    r := MergePorts(model, StreamType(model.BaseComp(), item), Stream(item), ps, "concatStreams", ids);
    assert (exists i, j :: 0 <= i < j < |ps| && ps[i] == ps[j]) ==> !old(Consumable(ps)) by {
      if exists i, j :: 0 <= i < j < |ps| && ps[i] == ps[j] {
        var i, j :| 0 <= i < j < |ps| && ps[i] == ps[j];
        assert ps[i] in ps[..j];
      }
    }
  }

  /** The action that dispatches each item of a stream to one of two
      queues, by the value of the test expression read at the item. */
  function DispatchAction(test: string, passed: string, failed: string, stream: string): string
  {
    "runProcessInStartTime $ consumeStream (\\a -> liftEvent $ do { f <- " + test + "; if f then IQ.enqueue "
      + passed + " a else IQ.enqueue " + failed + " a }) " + stream
  }

  /** The module test_stream imports as IQ, which depends on whether the
      model has a base computation. */
  function QueueImport(base: Option<string>): string
  {
    if base.None? then "import qualified Simulation.Aivika.Queue.Infinite as IQ"
    else "import qualified Simulation.Aivika.Trans.Queue.Infinite as IQ"
  }

  /** The model after the body of test_stream, from the model with the
      import: two FCFS queues, a stream dequeued from each, and the
      dispatch action. */
  function Dispatched(e0: Env, prefix: string, next: nat, enc: string, test: string, stream: string): Env
  {
    var q1 := prefix + PortName(next);
    var q2 := prefix + PortName(next + 1);
    var e1 := DefineNew(e0, q1, QueueCode("FCFS", "FCFS", enc));
    var e2 := DefineNew(e1, q2, QueueCode("FCFS", "FCFS", enc));
    var e3 := DefineNew(e2, prefix + PortName(next + 2), DequeueCode(q1));
    var e4 := DefineNew(e3, prefix + PortName(next + 3), DequeueCode(q2));
    Act(e4, DispatchAction(test, q1, q2, stream))
  }

  /** The body of test_stream defines the two queues and the two streams,
      in that order, and emits exactly one action after them: the
      dispatch; the promises are left as they were. */
  lemma DispatchedShape(e0: Env, prefix: string, next: nat, enc: string, test: string, stream: string)
    ensures var q1 := prefix + PortName(next);
            var q2 := prefix + PortName(next + 1);
            var s1 := prefix + PortName(next + 2);
            var s2 := prefix + PortName(next + 3);
            var after := Dispatched(e0, prefix, next, enc, test, stream);
            && after.vars == e0.vars + {q1, q2, s1, s2}
            && after.lazy == e0.lazy
            && after.actions
               == e0.actions + [Statement(q1, QueueCode("FCFS", "FCFS", enc)), Statement(q2, QueueCode("FCFS", "FCFS", enc)),
                                Statement(s1, DequeueCode(q1)), Statement(s2, DequeueCode(q2)),
                                DispatchAction(test, q1, q2, stream)]
  {
  }

  /** Defining one name leaves every other name as used or unused as it
      was. */
  lemma UnusedAfterDefine(e: Env, a: string, c: string, b: string)
    requires a != b
    ensures Unused(DefineNew(e, a, c), b) <==> Unused(e, b)
  {
  }

  /** The two FCFS queues of test_stream, unnamed, in order. */
  method TwoQueues(scope: Scope, item: TypeItem, ids: Counter) returns (r: Result<(Port, Port)>)
    modifies scope.Root(), ids
    ensures var next := old(ids.next);
            var q1 := scope.Prefix() + PortName(next);
            var q2 := scope.Prefix() + PortName(next + 1);
            var e := old(scope.Root().State());
            var dt := QueueType(scope.BaseComp(), item, "FCFS", "FCFS");
            var enc := EncodeDataType(ComputationType(scope.BaseComp(), dt));
            && (r.Success? <==> Unused(e, q1) && Unused(e, q2) && enc.Success?)
            && (!Unused(e, q1) ==>
                  r == Failure(Promise(e, q1).error) && scope.Root().State() == e && ids.next == next + 1)
            && (Unused(e, q1) && enc.Failure? ==>
                  r == Failure(enc.error) && scope.Root().State() == e.(lazy := e.lazy + {q1}) && ids.next == next + 1)
            && (Unused(e, q1) && enc.Success? && !Unused(e, q2) ==>
                  var e1 := DefineNew(e, q1, QueueCode("FCFS", "FCFS", enc.value));
                  r == Failure(Promise(e1, q2).error) && scope.Root().State() == e1 && ids.next == next + 2)
            && (r.Success? ==>
                  ids.next == next + 2
                  && scope.Root().State()
                     == DefineNew(DefineNew(e, q1, QueueCode("FCFS", "FCFS", enc.value)), q2, QueueCode("FCFS", "FCFS", enc.value))
                  && r.value.0.Is(scope, dt, UnboundedQueue(item, "FCFS", "FCFS"), PortName(next), "",
                                  Some(QueueCode("FCFS", "FCFS", enc.value)), false, false)
                  && r.value.1.Is(scope, dt, UnboundedQueue(item, "FCFS", "FCFS"), PortName(next + 1), "",
                                  Some(QueueCode("FCFS", "FCFS", enc.value)), false, false))
  {
    ghost var e := scope.Root().State();
    ghost var next := ids.next;
    ghost var q1 := scope.Prefix() + PortName(next);
    ghost var q2 := scope.Prefix() + PortName(next + 1);
    PortNamesDiffer(scope.Prefix(), next, next + 1);
    assert "FCFS" in QueueStrategies;
    var trueQ := CreateUnboundedQueue(scope, item, None, None, "FCFS", "FCFS", ids);
    if trueQ.Failure? {
      return Failure(trueQ.error);
    }
    ghost var e1 := scope.Root().State();
    var falseQ := CreateUnboundedQueue(scope, item, None, None, "FCFS", "FCFS", ids);
    UnusedAfterDefine(e, q1, trueQ.value.comp.value, q2);
    if falseQ.Failure? {
      return Failure(falseQ.error);
    }
    r := Success((trueQ.value, falseQ.value));
  }

  /** The two streams of test_stream, one dequeued from each queue. */
  method TwoDequeues(q1: Port, q2: Port, ids: Counter) returns (r: Result<(Port, Port)>)
    requires q1.kind.UnboundedQueue? && q2.kind.UnboundedQueue? && q1.scope == q2.scope && q1.kind == q2.kind
    modifies q1.scope.Root(), ids
    ensures var scope := q1.scope;
            var next := old(ids.next);
            var s1 := scope.Prefix() + PortName(next);
            var s2 := scope.Prefix() + PortName(next + 1);
            var e := old(scope.Root().State());
            var dt := StreamType(scope.BaseComp(), q1.kind.item);
            && (r.Success? <==> Unused(e, s1) && Unused(e, s2))
            && (!Unused(e, s1) ==>
                  r == Failure(Promise(e, s1).error) && scope.Root().State() == e && ids.next == next + 1)
            && (Unused(e, s1) && !Unused(e, s2) ==>
                  var e1 := DefineNew(e, s1, DequeueCode(q1.mangledName));
                  r == Failure(Promise(e1, s2).error) && scope.Root().State() == e1 && ids.next == next + 2)
            && (r.Success? ==>
                  ids.next == next + 2 && fresh(r.value.0) && fresh(r.value.1)
                  && scope.Root().State()
                     == DefineNew(DefineNew(e, s1, DequeueCode(q1.mangledName)), s2, DequeueCode(q2.mangledName))
                  && r.value.0.Is(scope, dt, Stream(q1.kind.item), PortName(next), "",
                                  Some(DequeueCode(q1.mangledName)), true, false)
                  && r.value.1.Is(scope, dt, Stream(q1.kind.item), PortName(next + 1), "",
                                  Some(DequeueCode(q2.mangledName)), true, false))
  {
    ghost var e := q1.scope.Root().State();
    ghost var next := ids.next;
    ghost var s1 := q1.scope.Prefix() + PortName(next);
    ghost var s2 := q1.scope.Prefix() + PortName(next + 1);
    PortNamesDiffer(q1.scope.Prefix(), next, next + 1);
    var trueS := UnboundedDequeueStream(q1, ids);
    if trueS.Failure? {
      return Failure(trueS.error);
    }
    var falseS := UnboundedDequeueStream(q2, ids);
    UnusedAfterDefine(e, s1, DequeueCode(q1.mangledName), s2);
    if falseS.Failure? {
      return Failure(falseS.error);
    }
    r := Success((trueS.value, falseS.value));
  }

  /** test_stream: the stream is split by the test into the items for
      which it holds and the others. The queue and stream ports are made
      before the argument is bound, so a consumed argument is refused after
      they have been emitted. */
  method TestStream(test: Expr, s: Port, ids: Counter) returns (r: Result<(Port, Port)>)
    modifies s.scope.Root(), ids, s`outputBound
    ensures !s.kind.Stream? ==>
              r == Failure(NotAStream(s.name)) && s.outputBound == old(s.outputBound)
              && s.scope.Root().State() == old(s.scope.Root().State()) && ids.next == old(ids.next)
    ensures s.kind.Stream? ==>
              var e := old(s.scope.Root().State());
              TestedBy(test, s, s.kind.item, old(ids.next), e.(modules := e.modules + {QueueImport(s.scope.BaseComp())}),
                       old(s.outputBound), s.scope.Root().State(), ids.next, r)
  {
    if !s.kind.Stream? {
      return Failure(NotAStream(s.name));
    }
    var model := s.scope;
    var base := model.BaseComp();
    model.AddModuleImport(QueueImport(base));
    var item := s.kind.item;
    r := Dispatch(test, s, item, ids);
  }

  /** The effect of the body of test_stream on the model `e0` (the import
      already added), given the counter and the argument's output flag
      before it. */
  predicate TestedBy(test: Expr, s: Port, item: TypeItem, next: nat, e0: Env, sBound: bool,
                     after: Env, nextAfter: nat, r: Result<(Port, Port)>)
    reads s, if r.Success? then {r.value.0, r.value.1} else {}
  {
    var base := s.scope.BaseComp();
    var prefix := s.scope.Prefix();
    var enc := EncodeDataType(ComputationType(base, QueueType(base, item, "FCFS", "FCFS")));
    && (r.Success? <==>
          Unused(e0, prefix + PortName(next)) && Unused(e0, prefix + PortName(next + 1))
          && Unused(e0, prefix + PortName(next + 2)) && Unused(e0, prefix + PortName(next + 3))
          && enc.Success? && !sBound)
    && (r.Failure? ==> s.outputBound == sBound)
    && TestFailure(e0, prefix, next, enc, sBound, after, nextAfter, r, s.name)
    && (r.Success? ==>
          nextAfter == next + 4 && s.outputBound
          && after == Dispatched(e0, prefix, next, enc.value, test.Read("a"), s.mangledName)
          && r.value.0.Is(s.scope, StreamType(base, item), Stream(item), PortName(next + 2), "",
                          Some(DequeueCode(prefix + PortName(next))), true, false)
          && r.value.1.Is(s.scope, StreamType(base, item), Stream(item), PortName(next + 3), "",
                          Some(DequeueCode(prefix + PortName(next + 1))), true, false))
  }

  /** The failures of the body of test_stream, in the order of its steps:
      the first queue's name, the encoding of the queue type, the second
      queue's name, the two streams' names, and last the argument already
      consumed, each with the model it leaves behind. */
  predicate TestFailure(e0: Env, prefix: string, next: nat, enc: Result<string>, sBound: bool,
                        after: Env, nextAfter: nat, r: Result<(Port, Port)>, sName: string)
  {
    var q1, q2 := prefix + PortName(next), prefix + PortName(next + 1);
    var s1, s2 := prefix + PortName(next + 2), prefix + PortName(next + 3);
    && (!Unused(e0, q1) ==> r == Failure(Promise(e0, q1).error) && after == e0 && nextAfter == next + 1)
    && (Unused(e0, q1) && enc.Failure? ==>
          r == Failure(enc.error) && after == e0.(lazy := e0.lazy + {q1}) && nextAfter == next + 1)
    && (Unused(e0, q1) && enc.Success? ==>
          var e1 := DefineNew(e0, q1, QueueCode("FCFS", "FCFS", enc.value));
          var e2 := DefineNew(e1, q2, QueueCode("FCFS", "FCFS", enc.value));
          var e3 := DefineNew(e2, s1, DequeueCode(q1));
          var e4 := DefineNew(e3, s2, DequeueCode(q2));
          && (!Unused(e0, q2) ==> r == Failure(Promise(e1, q2).error) && after == e1 && nextAfter == next + 2)
          && (Unused(e0, q2) && !Unused(e0, s1) ==>
                r == Failure(Promise(e2, s1).error) && after == e2 && nextAfter == next + 3)
          && (Unused(e0, q2) && Unused(e0, s1) && !Unused(e0, s2) ==>
                r == Failure(Promise(e3, s2).error) && after == e3 && nextAfter == next + 4)
          && (Unused(e0, q2) && Unused(e0, s1) && Unused(e0, s2) && sBound ==>
                r == Failure(AlreadyBoundToOutput(sName)) && after == e4 && nextAfter == next + 4))
  }

  /** test_stream after the import: the queues, the streams, the binding
      of the argument and the dispatch action. */
  method Dispatch(test: Expr, s: Port, item: TypeItem, ids: Counter) returns (r: Result<(Port, Port)>)
    requires s.kind.Stream?
    modifies s.scope.Root(), ids, s`outputBound
    ensures r.Success? ==> fresh(r.value.0) && fresh(r.value.1)
    ensures TestedBy(test, s, item, old(ids.next), old(s.scope.Root().State()), old(s.outputBound),
                     s.scope.Root().State(), ids.next, r)
  {
    var model := s.scope;
    ghost var prefix := model.Prefix();
    ghost var next := ids.next;
    ghost var e0 := model.Root().State();
    var qs := TwoQueues(model, item, ids);
    if qs.Failure? {
      return Failure(qs.error);
    }
    var trueQ, falseQ := qs.value.0, qs.value.1;
    ghost var q1, q2 := prefix + PortName(next), prefix + PortName(next + 1);
    ghost var s1, s2 := prefix + PortName(next + 2), prefix + PortName(next + 3);
    ghost var c := trueQ.comp.value;
    PortNamesDiffer(prefix, next, next + 2);
    PortNamesDiffer(prefix, next, next + 3);
    PortNamesDiffer(prefix, next + 1, next + 2);
    PortNamesDiffer(prefix, next + 1, next + 3);
    UnusedAfterDefine(DefineNew(e0, q1, c), q2, c, s1);
    UnusedAfterDefine(e0, q1, c, s1);
    UnusedAfterDefine(DefineNew(e0, q1, c), q2, c, s2);
    UnusedAfterDefine(e0, q1, c, s2);
    ghost var e2 := model.Root().State();
    assert Unused(e2, s1) && Unused(e2, s2) <==> Unused(e0, s1) && Unused(e0, s2);
    r := DequeueAndDispatch(test, s, trueQ, falseQ, ids);
  }

  /** The rest of test_stream: a stream dequeued from each queue, then the
      argument bound to its output and the dispatch action. */
  method DequeueAndDispatch(test: Expr, s: Port, trueQ: Port, falseQ: Port, ids: Counter) returns (r: Result<(Port, Port)>)
    requires s.kind.Stream? && trueQ.kind.UnboundedQueue? && trueQ.kind == falseQ.kind
    requires trueQ.scope == s.scope && falseQ.scope == s.scope
    modifies s.scope.Root(), ids, s`outputBound
    ensures r.Success? ==> fresh(r.value.0) && fresh(r.value.1)
    ensures var next := old(ids.next);
            var s1 := s.scope.Prefix() + PortName(next);
            var s2 := s.scope.Prefix() + PortName(next + 1);
            var e := old(s.scope.Root().State());
            var dt := StreamType(s.scope.BaseComp(), trueQ.kind.item);
            && (r.Success? <==> Unused(e, s1) && Unused(e, s2) && !old(s.outputBound))
            && (r.Failure? ==> s.outputBound == old(s.outputBound))
            && (!Unused(e, s1) ==>
                  r == Failure(Promise(e, s1).error) && s.scope.Root().State() == e && ids.next == next + 1)
            && (Unused(e, s1) && !Unused(e, s2) ==>
                  var e1 := DefineNew(e, s1, DequeueCode(trueQ.mangledName));
                  r == Failure(Promise(e1, s2).error) && s.scope.Root().State() == e1 && ids.next == next + 2)
            && (Unused(e, s1) && Unused(e, s2) && old(s.outputBound) ==>
                  r == Failure(AlreadyBoundToOutput(s.name)) && ids.next == next + 2
                  && s.scope.Root().State()
                     == DefineNew(DefineNew(e, s1, DequeueCode(trueQ.mangledName)), s2, DequeueCode(falseQ.mangledName)))
            && (r.Success? ==>
                  ids.next == next + 2 && s.outputBound
                  && s.scope.Root().State()
                     == Act(DefineNew(DefineNew(e, s1, DequeueCode(trueQ.mangledName)), s2, DequeueCode(falseQ.mangledName)),
                            DispatchAction(test.Read("a"), trueQ.mangledName, falseQ.mangledName, s.mangledName))
                  && r.value.0.Is(s.scope, dt, Stream(trueQ.kind.item), PortName(next), "",
                                  Some(DequeueCode(trueQ.mangledName)), true, false)
                  && r.value.1.Is(s.scope, dt, Stream(trueQ.kind.item), PortName(next + 1), "",
                                  Some(DequeueCode(falseQ.mangledName)), true, false))
  {
    var model := s.scope;
    var ss := TwoDequeues(trueQ, falseQ, ids);
    if ss.Failure? {
      return Failure(ss.error);
    }
    var o := s.BindToOutput();
    if o.Fail? {
      return Failure(o.error);
    }
    var code := "runProcessInStartTime $ consumeStream (\\a -> liftEvent $ do { f <- " + test.Read("a")
      + "; if f then IQ.enqueue " + trueQ.Read() + " a else IQ.enqueue " + falseQ.Read() + " a }) " + s.Read();
    model.AddAction(code);
    r := ss;
  }

  /** The definition of a transformed stream. */
  function TransformCode(transform: string, stream: string): string
  {
    "return $ mapStreamM (\\a -> liftEvent " + transform + ") " + stream
  }

  /** transform_stream: a transform of another model is refused before any
      port is made; otherwise a new stream is derived from the argument. */
  method TransformStream(t: Expr, s: Port, ids: Counter) returns (r: Result<Port>)
    modifies s.scope.Root(), ids, s`outputBound
    ensures !s.kind.Stream? ==> r == Failure(NotAStream(s.name))
    ensures s.kind.Stream? && s.scope != t.scope ==> r == Failure(DifferentModels)
    ensures !(s.kind.Stream? && s.scope == t.scope) ==>
              s.outputBound == old(s.outputBound)
              && s.scope.Root().State() == old(s.scope.Root().State()) && ids.next == old(ids.next)
    ensures s.kind.Stream? && s.scope == t.scope ==>
              ids.next == old(ids.next) + 1 && (r.Success? ==> fresh(r.value))
              && Derived(s.scope, StreamType(s.scope.BaseComp(), s.kind.item), Stream(s.kind.item),
                         TransformCode(t.Read("a"), s.mangledName), s, old(ids.next), old(s.scope.Root().State()),
                         old(s.outputBound), s.scope.Root().State(), r)
  {
    if !s.kind.Stream? {
      return Failure(NotAStream(s.name));
    }
    var model := s.scope;
    if model != t.scope {
      return Failure(DifferentModels);
    }
    var item := s.kind.item;
    var code := "return $ mapStreamM (\\a -> liftEvent " + t.Read("a") + ") " + s.Read();
    r := DerivePort(model, StreamType(model.BaseComp(), item), Stream(item), code, s, ids);
  }
}

=== FILE: stream_port.dfy ===
/*
 * The older stream operations (stream_port.py): a stream is any port whose
 * data type starts with 'Stream', and the ports made are plain once-ports
 * carrying that whole data type.
 */
module StreamPorts {
  import opened Outcomes
  import opened Strings
  import opened Models
  import opened DataTypes
  import opened Ports
  import opened Plumbing

  /** A port counts as a stream when its data type starts with 'Stream'. */
  predicate IsStreamPort(p: Port)
  {
    |p.dataType| > 0 && p.dataType[0] == Atom("Stream")
  }

  /** expect_stream_port */
  function ExpectStreamPort(p: Port): (r: Outcome)
    ensures r == Pass <==> IsStreamPort(p)
    ensures r.Fail? ==> r.error == NotAStream(p.name)
  {
    if |p.dataType| == 0 || p.dataType[0] != Atom("Stream") then Fail(NotAStream(p.name)) else Pass
  }

  /** empty_stream of this file: a once-port of ['Stream', base?, item]
      defined as the empty stream, but not bound to its input. */
  method EmptyStream(scope: Scope, item: TypeItem, ids: Counter) returns (r: Result<Port>)
    modifies scope.Root(), ids
    ensures ids.next == old(ids.next) + 1
    ensures var n := PortName(old(ids.next));
            var mn := scope.Prefix() + n;
            var e := old(scope.Root().State());
            && (r.Success? <==> Unused(e, mn))
            && (r.Failure? ==> r.error == Promise(e, mn).error && scope.Root().State() == e)
            && (r.Success? ==>
                  fresh(r.value)
                  && scope.Root().State() == DefineNew(e, mn, "return emptyStream")
                  && r.value.Is(scope, StreamType(scope.BaseComp(), item), Once, n, "", Some("return emptyStream"),
                                false, false))
  {
    var base := scope.BaseComp();
    var made := NewUnnamedPort(scope, StreamType(base, item), Once, ids);
    if made.Failure? {
      return Failure(made.error);
    }
    var y := made.value;
    PromiseThenDefine(old(scope.Root().State()), y.mangledName, "return emptyStream");
    var w := y.Write("return emptyStream");
    assert w == Pass;
    r := Success(y);
  }

  /** terminate_stream of this file: the port is bound to its output and
      one action consumes it. */
  method TerminateStream(p: Port) returns (r: Outcome)
    modifies p`outputBound, p.scope.Root()
    ensures !IsStreamPort(p) ==>
              r == Fail(NotAStream(p.name)) && p.outputBound == old(p.outputBound)
              && p.scope.Root().State() == old(p.scope.Root().State())
    ensures IsStreamPort(p) ==>
              var bound := p.kind.IsOnce() && !old(p.outputBound);
              && p.outputBound == (old(p.outputBound) || p.kind.IsOnce())
              && (!bound ==>
                    r == Fail(if p.kind.IsOnce() then AlreadyBoundToOutput(p.name) else NotAPortOnce(p.name))
                    && p.scope.Root().State() == old(p.scope.Root().State()))
              && (bound ==>
                    r == Pass
                    && p.scope.Root().State()
                       == Act(old(p.scope.Root().State()), "runProcessInStartTime $ sinkStream " + p.mangledName))
  {
    r := ExpectStreamPort(p);
    if r.Fail? {
      return;
    }
    var model := p.scope;
    var code := "runProcessInStartTime $ sinkStream " + p.mangledName;
    r := p.BindToOutput();
    if r.Fail? {
      return;
    }
    model.AddAction(code);
  }

  /** delay_stream of this file: a new once-port of the argument's own
      data type, derived from it. */
  method DelayStream(delay: string, p: Port, ids: Counter) returns (r: Result<Port>)
    modifies p.scope.Root(), ids, p`outputBound
    ensures !IsStreamPort(p) ==>
              r == Failure(NotAStream(p.name)) && p.outputBound == old(p.outputBound)
              && p.scope.Root().State() == old(p.scope.Root().State()) && ids.next == old(ids.next)
    ensures IsStreamPort(p) ==>
              ids.next == old(ids.next) + 1 && (r.Success? ==> fresh(r.value))
              && Derived(p.scope, p.dataType, Once,
                         "return $ mapStreamM (\\a -> do { holdProcess " + delay + "; return a }) " + p.mangledName,
                         p, old(ids.next), old(p.scope.Root().State()), old(p.outputBound), p.scope.Root().State(), r)
  {
    var o := ExpectStreamPort(p);
    if o.Fail? {
      return Failure(o.error);
    }
    var model := p.scope;
    var code := "return $ mapStreamM (\\a -> do { holdProcess " + delay + "; return a }) " + p.Read();
    r := DerivePort(model, p.dataType, Once, code, p, ids);
  }

  /** split_stream of this file: FanOut with once-ports of the argument's
      data type. */
  method SplitStream(count: int, p: Port, ids: Counter) returns (r: Result<seq<Port>>)
    modifies p.scope.Root(), ids, p`outputBound
    ensures !IsStreamPort(p) ==>
              r == Failure(NotAStream(p.name)) && p.outputBound == old(p.outputBound)
              && p.scope.Root().State() == old(p.scope.Root().State()) && ids.next == old(ids.next)
    ensures IsStreamPort(p) ==>
              (r.Success? ==> forall i :: 0 <= i < |r.value| ==> fresh(r.value[i]))
              && FannedOut(p, "splitStream", p.dataType, Once, count, old(ids.next), old(p.scope.Root().State()),
                           old(p.outputBound), p.scope.Root().State(), ids.next, r)
  {
    var o := ExpectStreamPort(p);
    if o.Fail? {
      return Failure(o.error);
    }
    r := FanOut(p, "splitStream", p.dataType, Once, count, ids);
  }

  /** The checks the loop of merge_streams makes on ports[i:], against
      ports[0], in the order it makes them. */
  function CheckFrom(ps: seq<Port>, i: nat): Outcome
    requires 0 < |ps|
    decreases |ps| - i
  {
    if i >= |ps| then Pass
    else if !IsStreamPort(ps[i]) then Fail(NotAStream(ps[i].name))
    else if ps[0].scope != ps[i].scope then Fail(DifferentModels)
    else if ps[0].dataType != ps[i].dataType then Fail(DifferentDataTypes)
    else CheckFrom(ps, i + 1)
  }

  /** The ports from i on are streams of the first port's model and data
      type. */
  predicate AgreeFrom(ps: seq<Port>, i: nat)
    requires 0 < |ps|
  {
    forall j :: i <= j < |ps| ==> IsStreamPort(ps[j]) && ps[j].scope == ps[0].scope && ps[j].dataType == ps[0].dataType
  }

  /** The checks pass exactly when every later port agrees with the
      first. */
  lemma {:induction false} CheckFromPasses(ps: seq<Port>, i: nat)
    requires 0 < |ps|
    ensures CheckFrom(ps, i) == Pass <==> AgreeFrom(ps, i)
    decreases |ps| - i
  {
    if i < |ps| {
      CheckFromPasses(ps, i + 1);
    }
  }

  /** The loop `for i in range(1, len(ports))` of merge_streams. */
  method CheckMergeable(ps: seq<Port>) returns (r: Outcome)
    requires 0 < |ps|
    ensures r == CheckFrom(ps, 1)
  {
    var p0 := ps[0];
    var i := 1;
    while i < |ps|
      invariant 1 <= i <= |ps|
      invariant CheckFrom(ps, 1) == CheckFrom(ps, i)
    {
      var pi := ps[i];
      var o := ExpectStreamPort(pi);
      if o.Fail? {
        return o;
      }
      if p0.scope != pi.scope {
        return Fail(DifferentModels);
      }
      if p0.dataType != pi.dataType {
        return Fail(DifferentDataTypes);
      }
      i := i + 1;
    }
    r := Pass;
  }

  /** merge_streams of this file: every check is made before anything is
      bound; then the shared merge tail with mergeStreams. */
  method MergeStreams(ps: seq<Port>, ids: Counter) returns (r: Result<Port>)
    modifies if |ps| > 0 then {ps[0].scope.Root()} else {}, ids, set p | p in ps
    ensures |ps| == 0 ==> r == Failure(NoPorts) && ids.next == old(ids.next)
    ensures |ps| > 0 && !IsStreamPort(ps[0]) ==> r == Failure(NotAStream(ps[0].name))
    ensures |ps| > 0 && IsStreamPort(ps[0]) && CheckFrom(ps, 1).Fail? ==> r == Failure(CheckFrom(ps, 1).error)
    ensures |ps| > 0 && !AgreeFrom(ps, 0) ==>
              r.Failure? && ids.next == old(ids.next) && ps[0].scope.Root().State() == old(ps[0].scope.Root().State())
              && forall p :: p in ps ==> p.outputBound == old(p.outputBound)
    ensures forall p :: p in ps ==> p.inputBound == old(p.inputBound) && p.comp == old(p.comp)
    ensures |ps| > 0 && AgreeFrom(ps, 0) ==>
              var scope := ps[0].scope;
              var n := PortName(old(ids.next));
              var mn := scope.Prefix() + n;
              var e := old(scope.Root().State());
              && ids.next == old(ids.next) + 1
              && (r.Success? <==>
                    Unused(e, mn)
                    && forall j :: 0 <= j < |ps| ==> ps[j].kind.IsOnce() && !old(ps[j].outputBound) && ps[j] !in ps[..j])
              && (r.Success? ==>
                    fresh(r.value) && scope.Root().State() == DefineNew(e, mn, MergeCode("mergeStreams", MangledNames(ps))))
              && Merged(scope, ps[0].dataType, Once, ps, "mergeStreams", old(ids.next), e, old(OutputFlags(ps)),
                        scope.Root().State(), r)
  {
    if |ps| == 0 {
      return Failure(NoPorts);
    }
    var p0 := ps[0];
    var o := ExpectStreamPort(p0);
    if o.Fail? {
      return Failure(o.error);
    }
    o := CheckMergeable(ps);
    CheckFromPasses(ps, 1);
    if o.Fail? {
      return Failure(o.error);
    }
    var model := p0.scope;
    r := MergePorts(model, p0.dataType, Once, ps, "mergeStreams", ids);
  }
}

=== FILE: strings.dfy ===
/*
 * The few Python string operations the modeler's code generation relies on:
 * str.join, str() of an integer and str.replace.
 */
module Strings {

  /** Python's `sep.join(items)`, built up from the left as the loops that
      emit code with a `first` flag do. */
  function Join(items: seq<string>, sep: string): string
  {
    if |items| == 0 then ""
    else if |items| == 1 then items[0]
    else Join(items[..|items| - 1], sep) + sep + items[|items| - 1]
  }

  /** Every item preceded by the separator: an independent description of
      what follows the first item of a join. */
  function Prefixed(items: seq<string>, sep: string): string
  {
    if items == [] then "" else sep + items[0] + Prefixed(items[1..], sep)
  }

  lemma {:induction false} PrefixedSnoc(items: seq<string>, x: string, sep: string)
    ensures Prefixed(items + [x], sep) == Prefixed(items, sep) + sep + x
  {
    if items == [] {
      assert items + [x] == [x];
    } else {
      assert (items + [x])[1..] == items[1..] + [x];
      PrefixedSnoc(items[1..], x, sep);
    }
  }

  /** A join is the first item followed by every other item, in order, each
      behind one separator. */
  lemma {:induction false} JoinIsFirstThenPrefixed(items: seq<string>, sep: string)
    requires |items| > 0
    ensures Join(items, sep) == items[0] + Prefixed(items[1..], sep)
  {
    if |items| > 1 {
      var init := items[..|items| - 1];
      JoinIsFirstThenPrefixed(init, sep);
      assert items[1..] == init[1..] + [items[|items| - 1]];
      PrefixedSnoc(init[1..], items[|items| - 1], sep);
    }
  }

  /** Joining one more item puts it at the end, behind one separator
      unless it is the only item. */
  lemma JoinSnoc(items: seq<string>, x: string, sep: string)
    ensures Join(items + [x], sep) == if items == [] then x else Join(items, sep) + sep + x
  {
    assert (items + [x])[..|items|] == items;
  }

  /** Joining a non-empty list extended by more items: the extra items
      follow, each behind one separator. */
  lemma {:induction false} JoinThenPrefixed(a: seq<string>, b: seq<string>, sep: string)
    requires |a| > 0
    ensures Join(a + b, sep) == Join(a, sep) + Prefixed(b, sep)
    decreases |b|
  {
    if b == [] {
      assert a + b == a;
    } else {
      var init, x := b[..|b| - 1], b[|b| - 1];
      assert a + b == (a + init) + [x];
      JoinSnoc(a + init, x, sep);
      assert Join(a + b, sep) == Join(a + init, sep) + sep + x;
      JoinThenPrefixed(a, init, sep);
      assert init + [x] == b;
      PrefixedSnoc(init, x, sep);
      assert Prefixed(b, sep) == Prefixed(init, sep) + sep + x;
    }
  }

  /** Joining two non-empty lists puts one separator between the parts. */
  lemma JoinAppend(a: seq<string>, b: seq<string>, sep: string)
    requires |a| > 0 && |b| > 0
    ensures Join(a + b, sep) == Join(a, sep) + sep + Join(b, sep)
  {
    JoinThenPrefixed(a, b, sep);
    JoinIsFirstThenPrefixed(b, sep);
  }

  /** Where the k-th item sits in a join: after the join of the items
      before it and one separator (none for the first item). */
  lemma JoinAt(items: seq<string>, sep: string, k: nat)
    requires k < |items|
    ensures Join(items, sep)
              == Join(items[..k], sep) + (if k == 0 then "" else sep) + items[k] + Prefixed(items[k + 1..], sep)
  {
    if k == 0 {
      JoinIsFirstThenPrefixed(items, sep);
    } else {
      assert items == items[..k] + items[k..];
      JoinThenPrefixed(items[..k], items[k..], sep);
      assert items[k..][1..] == items[k + 1..];
    }
  }

  /** The `n` characters of `s` from position `i`. */
  function Window(s: string, i: nat, n: nat): (w: string)
    requires i + n <= |s|
    ensures |w| == n
  {
    s[i..i + n]
  }

  /** `t` is a substring of `s`. */
  predicate Occurs(t: string, s: string)
  {
    exists i: nat :: i + |t| <= |s| && Window(s, i, |t|) == t
  }

  lemma OccursIn(a: string, t: string, b: string)
    ensures Occurs(t, a + t + b)
  {
    var s := a + t + b;
    assert Window(s, |a|, |t|) == t;
  }

  /** The middle of a three-part text sits between the other two. */
  lemma PieceAt(a: string, t: string, b: string)
    ensures (a + t + b)[..|a|] == a && (a + t + b)[|a|..|a| + |t|] == t && (a + t + b)[|a| + |t|..] == b
  {
    var s := a + t + b;
    assert s[..|a|] == a;
    assert s[|a|..|a| + |t|] == t;
    assert s[|a| + |t|..] == b;
  }

  lemma OccursWithin(t: string, u: string, s: string)
    requires Occurs(t, u) && Occurs(u, s)
    ensures Occurs(t, s)
  {
    var i: nat :| i + |t| <= |u| && Window(u, i, |t|) == t;
    var j: nat :| j + |u| <= |s| && Window(s, j, |u|) == u;
    assert u == s[j..j + |u|];
    var x, y := u[i..i + |t|], s[j + i..j + i + |t|];
    forall m | 0 <= m < |t| ensures x[m] == y[m] {
      assert u[i + m] == s[j + i + m];
    }
    assert x == y;
    assert Window(s, j + i, |t|) == t;
  }

  /** Each item of a join, wherever the join is embedded, occurs in the
      text. */
  lemma ItemOccursInJoin(open: string, items: seq<string>, sep: string, close: string, k: nat)
    requires k < |items|
    ensures Occurs(items[k], open + Join(items, sep) + close)
  {
    JoinAt(items, sep, k);
    var before := open + Join(items[..k], sep) + (if k == 0 then "" else sep);
    var after := Prefixed(items[k + 1..], sep) + close;
    assert open + Join(items, sep) + close == before + items[k] + after;
    OccursIn(before, items[k], after);
  }

  function DigitChar(d: nat): (c: char)
    requires d < 10
    ensures '0' <= c <= '9'
  {
    ('0' as int + d) as char
  }

  predicate IsDigits(s: string)
  {
    forall i :: 0 <= i < |s| ==> '0' <= s[i] <= '9'
  }

  /** Python's `str(n)` for a natural number: its decimal digits. */
  function NatToString(n: nat): (s: string)
    ensures |s| > 0 && IsDigits(s)
  {
    if n < 10 then [DigitChar(n)] else NatToString(n / 10) + [DigitChar(n % 10)]
  }

  /** The value of a string of decimal digits (the inverse of NatToString). */
  function DigitsValue(s: string): nat
    requires IsDigits(s)
  {
    if s == [] then 0
    else DigitsValue(s[..|s| - 1]) * 10 + (s[|s| - 1] as int - '0' as int)
  }

  lemma {:induction false} DigitsValueOfNatToString(n: nat)
    ensures DigitsValue(NatToString(n)) == n
  {
    var s := NatToString(n);
    if n >= 10 {
      DigitsValueOfNatToString(n / 10);
      assert s[..|s| - 1] == NatToString(n / 10);
    } else {
      assert s[..|s| - 1] == [];
    }
  }

  /** Distinct numbers render differently: generated names never collide. */
  lemma NatToStringInjective(a: nat, b: nat)
    requires a != b
    ensures NatToString(a) != NatToString(b)
  {
    DigitsValueOfNatToString(a);
    DigitsValueOfNatToString(b);
  }

  /** Python's `str(i)` for any integer. */
  function IntToString(i: int): string
  {
    if i < 0 then "-" + NatToString(-i) else NatToString(i)
  }

  /** Distinct integers render differently: a negative number is the only
      rendering that starts with a minus sign. */
  lemma IntToStringInjective(a: int, b: int)
    requires a != b
    ensures IntToString(a) != IntToString(b)
  {
    if a < 0 && b < 0 {
      NatToStringInjective(-a, -b);
      SignDropped(NatToString(-a));
      SignDropped(NatToString(-b));
    } else if a >= 0 && b >= 0 {
      NatToStringInjective(a, b);
    } else if a < 0 {
      SignNotDigit(NatToString(-a), NatToString(b));
    } else {
      SignNotDigit(NatToString(-b), NatToString(a));
    }
  }

  lemma SignDropped(t: string)
    ensures ("-" + t)[1..] == t
  {
  }

  /** A rendering with a minus sign differs from any string of digits. */
  lemma SignNotDigit(t: string, u: string)
    requires |u| > 0 && IsDigits(u)
    ensures "-" + t != u
  {
    assert ("-" + t)[0] == '-';
    assert '0' <= u[0] <= '9';
  }

  /** Python's `s.replace(pat, rep)`: every non-overlapping occurrence of
      `pat`, scanning from the left, is replaced by `rep`. */
  function Replace(s: string, pat: string, rep: string): string
    requires |pat| > 0
    decreases |s|
  {
    if |s| < |pat| then s
    else if s[..|pat|] == pat then rep + Replace(s[|pat|..], pat, rep)
    else [s[0]] + Replace(s[1..], pat, rep)
  }

  /** Replacing a single character looks at the first character alone. */
  lemma ReplaceCharCons(c: char, rest: string, p: char, rep: string)
    ensures Replace([c] + rest, [p], rep) == (if c == p then rep else [c]) + Replace(rest, [p], rep)
  {
    var s := [c] + rest;
    assert s[..1] == [c];
    assert s[1..] == rest;
  }
}

=== FILE: util.dfy ===
/*
 * The type-tag encoder of util.py, used by the queue operations: the same
 * recursion as in data_type.py but without the record-type case, so a
 * record type anywhere in the tag is refused.
 */
module Util {
  import opened Outcomes
  import opened Strings
  import opened DataTypes

  /** No record type at any depth. */
  predicate RecordFree(item: TypeItem)
  {
    match item
    case Record(_) => false
    case Nested(items) => forall i :: 0 <= i < |items| ==> RecordFree(items[i])
    case _ => true
  }

  predicate AllRecordFree(dt: DataType)
  {
    forall i :: 0 <= i < |dt| ==> RecordFree(dt[i])
  }

  /** encode_data_type of util.py. */
  function EncodePlainType(dt: DataType): (r: Result<string>)
    ensures r.Failure? ==> r.error == IllegalDataTypeItem
    decreases dt, 1
  {
    match EncodePlainItems(dt)
    case Failure(e) => Failure(e)
    case Success(ts) => Success(Join(ts, " "))
  }

  function EncodePlainItems(dt: DataType): (r: Result<seq<string>>)
    ensures r.Success? ==> |r.value| == |dt|
    ensures r.Failure? ==> r.error == IllegalDataTypeItem
    decreases dt, 0
  {
    if dt == [] then Success([])
    else match EncodePlainItem(dt[0])
      case Failure(e) => Failure(e)
      case Success(t) =>
        match EncodePlainItems(dt[1..])
        case Failure(e) => Failure(e)
        case Success(ts) => Success([t] + ts)
  }

  /** _encode_data_type_item of util.py: strings and lists only. */
  function EncodePlainItem(item: TypeItem): (r: Result<string>)
    ensures r.Failure? ==> r.error == IllegalDataTypeItem
    decreases item
  {
    match item
    case Atom(s) => Success(s)
    case Nested(items) =>
      (match EncodePlainType(items)
       case Failure(e) => Failure(e)
       case Success(s) => Success("(" + s + ")"))
    case _ => Failure(IllegalDataTypeItem)
  }

  /** On items without record types the two encoders agree; this one
      succeeds exactly on legal, record-free items. */
  lemma {:induction false} PlainItemAgrees(item: TypeItem)
    ensures RecordFree(item) ==> EncodePlainItem(item) == EncodeItem(item)
    ensures EncodePlainItem(item).Success? <==> Legal(item) && RecordFree(item)
    decreases item
  {
    match item
    case Nested(items) =>
      PlainTypeAgrees(items);
    case _ =>
  }

  lemma {:induction false} PlainTypeAgrees(dt: DataType)
    ensures AllRecordFree(dt) ==> EncodePlainType(dt) == EncodeDataType(dt)
    ensures EncodePlainType(dt).Success? <==> AllLegal(dt) && AllRecordFree(dt)
    decreases dt, 1
  {
    PlainItemsAgree(dt);
  }

  lemma {:induction false} PlainItemsAgree(dt: DataType)
    ensures AllRecordFree(dt) ==> EncodePlainItems(dt) == EncodeItems(dt)
    ensures EncodePlainItems(dt).Success? <==> AllLegal(dt) && AllRecordFree(dt)
    decreases dt, 0
  {
    if dt != [] {
      PlainItemAgrees(dt[0]);
      PlainItemsAgree(dt[1..]);
      forall i | 0 <= i < |dt| - 1
        ensures dt[1..][i] == dt[i + 1]
      {
      }
      assert AllRecordFree(dt) <==> RecordFree(dt[0]) && AllRecordFree(dt[1..]) by {
        if RecordFree(dt[0]) && AllRecordFree(dt[1..]) {
          forall i | 0 <= i < |dt| ensures RecordFree(dt[i]) {
            if i > 0 { assert dt[i] == dt[1..][i - 1]; }
          }
        }
      }
      assert AllLegal(dt) <==> Legal(dt[0]) && AllLegal(dt[1..]) by {
        if Legal(dt[0]) && AllLegal(dt[1..]) {
          forall i | 0 <= i < |dt| ensures Legal(dt[i]) {
            if i > 0 { assert dt[i] == dt[1..][i - 1]; }
          }
        }
      }
    }
  }

  /** A record type at any position of the tag's list is refused, even
      though the encoder of data_type.py renders it by its name. */
  lemma RecordRefused(before: DataType, t: TransactType, after: DataType)
    ensures EncodePlainType(before + [Record(t)] + after) == Failure(IllegalDataTypeItem)
    ensures EncodeItem(Record(t)) == Success(t.name)
  {
    var dt := before + [Record(t)] + after;
    assert dt[|before|] == Record(t);
    assert !AllRecordFree(dt);
    PlainTypeAgrees(dt);
  }

  /** A record type at any depth, inside nested lists too, makes the
      whole tag refused. */
  lemma NestedRecordRefused(dt: DataType)
    requires !AllRecordFree(dt)
    ensures EncodePlainType(dt) == Failure(IllegalDataTypeItem)
  {
    PlainTypeAgrees(dt);
  }
}
